=== FILE: README.md ===
# Remote — a Dafny model of the unit control loop and the pyoneer UI toolkit

Remote is a pygame space-combat prototype built on two versions of a small
retained-mode UI toolkit, pyoneer2 and pyoneer3. This project models the
core of both in Dafny and proves properties of the model.

**Toolkits**
- `XYComplex` anchors: a fraction of the parent's surface plus a pixel offset.
- Resolution of a node's absolute position through its parent chain.
- The element tree, with descendants and the priority-ordered draw traversal.
- Mouse-event dispatch with enter/exit edge detection.
- Handler binding.
- The vertical `ScrollingFrame` with its scrollbar thumb.
- Vector helpers (`vmath`).
- Animations:
  - the linear interpolator;
  - `Translation` and its `AnimationService`;
  - the deprecated `TimedAnimation` and its list service.

**Game**
- A `GameObject`'s control tick: timers, target search, proportional steering, thrust, turret slewing and fire flags, rotation wrap, and velocity and position integration.
- The menu wiring of `game.py`: tab selection, hover highlights, start and quit.
- How the main loop hands each event to every element of every scene.

**How the model is written**
- Values are immutable datatypes.
- Operations are functions, or methods where the source loops.
- Python exceptions become `Err` values of `Support.Result`. Each exception is named by a `Fault`:
  - `ZeroDivision`;
  - `NoneAttribute`, for an attribute read on `None`;
  - `IndexOutOfRange`;
  - `KeyMissing`;
  - `NotImplemented`;
  - `UnsetAttribute`;
  - `InvalidResolution`, for a pygame surface of negative size;
  - `AssertionFailed`, for a failing `assert` statement.
- Floating-point numbers are exact reals.
- Functions the source takes from `math` are parameters with stated laws (`Support.SqrtLaw`, `Support.AcosLaw`):
  - `sqrt`;
  - `degrees(acos(.))`;
  - the `tan`-based ship heading (`Gameplay.Numerics.facing`).
- Surfaces are reduced to their size, or to the colour they were last filled with.
- Handler calls are recorded as a list of `Call`s instead of being run.
- Timer callbacks are commands.
- Animation callbacks are counted.

Modules, one per source component:

| module | file | models |
|---|---|---|
| Support | support.dfy | `Option`, `Result`, faults, `int()` truncation, laws of the numeric oracles |
| VMath | vmath.dfy | `pyoneer3/vmath.py` |
| Sorting | sorting.dfy | `list.sort(key=...)` and list filtering as the toolkits use them |
| Placement | placement.dfy | `convert_absolute`, `extract_offsets`, `offset`, `center_position`, `calculate_absolute_position`, of pyoneer3 and of pyoneer2, whose copies are identical |
| Input | input.dfy | pygame events and `Rect.collidepoint`, `update_rect` |
| Graphics3 | graphics3.dfy | pyoneer3 `graphics.py`: colours, element tree, drawing, events, binding |
| Scrolling | scrolling.dfy | pyoneer3 `ScrollingFrame` |
| Graphics2 | graphics2.dfy | pyoneer2 `graphics.py`, related to pyoneer3 |
| Interpolation | interpolation.dfy | pyoneer2 `interpolation.py` |
| Animation | animation.dfy | pyoneer3 `animation.py` |
| AnimationDeprecated | animation_deprecated.dfy | `TimedAnimation` and the deprecated list service |
| Gameplay | gameplay.dfy | `gameplay.py` |
| Game | game.dfy | `game.py` |

## Model

| member | source | states |
|---|---|---|
| Support.Trunc | gameplay.py:34-38 | Python's `int()` on a float truncates toward zero: the result lies within one of its argument, on the side of zero |
| VMath.Add | pyoneer3/vmath.py:6-9 | the componentwise sum of two vectors of equal length, with the same length |
| VMath.Sub | pyoneer3/vmath.py:12-15 | the componentwise difference of two vectors of equal length |
| VMath.Mult | pyoneer3/vmath.py:18-21 | the componentwise product of two vectors of equal length |
| VMath.SubUndoesAdd | pyoneer3/vmath.py:6-15 | subtracting `b` undoes adding `b` |
| VMath.AddCommutes | pyoneer3/vmath.py:6-9 | vector addition commutes |
| VMath.DotSymmetric | pyoneer3/vmath.py:24-27 | the dot product is symmetric |
| VMath.MagnitudeSquared | pyoneer3/vmath.py:30-33 | the magnitude is non-negative and its square is the vector's dot product with itself |
| VMath.Normalize | pyoneer3/vmath.py:36-39 | the empty vector is returned unchanged; any other vector of zero length divides by zero; otherwise the result has the same length and each component is divided by the positive magnitude |
| VMath.NormalizeIsUnit | pyoneer3/vmath.py:36-39 | a normalized non-empty vector has unit length, and the empty one has length 0 |
| VMath.ClampUnit | pyoneer3/vmath.py:49 | `max(-1, min(1, x))` lies in [−1, 1] and is the identity there |
| VMath.AngleBetween | pyoneer3/vmath.py:42-53 | a truthy precomputed distance is used as is, otherwise the Euclidean length of the point; the projection is the dot product; a non-positive distance gives angle 0; otherwise the angle is the arccosine of the ratio clamped into [−1, 1]: the ratio itself inside, 1 for a projection beyond the distance and −1 for one below its negation; the angle always lies in [0, 180] |
| Sorting.InsertKeepsElements | pyoneer3/graphics.py:174 | inserting into the sorted prefix adds exactly one element |
| Sorting.InsertKeepsOrder | pyoneer3/graphics.py:174 | insertion keeps a list ordered by key |
| Sorting.InsertIsStable | pyoneer3/graphics.py:174 | among equal keys, the inserted element goes after those already present |
| Sorting.SortByKeyCorrect | pyoneer3/graphics.py:174 | `sort(key=...)` yields a permutation ordered by key in which elements of equal key keep their input order |
| Sorting.SortSortedIsIdentity | pyoneer3/graphics.py:174 | sorting an already ordered list changes nothing, so redrawing does not reorder the children again |
| Sorting.Filter | pyoneer3/animation.py:17 | a list comprehension with a condition keeps exactly the elements satisfying it, in order |
| Sorting.FilterAppend | pyoneer3/animation.py:17 | filtering distributes over concatenation |
| Sorting.FilterIdempotent | pyoneer3/deprecated/animation_service_deprecated.py:9 | filtering twice is filtering once |
| Sorting.SortCommutesWithMap | pyoneer2/graphics.py:163 | sorting commutes with any map that preserves the key, which relates the two toolkits' trees |
| Placement.ScalelessIsOffsets | pyoneer3/graphics.py:11-19 | an anchor without scale, or one resolved against an empty surface, is its offsets |
| Placement.Offset | pyoneer3/graphics.py:121-123 | `offset` adds the offsets to the anchor |
| Placement.OffsetResolvesLinearly | pyoneer3/graphics.py:121-123 | resolving an offset anchor against any surface equals resolving both anchors and adding them |
| Placement.CenterPosition | pyoneer3/graphics.py:125-134 | without a surface the `assert` fails; otherwise, against every parent, the new anchor plus half the surface resolves to the requested point |
| Placement.AbsoluteDefinedIffRooted | pyoneer3/graphics.py:136-148 | the absolute position exists exactly when every parent link ends in a Scene; otherwise `None.surf` raises |
| Placement.AbsoluteIsSumOfChain | pyoneer3/graphics.py:136-148 | the absolute position is the sum of each ancestor's anchor resolved against its parent's surface |
| Placement.CalculateAbsolutePosition | pyoneer3/graphics.py:136-148 | the loop over the parent chain computes that sum, and succeeds exactly for rooted chains; pyoneer2's copy (pyoneer2/graphics.py:135-146, with `convert_absolute` at lines 11-14) is the same loop |
| Input.RectAt | pyoneer3/graphics.py:150-153 | the rect placed at the absolute position contains its top-left corner exactly when the surface is non-empty, and every point it contains lies below and right of that corner |
| Graphics3.ClampChannel | pyoneer3/graphics.py:28-31 | a channel is clamped into [0, 255] and is unchanged inside it |
| Graphics3.ClampColor | pyoneer3/graphics.py:22-43 | every channel is clamped independently; an in-range colour is unchanged |
| Graphics3.ClampColorIdempotent | pyoneer3/graphics.py:22-43 | clamping twice is clamping once |
| Graphics3.Brighten | game.py:50 | the hover brightening adds the brightness to every channel |
| Graphics3.NewElement | pyoneer3/graphics.py:89-107 | a new element keeps the requested priority and anchor; it starts visible, active, with the mouse outside, no rect, no handlers and no children |
| Graphics3.NewScrollingFrame | pyoneer3/graphics.py:279-299 | as written the frame always has priority 1, because the requested priority is passed as the fill colour; it binds enter, exit and one universal handler |
| Graphics3.NewScrollingFrameIntended | pyoneer3/graphics.py:279-299 | the intended frame keeps the requested priority and binds the same handlers |
| Graphics3.NewImage | pyoneer3/graphics.py:447-452 | as written an Image always has priority 1, for the same reason |
| Graphics3.NewImageIntended | pyoneer3/graphics.py:447-452 | the intended Image keeps the requested priority and differs from the as-written one only there |
| Graphics3.RequestedPriorityIgnored | pyoneer3/graphics.py:279-280 | a frame or Image asked for priority 5 gets 1 as written and 5 as intended |
| Graphics3.Attach | pyoneer3/graphics.py:109-112 | `set_parent` appends the child last, changes nothing else, and adds the child and its subtree to the descendants |
| Graphics3.AttachToScene | pyoneer3/graphics.py:109-112 | the same for a Scene parent |
| Graphics3.DescendantsSpec | pyoneer3/graphics.py:114-119 | `get_descendants` starts with the children, has one entry per node below, and contains exactly the nodes below |
| Graphics3.ChildDrawOrder | pyoneer3/graphics.py:174 | the children are drawn in stable priority order, a permutation of the children |
| Graphics3.ArrangeKeepsBlits | pyoneer3/graphics.py:162-176 | sorting the tree does not change which nodes are blitted |
| Graphics3.ArrangeIdempotent | pyoneer3/graphics.py:162-176 | sorting an already sorted tree changes nothing |
| Graphics3.DrawSeq | pyoneer3/graphics.py:189-192 | an invisible node blits nothing; a visible node blits its own surface last, after all its visible subtree |
| Graphics3.DrawSeqUnfolds | pyoneer3/graphics.py:162-192 | a visible node draws each child's own draw sequence, the children in stable priority order, and then itself, so the priority order holds at every level |
| Graphics3.SceneDraw | pyoneer3/graphics.py:79-83 | a Scene's draw blits each child's own draw sequence, the children taken in stable priority order, lowest first: the concatenation of `DrawSeq` over `ChildDrawOrder` |
| Graphics3.SortThenArrange | pyoneer3/graphics.py:79-83 | sorting every subtree and then post-ordering the children equals drawing each child in priority order |
| Graphics3.PostAllArranged | pyoneer3/graphics.py:162-192 | post-ordering sorted subtrees is concatenating each subtree's draw sequence |
| Graphics3.Render | pyoneer3/graphics.py:53-59 | inactive scenes draw nothing; the first scene, when active, is drawn first |
| Graphics3.RenderDrawsActiveScenes | pyoneer3/graphics.py:57-59 | rendering draws each active scene in list order and skips the others: it is the concatenation of the active scenes' draws |
| Graphics3.RenderAppend | pyoneer3/graphics.py:57-59 | rendering two lists of scenes one after the other is rendering their concatenation |
| Graphics3.HandleEvent | pyoneer3/graphics.py:238-273 | an inactive node ignores events; a click or motion without a rect raises; a click calls exactly `mbd` (when inside and bound) and then every universal handler in order; motion inside fires `menter` only on entry and then `mover`; motion outside fires `mexit` only on exit; the universal handlers always run last, in order; only `mouse_inside` changes |
| Graphics3.Press | pyoneer3/graphics.py:246-249 | on a press, a node without a rect raises; otherwise the calls are exactly `mbd` when the press is inside and `mbd` is bound, followed by every universal handler in order, and the node is unchanged |
| Graphics3.Motion | pyoneer3/graphics.py:251-270 | on motion, a node without a rect raises; inside, `menter` fires only when the mouse was outside, then `mover`, and the flag is set; outside, `mexit` fires only when the mouse was inside, and the flag is cleared |
| Graphics3.EnterExitStep | pyoneer3/graphics.py:251-270 | one event fires `menter` exactly on entry and `mexit` exactly on exit |
| Graphics3.EnterExitAlternate | pyoneer3/graphics.py:251-270 | over any event sequence, enter and exit calls alternate, so their counts differ only by the change in the hover flag |
| Graphics3.BindMbd | pyoneer3/graphics.py:195-198 | binding `mbd` sets that slot and nothing else |
| Graphics3.BindMover | pyoneer3/graphics.py:200-203 | binding `mover` sets that slot and nothing else |
| Graphics3.BindMenter | pyoneer3/graphics.py:205-207 | binding `menter` sets that slot and nothing else |
| Graphics3.BindMexit | pyoneer3/graphics.py:209-211 | binding `mexit` sets that slot and nothing else |
| Graphics3.BindU | pyoneer3/graphics.py:213-216 | `bind_u` appends to the universal list and nothing else |
| Graphics3.Unbind | pyoneer3/graphics.py:218-232 | unbinding a named slot clears that slot only |
| Graphics3.UnbindU | pyoneer3/graphics.py:234-236 | `pop(index)` succeeds exactly for Python's valid indices, negative ones included, and removes one handler |
| Graphics3.BindUnbindRoundTrip | pyoneer3/graphics.py:213-236 | `unbind_u()` after `bind_u(f)` returns `f` and restores the handlers |
| Scrolling.NewFrame | pyoneer3/graphics.py:279-299 | a new frame is at offset 0 with speed 10, scrollable, scrollbar shown, and the mouse outside |
| Scrolling.Menter | pyoneer3/graphics.py:301-303 | entering sets `mouse_over` and nothing else |
| Scrolling.Mexit | pyoneer3/graphics.py:305-307 | exiting clears `mouse_over` and nothing else |
| Scrolling.MinPos | pyoneer3/graphics.py:380-383 | the lowest offset is never positive; it is `window − limit` when the content overflows |
| Scrolling.ScrollHandler | pyoneer3/graphics.py:365-385 | only the wheel, with the mouse over a scrollable frame whose parent has a surface, changes anything, and then only the offset; an in-bounds offset stays in bounds; up never moves down and down never moves up |
| Scrolling.ScrollIsClamp | pyoneer3/graphics.py:371-383 | a wheel step moves by the speed, clamped at 0 going up and at the lowest offset going down |
| Scrolling.ScrollAllInBounds | pyoneer3/graphics.py:365-385 | any sequence of events keeps the offset within [window − limit, 0] |
| Scrolling.ScrollDownExample | pyoneer3/graphics.py:377-383 | with limit 200, window 100 and speed 20, three to six scroll-downs reach −60, −80, −100 and −100 |
| Scrolling.ScrollbarThumb | pyoneer3/graphics.py:327-362 | a zero virtual height divides by zero; a thumb surface of negative height raises; a drawn thumb needs a visible frame with the scrollbar shown, is shorter than the track, has the window/limit share of the track truncated to whole pixels, sits against the right edge of the window and at the scrolled fraction of the track |
| Scrolling.ThumbShownIffOverflow | pyoneer3/graphics.py:327-354 | a visible frame whose content is taller than the window shows its thumb; when the track is a whole number of pixels long, the thumb shows exactly then |
| Scrolling.ThumbShownWithoutOverflow | pyoneer3/graphics.py:331-354 | a window 365.5 pixels high over content of the same height still shows a thumb, 357 pixels high, because the height is truncated |
| Scrolling.ThumbWithinTrack | pyoneer3/graphics.py:348-362 | for an in-bounds offset the thumb lies within the padded track |
| Graphics2.BindU2 | pyoneer2/graphics.py:75-78 | pyoneer2's `bind_u` replaces the single universal handler |
| Graphics2.BindMbd2 | pyoneer2/graphics.py:65-68 | binding `mbd` sets that slot only |
| Graphics2.BindMover2 | pyoneer2/graphics.py:70-73 | binding `mover` sets that slot only |
| Graphics2.Unbind2 | pyoneer2/graphics.py:80-90 | unbinding clears the named slot only |
| Graphics2.BindUReplaces | pyoneer2/graphics.py:75-78 | a second `bind_u` forgets the first in pyoneer2, while pyoneer3 keeps both |
| Graphics2.HandleEvent2 | pyoneer2/graphics.py:92-106 | a click or motion without a rect raises; at most two calls: `mbd` on a click inside, `mover` on motion inside, then the universal handler if bound |
| Graphics2.DispatchAgreesWithPyoneer3 | pyoneer2/graphics.py:92-106 | on handlers pyoneer2 can express, its dispatch makes the same calls as pyoneer3's on an active node |
| Graphics2.GetDescendants2 | pyoneer2/graphics.py:128-133 | the list returned is the node's own children list, which the call has extended in place |
| Graphics2.GetDescendantsGrows | pyoneer2/graphics.py:128-133 | every call that ends only extends children lists, never shortens them; the returned list starts with the node's old children, and everything in it, or appended to any list, lay below its owner before the call |
| Graphics2.AliasingRewritesTree | pyoneer2/graphics.py:128-133 | on the chain 0→1→2→3, `get_descendants` returns [1, 2, 3, 3] and leaves node 0 with a changed children list |
| Graphics2.DrawSeq2 | pyoneer2/graphics.py:156-173 | pyoneer2 blits every node of a subtree, the node itself last, in the order pyoneer3 would for an all-visible tree |
| Graphics2.ArrangeLifts | pyoneer2/graphics.py:163 | sorting a pyoneer2 tree and lifting it to pyoneer3 commute |
| Graphics2.PostOrderLifts | pyoneer2/graphics.py:156-166 | the pyoneer2 blit order is pyoneer3's on the lifted tree |
| Graphics2.SceneDraw2 | pyoneer2/graphics.py:50-55 | a Scene blits every node below it exactly once |
| Graphics2.SceneDrawAgrees | pyoneer2/graphics.py:50-55 | pyoneer2's Scene draw is pyoneer3's on the lifted Scene |
| Graphics2.Render2 | pyoneer2/graphics.py:24-30 | rendering agrees with pyoneer3's on the lifted scenes; inactive scenes draw nothing |
| Interpolation.FindChangeAsWritten | pyoneer2/interpolation.py:23-41 | as written, no offset gives no change and an axis-aligned offset gives a step of `dist` along the positive axis, whatever the direction |
| Interpolation.FindChangeAsWrittenGeometry | pyoneer2/interpolation.py:37-39 | as written, a diagonal step lies on the offset's line and has length `dist`, but always has `dx ≥ 0` |
| Interpolation.FindChange | pyoneer2/interpolation.py:23-41 | the intended step: axis steps carry the offset's sign |
| Interpolation.FindChangeTowardTarget | pyoneer2/interpolation.py:23-41 | the intended step lies on the line to the target, points toward it, and has length `dist` whenever there is an offset |
| Interpolation.FindChangeCounterexample | pyoneer2/interpolation.py:37-39 | from (0,0) toward (−3,−4) with length 5, the code steps (3,4), away from the target; the intended step is (−3,−4) |
| Interpolation.InterpolateAsWritten | pyoneer2/interpolation.py:49-70 | the base interpolator raises; equal endpoints leave the position alone; axis-aligned movement adds the step length to the positive axis; otherwise the position moves by the as-written `find_change` of the step length |
| Interpolation.InterpolateAsWrittenOnLine | pyoneer2/interpolation.py:31-39 | in the general case the as-written step lies on the line from start to end, has the step length, and never moves left |
| Interpolation.Interpolate | pyoneer2/interpolation.py:49-70 | the intended interpolation: the base interpolator raises, and a position at the end stays there |
| Interpolation.InterpolateTowardTarget | pyoneer2/interpolation.py:49-70 | the intended step from the current position is aimed at the end point with the linear step length |
| Interpolation.InterpolateAgreesHeadingForward | pyoneer2/interpolation.py:49-70 | when the end lies right of and below the start, the code and the intended version agree |
| Interpolation.VerticalStepCounterexample | pyoneer2/interpolation.py:58-60 | moving up from (0,10) to (0,0) at rate 5 for one second, the code goes to (0,15); the intended result is (0,5) |
| Interpolation.ComputeDuration | pyoneer2/interpolation.py:72-78 | the base interpolator raises; rate 0 divides by zero; otherwise stepping for the returned time covers the distance |
| Interpolation.ComputeCoefficients | pyoneer2/interpolation.py:80-81 | the base interpolator raises; the linear one changes nothing |
| Animation.Code | pyoneer3/animation.py:24-26 | FINISHED, STOPPED and PLAYING are −1, 0 and 1 |
| Animation.MovePos | pyoneer3/animation.py:57-58 | moving a Translation's position writes through to the list it aliases (the start list, until `end` rebinds it) |
| Animation.NewTranslation | pyoneer3/animation.py:54-71 | a new Translation is stopped at the start at time 0; the end time is the duration, or the time the step law needs to cover the distance; a base interpolator or a zero rate raises |
| Animation.Start | pyoneer3/animation.py:33-35 | `start` sets PLAYING and nothing else |
| Animation.Pause | pyoneer3/animation.py:37-39 | `pause` sets STOPPED and nothing else |
| Animation.End | pyoneer3/animation.py:84-87 | `end` sets FINISHED, calls back once and moves to the end point |
| Animation.UpdateAsWritten | pyoneer3/animation.py:73-82 | as written, any state advances time; when due it ends; before that the as-written interpolation of the current position is written into the list `pos` names, and state and callback count are kept |
| Animation.Update | pyoneer3/animation.py:73-82 | the intended update: only a playing animation advances, ending once time is up and otherwise keeping its state |
| Animation.CallbackOnEntry | pyoneer3/animation.py:41-49 | the callback fires exactly when the animation enters FINISHED; a finished animation is a fixed point |
| Animation.UpdateStepsTowardEnd | pyoneer3/animation.py:73-82 | a playing linear animation steps toward its end point by the step length |
| Animation.UngatedUpdateCounterexample | pyoneer3/animation.py:46-49 | as written, a stopped animation whose time is up ends and calls back, and a finished one calls back a second time; the intended update leaves both alone |
| Animation.UpdateAsWrittenAgreesWhenPlaying | pyoneer3/animation.py:73-82 | for a playing Translation whose time is up, or which is heading right and down, the code and the intended update agree |
| Animation.CallbackOnEntryAsWritten | pyoneer3/animation.py:41-49 | as written, an unfinished animation calls back exactly when it finishes during the update |
| Animation.AddAnimation | pyoneer3/animation.py:11-13 | `add_animation` appends |
| Animation.UpdateEach | pyoneer3/animation.py:18-19 | each animation is updated in order by the code as written, and the first exception propagates |
| Animation.ServiceUpdate | pyoneer3/animation.py:15-19 | the service drops finished animations and updates the rest as written, and fails exactly when one of those updates fails; every output is the update of an unfinished input |
| Animation.ServiceUpdatesUnfinished | pyoneer3/animation.py:15-19 | position by position, the output is the as-written update of the unfinished input, and its callback count grew by one exactly when it finished now |
| Animation.FinishedDroppedNextUpdate | pyoneer3/animation.py:15-19 | over two service updates, every animation the second one returns is the as-written update of an output of the first that had not finished, with the callback count it had after the first; so an animation that finished is not updated again and calls back only once |
| Animation.AddThenUpdate | pyoneer3/animation.py:11-19 | an added unfinished animation is updated last, after the others |
| Animation.UpdateEachAppend | pyoneer3/animation.py:18-19 | updating a list with one more animation at the end updates that one last |
| Animation.ServiceRunsStoppedTranslation | pyoneer3/animation.py:15-19 | the service ends a stopped Translation whose time is up and calls back, as the code does |
| AnimationDeprecated.NewTimed | pyoneer2/deprecated/animation_deprecated.py:9-18 | a new TimedAnimation is alive at the start at time 0 |
| AnimationDeprecated.LinearStep | pyoneer2/deprecated/animation_deprecated.py:82-87 | a zero end time divides by zero; otherwise the position is the elapsed fraction of the way to the target, at the initial position at time 0 and at the target at the end time |
| AnimationDeprecated.LinearStaysOnSegment | pyoneer2/deprecated/animation_deprecated.py:82-87 | before the end time, a linear animation lies on the segment to the target |
| AnimationDeprecated.QuadraticFraction | pyoneer2/deprecated/animation_deprecated.py:115-119 | the covered fraction is 0 at time 0, 1 at the end time and within [0, 1] in between |
| AnimationDeprecated.QuadraticMonotone | pyoneer2/deprecated/animation_deprecated.py:115-119 | the covered fraction never decreases |
| AnimationDeprecated.QuadraticStep | pyoneer2/deprecated/animation_deprecated.py:107-123 | a zero end time divides by zero; the position is the quadratic fraction of the way from the initial point to the target: the initial point at time 0, the target at the end time |
| AnimationDeprecated.QuadraticStaysOnSegment | pyoneer2/deprecated/animation_deprecated.py:107-123 | within its time span a quadratic animation lies on the segment to the target, and is never farther along at an earlier time |
| AnimationDeprecated.UpdateTimed | pyoneer2/deprecated/animation_deprecated.py:20-30 | once time is up the animation jumps to the target, dies and calls back; before that the time advances by delta, the position is exactly the linear or quadratic interpolation at the new time, and nothing else changes |
| AnimationDeprecated.DeadAnimationCallsBackAgain | pyoneer2/deprecated/animation_deprecated.py:20-28 | a dead animation updated again calls back again |
| AnimationDeprecated.ConstantLinearStep | pyoneer2/deprecated/animation_deprecated.py:90-104 | a zero delta divides by zero; otherwise the position moves by `find_change` of `rate·delta/1000` |
| AnimationDeprecated.StepOfRate | pyoneer2/deprecated/animation_deprecated.py:100 | `rate/(1000/delta)` is the linear interpolator's step law with no constant |
| AnimationDeprecated.UpdateAll | pyoneer3/deprecated/animation_service_deprecated.py:10-11 | each animation is updated in order, and the first exception propagates |
| AnimationDeprecated.ServiceUpdate | pyoneer3/deprecated/animation_service_deprecated.py:7-11 | the service fails exactly when updating some live animation fails; otherwise, position by position, the output is the update of the live animations in their order, the dead ones dropped |
| AnimationDeprecated.ServiceCallsBackOnDeath | pyoneer3/deprecated/animation_service_deprecated.py:7-11 | the i-th output is the update of the i-th live input, and it called back once more exactly when it is now dead |
| AnimationDeprecated.DeadDroppedNextUpdate | pyoneer3/deprecated/animation_service_deprecated.py:7-11 | over two service updates, every animation the second one returns is the update of an output of the first that was still alive, with its callback count unchanged by the first; so an animation that died is not updated again and calls back only once |
| Gameplay.Resize | gameplay.py:25-40 | a zero-height surface raises first; no target returns the surface; a missing width is `int(height · w/h)` and a missing height is `int(width / (w/h))`, both truncated toward zero and so within one of the exact value |
| Gameplay.PassiveCountsAsActive | gameplay.py:46-47 | as written PASSIVE equals ACTIVE, so a passive unit runs the active control path |
| Gameplay.CategoriesDistinguished | gameplay.py:46-47 | with distinct constants, ACTIVE is active and PASSIVE is not |
| Gameplay.StepTimer | gameplay.py:150-161 | a timer advances by the tick, and resets to 0 when due and auto-resetting |
| Gameplay.DueCommands | gameplay.py:156-158 | the callbacks invoked are those of the due timers, in timer order, one per due timer |
| Gameplay.TickTimers | gameplay.py:150-161 | every timer steps, and the due ones' callbacks are collected |
| Gameplay.TimerAccumulates | gameplay.py:150-161 | a timer without auto-reset accumulates the total of the ticks |
| Gameplay.RunCommand | gameplay.py:131-141 | a fire callback resets its own timer exactly when its turret's fire flag is set; bad indices raise |
| Gameplay.SetTurretTimers | gameplay.py:121-129 | one timer per automatic turret is appended after the existing ones in turret order, each owning its own index, so the appended timers' turret indices strictly increase; an unknown gun raises |
| Gameplay.FireCallbackResetsOwnTimer | gameplay.py:121-141 | the callback registered for a turret resets the timer registered with it and no other |
| Gameplay.LocateEnemy | gameplay.py:315-333 | the result is the first nearest unit of another team and of a targeted type (`Nearest`), with its distance, or none with distance 0 when no unit qualifies |
| Gameplay.NearestIsUnique | gameplay.py:315-333 | at most one index is the first nearest eligible unit, so the pick is determined |
| Gameplay.Steer | gameplay.py:205-211 | target right: the turn rate never drops below −max; target left: never above max; a target exactly dead ahead zeroes the turn rate; the rate never exceeds the larger of its cap and its previous size |
| Gameplay.SteerIsSymmetric | gameplay.py:205-211 | mirroring the target mirrors the steering |
| Gameplay.SteerStraightAhead | gameplay.py:205-211 | at rest with the target dead ahead the ship does not turn |
| Gameplay.Slew | gameplay.py:260-266 | a gimbal-locked turret does not turn; otherwise it turns toward the target by at most its turn rate per second |
| Gameplay.SlewIsSymmetric | gameplay.py:260-266 | mirroring the target mirrors the slew |
| Gameplay.FireFlagAsWritten | gameplay.py:268-274 | as written the in-cone-and-in-range test is written into the gimbal slot, and the fire flag is never set |
| Gameplay.FireFlag | gameplay.py:268-274 | intended: the fire flag is set exactly when the target is within ±10° and in range, and the spec is untouched |
| Gameplay.FireFlagLandsInGimbalSlot | gameplay.py:260-274 | as written a turret aimed at a close target locks its gimbal, stops slewing, and its callback does not fire; intended, it fires and keeps slewing |
| Gameplay.ControlTurret | gameplay.py:234-274 | as written: the turret heading divides by zero when its absolute rotation is −90, and an unknown gun raises; the gimbal flag becomes the in-cone-and-in-range test; the fire flag and gun are kept; a gimbal-locked turret keeps its rotation; the slew is bounded by the turn rate |
| Gameplay.ControlTurretIntended | gameplay.py:234-274 | intended: the same errors; the gimbal flag and gun are kept; a gimbal-locked turret is unchanged; a turret flagged to fire is in range |
| Gameplay.ControlTurretMarkerPlacement | gameplay.py:268-274 | the as-written turret is the intended one with the fire marker moved into the gimbal slot and the old fire flag kept |
| Gameplay.ControlTurrets | gameplay.py:234-274 | every turret is controlled as written; a turret at absolute rotation −90 or with an unknown gun raises |
| Gameplay.ControlTurretsKeep | gameplay.py:234-274 | across the loop, every fire flag and gun is kept, and every gimbal-locked turret keeps its rotation |
| Gameplay.ActivateAll | gameplay.py:335-338 | every thruster is switched on, nothing else changes |
| Gameplay.ThrustRule | gameplay.py:215-231 | a thruster is on afterwards exactly when it was already on, the ship is at rest, or both the heading and the course are within ±10° of the target |
| Gameplay.WrapAsWritten | gameplay.py:280-288 | as written, a rotation in (−180, 180] is kept, one past 180 loses 360, and one at or below −180 becomes `360 - rot`, 540 or more; above −180 it is the intended wrap |
| Gameplay.Wrap | gameplay.py:280-288 | intended: the rotation is shifted by at most one turn into (−180, 180] |
| Gameplay.WrapCounterexample | gameplay.py:284-285 | rotating from −170 by −20 gives 550 as written and 170 intended |
| Gameplay.Rotate | gameplay.py:280-288 | a locked rotation stays; otherwise the rotation plus its rate is wrapped as written: from above −180 it is the intended `Wrap`, into (−180, 180]; from −180 or below it is `360` minus the sum, 540 or more |
| Gameplay.Heading | gameplay.py:303-312 | `calculate_ship_heading` divides by zero exactly at rotation −90, where the slope `tan(radians(0))` is 0; otherwise it is the `facing` oracle |
| Gameplay.Accelerate | gameplay.py:295-298 | a zero mass with an active thruster divides by zero |
| Gameplay.AccelerateIsTotalThrust | gameplay.py:295-298 | the velocity gains the total active thrust over the mass along the heading |
| Gameplay.OffsetShip | gameplay.py:143-145 | the ship's offsets move by the velocity and its scales are kept |
| Gameplay.Physics | gameplay.py:278-301 | the rotation is `Rotate`d as written; only an active unit accelerates, raising when its new rotation is −90 or when its mass is zero with an active thruster; nothing else changes but velocity and position; the position moves by the new velocity |
| Gameplay.UpdateShipControls | gameplay.py:165-276 | a non-active unit only runs physics; an active one with no eligible unit raises; otherwise the result is the control step (`Engage`) against the nearest eligible unit; at rotation −90 that divides by zero; active thrusters stay on; a unit at rest switches all thrusters on; fire flags and guns are kept and gimbal-locked turrets keep their rotation |
| Gameplay.ControlActive | gameplay.py:181-276 | a turret failure is the result; otherwise the turn rate is `Steer` of the dot product with the right vector, the thrusters are `ThrustRule` of the speed, the travel angle and the aim angle, the turrets are `ControlTurrets`, and physics then runs on exactly that unit; the frame is kept, active thrusters stay on, a unit at rest switches them all on |
| Gameplay.Speed | gameplay.py:214-216 | `magnitude(vel)` is non-negative, zero at rest, and zero exactly when the squared components vanish |
| Gameplay.Engage | gameplay.py:178-181 | against a chosen target, a ship at rotation −90 raises from its heading before any control |
| Gameplay.Tick | gameplay.py:147-163 | the timers step and their callbacks run (`RunCommands` over `TickTimers`); a failing callback is the result; otherwise the result is the control outcome for the unit with its new timers; timers and turrets keep their count; with nothing due every timer just accumulates the tick |
| Game.SelectPage | game.py:104-116 | one page: its tab is selected and shown white exactly when it is the clicked tab, and its elements are active and visible exactly then |
| Game.SelectTab | game.py:104-116 | every page is updated this way |
| Game.ExactlyOneSelected | game.py:104-116 | with distinct tabs, selecting one leaves exactly that one selected |
| Game.OnlySelectedPageShown | game.py:104-116 | an element is visible exactly when its page's tab is selected |
| Game.SelectTabIdempotent | game.py:104-116 | selecting the same tab twice is selecting it once |
| Game.TabMbd | game.py:99-101 | clicking a tab selects it and no other |
| Game.SurfMenter | game.py:65-72 | hovering fills the surface with exactly its fill colour brightened by the brightness and clamped into range, and changes nothing else |
| Game.SurfMexit | game.py:75-78 | leaving refills the surface with its fill colour |
| Game.TabMenter | game.py:81-90 | a selected tab ignores hovering |
| Game.TabMexit | game.py:93-96 | a selected tab ignores leaving |
| Game.TabHoverRoundTrip | game.py:81-96 | enter then exit restores an unselected tab's fill colour and leaves a selected tab alone |
| Game.HoverAfterSelect | game.py:81-116 | after selection, hovering over any tab and leaving restores it |
| Game.TextMenter | game.py:44-55 | hovering a text saves its colour in the shared slot and sets it to exactly that colour brightened and clamped, nothing else changing |
| Game.TextMexit | game.py:58-62 | leaving sets the colour to exactly the saved one and changes nothing else; with none saved it raises |
| Game.TextHoverRoundTrip | game.py:44-62 | enter then exit restores a text's colour |
| Game.SharedColorCrossTalk | game.py:44-62 | because the saved colour is shared, entering a second text before leaving the first gives the first the second's colour |
| Game.GameStart | game.py:119-122 | start hides the start scene and shows the sidebar |
| Game.GameQuit | game.py:125-128 | quit stops the loop and changes no scene |
| Game.GameStartDrawsSidebarOnly | game.py:119-122 | after start, rendering draws the sidebar and nothing else |
| Game.NodeSteps | game.py:36-40 | an element handles the event exactly when it has a handler bound, and ticks exactly when it is a GameObject |
| Game.NodesSteps | game.py:36-40 | over a list of elements, every listening element handles the event and every GameObject ticks |
| Game.DispatchEvent | game.py:29-40 | quit reaches no element; any other event reaches every listening descendant of every scene, active or not |
| Game.DispatchOnlyDescendants | game.py:29-40 | every step an event causes is a step of some descendant of some scene: nothing else is handed the event or ticked |
| Game.DispatchTicksEveryObject | game.py:35-40 | one event ticks every GameObject of every scene exactly once |
| Game.Frame | game.py:26-40 | the loop keeps running exactly when no event of the frame is quit; an empty frame does nothing |
| Game.QuitKeepsProcessing | game.py:29-40 | a quit event does not stop the rest of the frame's events |
| Game.TicksPerEvent | game.py:29-40 | each GameObject ticks once per non-quit event of the frame |
| Game.EmptyUeventDoesNotListen | game.py:37 | an element with no handler bound, other than a GameObject, takes no step |

## Left out

- Pixel work is not modelled: pygame surfaces, blitting, text rendering, `Text`, `Sprite` and `font_py.py`. Surfaces are reduced to their size or their fill colour.
- Screen flipping, the clock and `print` are not modelled.
- The trigonometry of `calculate_ship_heading` and of the turret headings is the `facing` oracle in `Gameplay.Numerics`; `math.sqrt` and `math.acos` are parameters with stated laws. The oracle is used wherever the source does not raise. The source divides by the slope `tan(radians(90 + rot))`, which is exactly 0 only at rotation −90; at other odd multiples of 90 the floating-point tangent is tiny but not zero, so those do not raise and are left to the oracle (`Gameplay.Heading`). The debug line drawing in `update_ship_controls` is not modelled.
- Gameplay.RunCommand: `tick` calls the timer callback with one argument, but the callback takes two, so the source would raise `TypeError`. The model runs the callback's body as a command.
- Gameplay.Accelerate: `thruster[1]/self.mass*heading` multiplies a float by a tuple, which raises `TypeError` in Python. The model adds the scaled heading componentwise.
- The `GAME_OBJECTS` sprite group is an ordered sequence, the iteration order `locate_enemy` sees.
- `load_turret_images` is not modelled. Of `GUN_STATS`, only the gun lookup and the range are kept.
- `TargetAnimation` and its epsilon test are not modelled. Only its `find_change`, used by `constant_linear_interpolation`, is modelled.
- `constant_quadratic_interpolation` is not modelled. No other code calls it.
- `pyoneer3/interpolation.py` is not part of this model. `Translation` is driven by the model of pyoneer2's `LinearInterpolator`.
- Rect coordinates are kept as reals. pygame truncates them to integers, and that truncation is not modelled.
- The surface resets in `draw_children` (`c_surf.copy()`) are not modelled.
- The `update` methods that only rebuild surfaces are not modelled. In `ScrollingFrame.update` (pyoneer3/graphics.py:315-336) the window and content surfaces are not modelled, so their own negative-size errors are not; only the thumb surface's size check is (`Scrolling.ScrollbarThumb`).
- Graphics2.GetDescendants2 takes a `fuel` bound on the recursion and returns `None` when the fuel runs out. On an acyclic tree the walk ends: the lists grow only by nodes that lay below their owner (`Graphics2.GetDescendantsGrows`), so enough fuel always suffices, but the model does not prove how much. Only a cycle in the `children` links makes the walk unbounded, and there the bound stands in for Python's recursion limit.
- Interpolation.GeneralDx guards a zero denominator that the source cannot reach, because its general branch has `w ≠ 0`.
- Gameplay.UpdateShipControls: the direction of travel `d_heading` is built from `(vel[1], vel[0])` with the components swapped. It is modelled as written.
- Gameplay.Engage: its own contract states only the heading failure; what the control step then does is stated by Gameplay.ControlActive, which it calls.
- Gameplay.TravelAngle: a unit at rest never computes the angle of travel; the model puts 0 there, and Gameplay.ThrustRule ignores it at rest.
- The main loop is modelled by which elements handle and tick on each event (`Game.Frame`). The element tree is not changed by those steps.
- VMath.Add, VMath.Sub, VMath.Mult and VMath.Dot require equal lengths. This is the source's `assert`, which fails for any caller that breaks it.
- Animation.ServiceUpdate: an exception part-way through the service loop leaves the earlier animations updated in Python. The model reports only the `Err`.
- The tests (`test_*.py`) are not modelled.

## Findings

| source | as written | input that shows it | evidently intended | confidence | as-written member | corrected member |
|---|---|---|---|---|---|---|
| gameplay.py:284-285 | a rotation at or below −180 becomes `360 - rot` | rotation −170 turning by −20: −190 becomes 550 | `360 + rot`, giving 170 | high; not executed | Gameplay.WrapAsWritten, Gameplay.WrapCounterexample, Gameplay.Rotate | Gameplay.Wrap |
| gameplay.py:268-274 | the fire marker is written to `turret[0][2]`, the gimbal-lock slot | a turret aimed at a target in range gets its gimbal locked, stops slewing, and its fire callback never fires | `turret[2] = ...`, the fire flag the callback reads | high; not executed | Gameplay.FireFlagAsWritten, Gameplay.FireFlagLandsInGimbalSlot, Gameplay.ControlTurret | Gameplay.FireFlag, Gameplay.ControlTurretIntended |
| gameplay.py:46-47 | `ACTIVE = 0` and `PASSIVE = 0` | a PASSIVE unit passes `category == ACTIVE` and hunts targets | distinct constants | medium; not executed | Gameplay.PassiveCountsAsActive | Gameplay.CategoriesDistinguished |
| pyoneer2/graphics.py:128-133 | `descendants = self.children` aliases the children list and extends it | the chain 0→1→2→3 returns [1, 2, 3, 3] and rewrites node 0's children | a copy, as pyoneer3 does with `children[:]` | high; not executed | Graphics2.GetDescendants2, Graphics2.AliasingRewritesTree | Graphics3.DescendantsSpec |
| pyoneer3/graphics.py:280 | `super().__init__(pos, None, render_priority)` passes the priority as `fill_color` | a ScrollingFrame or Image asked for priority 5 gets priority 1 | pass `render_priority=render_priority` | high; not executed | Graphics3.NewScrollingFrame, Graphics3.NewImage, Graphics3.RequestedPriorityIgnored | Graphics3.NewScrollingFrameIntended, Graphics3.NewImageIntended |
| pyoneer2/interpolation.py:31-39 | axis steps are always positive and the diagonal `dx` is a non-negative square root | (0,0) toward (−3,−4) with length 5 steps (3,4); (0,10) toward (0,0) moves to (0,15) | steps carrying the sign of the offset | high; not executed | Interpolation.FindChangeAsWritten, Interpolation.FindChangeCounterexample, Interpolation.VerticalStepCounterexample | Interpolation.FindChange, Interpolation.Interpolate |
| pyoneer3/animation.py:73-82 | `Translation.update` calls the base `update`, whose early `return` only leaves the base method, so the state gate has no effect | a stopped Translation whose time is up ends and calls back; a finished one calls back again | return unless PLAYING | high; not executed | Animation.UpdateAsWritten, Animation.UngatedUpdateCounterexample, Animation.ServiceRunsStoppedTranslation | Animation.Update |

The operations that compose these pieces (`Gameplay.Physics`, `Gameplay.ControlTurrets`, `Gameplay.UpdateShipControls`, `Animation.ServiceUpdate`) follow the code as written, so they carry each defect; the corrected members state the intended behaviour beside them.

=== FILE: animation.dfy ===
/** The animations of pyoneer3 (`animation.py`): a playback state machine,
    the `Translation` that moves a position with an interpolator until its
    end time, and the `AnimationService` that updates every unfinished
    animation once per frame. The interpolator is the one of pyoneer2. The
    callback is counted rather than called. */
module Animation {
  import opened Support
  import opened Placement
  import opened Interpolation
  import Sorting

  /** Playback state; `Code` gives the source's integer for each. */
  datatype State = Finished | Stopped | Playing

  function Code(s: State): (r: int)
    ensures -1 <= r <= 1
    ensures s == Finished <==> r == -1
    ensures s == Playing <==> r == 1
  {
    match s
    case Finished => -1
    case Stopped => 0
    case Playing => 1
  }

  /** A translation. Its position list is shared: the constructor stores
      the start list as both `start_pos` and `pos`, and `end` rebinds `pos`
      to the end list. The model keeps the contents of the two lists,
      `startList` and `endList`, and which of them `pos` names. `fired`
      counts the callback's calls. */
  datatype Translation = Translation(
    state: State,
    startList: XYSimple,
    endList: XYSimple,
    posIsEnd: bool,
    t: real,
    endT: real,
    interp: Interpolator,
    fired: nat)
  {
    function Pos(): XYSimple
    {
      if posIsEnd then endList else startList
    }

    /** Writes `p` into the list `pos` names. */
    function MovePos(p: XYSimple): (r: Translation)
      ensures r.Pos() == p
      ensures posIsEnd ==> r.startList == startList
      ensures !posIsEnd ==> r.endList == endList
      ensures r.state == state && r.posIsEnd == posIsEnd && r.t == t && r.endT == endT
      ensures r.interp == interp && r.fired == fired
    {
      if posIsEnd then this.(endList := p) else this.(startList := p)
    }
  }

  /** `Translation(start_pos, end_pos, duration, interpolator, callback)`:
      stopped at time 0 at the start. Without a duration the end time is
      the interpolator's `compute_duration`; with one, the end time is the
      duration and `compute_coefficients` is asked to fit it. The base
      interpolator raises either way. */
  function NewTranslation(start: XYSimple, end: XYSimple, duration: Option<real>, i: Interpolator,
                          sqrt: real -> real): (r: Result<Translation>)
    ensures r.Err? <==> i.Base? || (duration.None? && i.rate == 0.0)
    ensures r.Ok? ==> r.value.state == Stopped && r.value.Pos() == start && r.value.endList == end
    ensures r.Ok? ==> r.value.t == 0.0 && r.value.fired == 0 && r.value.interp == i
    ensures r.Ok? && duration.Some? ==> r.value.endT == duration.value
    // without a duration the end time is when the step law has covered the distance
    ensures r.Ok? && duration.None? ==>
      StepLength(i.rate, i.constant, r.value.endT) == Distance(start, end, sqrt)
  {
    var endT := match duration
      case None => ComputeDuration(i, start, end, sqrt)
      case Some(d) => (match ComputeCoefficients(i, d) case Ok(_) => Ok(d) case Err(f) => Err(f));
    match endT
    case Err(f) => Err(f)
    case Ok(e) => Ok(Translation(Stopped, start, end, false, 0.0, e, i, 0))
  }

  function Start(a: Translation): (r: Translation)
    ensures r.state == Playing && r.(state := a.state) == a
  {
    a.(state := Playing)
  }

  function Pause(a: Translation): (r: Translation)
    ensures r.state == Stopped && r.(state := a.state) == a
  {
    a.(state := Stopped)
  }

  /** `Translation.end`: finished, the callback fires, and `pos` is
      rebound to the end list. */
  function End(a: Translation): (r: Translation)
    ensures r.state == Finished && r.fired == a.fired + 1
    ensures r.Pos() == a.endList && r.posIsEnd
    ensures r.startList == a.startList && r.endList == a.endList
    ensures r.t == a.t && r.endT == a.endT && r.interp == a.interp
  {
    a.(state := Finished, fired := a.fired + 1, posIsEnd := true)
  }

  /** `Translation.update(delta)` as written: the base class's check of the
      state only returns from the base method, so the clock advances and
      the translation moves or ends whatever its state. */
  function UpdateAsWritten(a: Translation, delta: real, sqrt: real -> real): (r: Result<Translation>)
    ensures r.Err? <==> a.t + delta < a.endT && a.interp.Base?
    ensures r.Ok? && a.t + delta >= a.endT ==> r.value == End(a.(t := a.t + delta))
    ensures r.Ok? && a.t + delta < a.endT ==>
      r.value.t == a.t + delta && r.value.state == a.state && r.value.fired == a.fired
    // before its end time the translation writes the interpolated point into the list `pos` names
    ensures r.Ok? && a.t + delta < a.endT ==>
      InterpolateAsWritten(a.interp, a.startList, a.endList, a.Pos(), delta, sqrt).Ok? &&
      r.value == a.(t := a.t + delta).MovePos(InterpolateAsWritten(a.interp, a.startList, a.endList, a.Pos(), delta, sqrt).value)
  {
    var b := a.(t := a.t + delta);
    if b.t >= b.endT then Ok(End(b))
    else
      match InterpolateAsWritten(b.interp, b.startList, b.endList, b.Pos(), delta, sqrt)
      case Err(f) => Err(f)
      case Ok(p) => Ok(b.MovePos(p))
  }

  /** `Translation.update(delta)` as intended: only a playing translation
      advances. It then steps toward the end with the intended
      interpolation, or ends once its time is up. */
  function Update(a: Translation, delta: real, sqrt: real -> real): (r: Result<Translation>)
    ensures a.state != Playing ==> r == Ok(a)
    ensures r.Err? <==> a.state == Playing && a.t + delta < a.endT && a.interp.Base?
    ensures r.Ok? && a.state == Playing && a.t + delta >= a.endT ==> r.value == End(a.(t := a.t + delta))
    ensures r.Ok? && a.state == Playing && a.t + delta < a.endT ==>
      r.value.t == a.t + delta && r.value.state == Playing && r.value.fired == a.fired &&
      r.value.posIsEnd == a.posIsEnd && r.value.endList == a.endList
  {
    if a.state != Playing then Ok(a)
    else
      var b := a.(t := a.t + delta);
      if b.t >= b.endT then Ok(End(b))
      else
        match Interpolate(b.interp, b.Pos(), b.endList, delta, sqrt)
        case Err(f) => Err(f)
        case Ok(p) => Ok(b.MovePos(p))
  }

  /** The callback fires exactly when a translation enters `Finished`, and
      a finished translation never changes again. */
  lemma CallbackOnEntry(a: Translation, delta: real, sqrt: real -> real)
    requires Update(a, delta, sqrt).Ok?
    ensures var b := Update(a, delta, sqrt).value;
      b.fired == a.fired + (if b.state == Finished && a.state != Finished then 1 else 0)
    ensures a.state == Finished ==> Update(a, delta, sqrt).value == a
  {
  }

  /** A playing linear translation that is not yet due, at a position that
      is not the end, takes one intended step: on the line to the end, of
      the step law's length, toward the end. */
  lemma UpdateStepsTowardEnd(a: Translation, delta: real, sqrt: real -> real)
    requires SqrtLaw(sqrt)
    requires a.state == Playing && a.interp.Linear? && a.t + delta < a.endT && a.Pos() != a.endList
    ensures var b := Update(a, delta, sqrt).value;
      Aimed(Change(b.Pos().x - a.Pos().x, b.Pos().y - a.Pos().y), a.endList.x - a.Pos().x, a.endList.y - a.Pos().y,
            StepLength(a.interp.rate, a.interp.constant, delta))
  {
    InterpolateTowardTarget(a.interp.rate, a.interp.constant, a.Pos(), a.endList, delta, sqrt);
  }

  /** The ungated update as written: a translation that was never started
      still runs to its end and fires its callback, and a finished one
      fires it again on its next update. The intended update leaves both
      alone. */
  lemma UngatedUpdateCounterexample(sqrt: real -> real)
    ensures var a := Translation(Stopped, XYSimple(0.0, 0.0), XYSimple(10.0, 0.0), false, 0.0, 100.0, Linear(5.0, 0.0), 0);
      UpdateAsWritten(a, 100.0, sqrt) == Ok(End(a.(t := 100.0))) && End(a.(t := 100.0)).fired == 1 &&
      Update(a, 100.0, sqrt) == Ok(a)
    ensures var f := Translation(Finished, XYSimple(0.0, 0.0), XYSimple(10.0, 0.0), true, 100.0, 100.0, Linear(5.0, 0.0), 1);
      UpdateAsWritten(f, 16.0, sqrt).value.fired == 2 && Update(f, 16.0, sqrt) == Ok(f)
  {
  }

  /** On a playing translation, as written and intended agree once its
      time is up, and, before that, whenever it has not ended and is
      heading right and down, where the unsigned steps of the code point
      the right way. */
  lemma UpdateAsWrittenAgreesWhenPlaying(a: Translation, delta: real, sqrt: real -> real)
    requires a.state == Playing
    requires a.t + delta >= a.endT || (!a.posIsEnd && a.endList.x > a.Pos().x && a.endList.y > a.Pos().y)
    ensures UpdateAsWritten(a, delta, sqrt) == Update(a, delta, sqrt)
  {
    if a.t + delta < a.endT {
      InterpolateAgreesHeadingForward(a.interp, a.Pos(), a.endList, delta, sqrt);
    }
  }

  /** As written, the callback of a translation that had not finished fires
      exactly when it finishes during the update. */
  lemma CallbackOnEntryAsWritten(a: Translation, delta: real, sqrt: real -> real)
    requires a.state != Finished && UpdateAsWritten(a, delta, sqrt).Ok?
    ensures var b := UpdateAsWritten(a, delta, sqrt).value;
      b.fired == a.fired + (if b.state == Finished then 1 else 0)
  {
  }

  // ------------------------------------------------------------- the service

  predicate Unfinished(a: Translation)
  {
    a.state != Finished
  }

  /** `add_animation`: appended at the end. */
  function AddAnimation(anims: seq<Translation>, a: Translation): (r: seq<Translation>)
    ensures |r| == |anims| + 1 && r[|anims|] == a && r[..|anims|] == anims
  {
    anims + [a]
  }

  /** Updates every translation in order with `Translation.update` as
      written; the first exception stops the loop and propagates. */
  function UpdateEach(anims: seq<Translation>, delta: real, sqrt: real -> real): (r: Result<seq<Translation>>)
    ensures r.Err? <==> exists i :: 0 <= i < |anims| && UpdateAsWritten(anims[i], delta, sqrt).Err?
    ensures r.Ok? ==>
      |r.value| == |anims| && (forall i :: 0 <= i < |anims| ==> r.value[i] == UpdateAsWritten(anims[i], delta, sqrt).value)
    decreases |anims|
  {
    if anims == [] then Ok([])
    else
      match UpdateAsWritten(anims[0], delta, sqrt)
      case Err(f) => Err(f)
      case Ok(first) =>
        match UpdateEach(anims[1..], delta, sqrt)
        case Err(f) => Err(f)
        case Ok(rest) =>
          assert forall i :: 1 <= i < |anims| ==> anims[i] == anims[1..][i - 1];
          Ok([first] + rest)
  }

  /** `AnimationService.update(delta)`: drop the finished translations,
      then update the rest as written, stopped ones included. One that
      finishes during this call stays in the list until the next. */
  function ServiceUpdate(anims: seq<Translation>, delta: real, sqrt: real -> real): (r: Result<seq<Translation>>)
    ensures r.Err? <==> exists a :: a in anims && a.state != Finished && UpdateAsWritten(a, delta, sqrt).Err?
    ensures r.Ok? ==> |r.value| <= |anims|
    ensures r.Ok? ==> forall b :: b in r.value ==>
      exists a :: a in anims && a.state != Finished && b == UpdateAsWritten(a, delta, sqrt).value
  {
    var live := Sorting.Filter(Unfinished, anims);
    var r := UpdateEach(live, delta, sqrt);
    if r.Ok? then
      assert forall b :: b in r.value ==> exists i :: 0 <= i < |live| && b == UpdateAsWritten(live[i], delta, sqrt).value;
      assert forall i :: 0 <= i < |live| ==> live[i] in live;
      r
    else
      assert forall i :: 0 <= i < |live| ==> live[i] in live;
      r
  }

  /** Every translation the service returns is the update of one it held
      that had not finished, in the same order, and its callback has fired
      once more exactly when it finished during this call. */
  lemma ServiceUpdatesUnfinished(anims: seq<Translation>, delta: real, sqrt: real -> real)
    requires ServiceUpdate(anims, delta, sqrt).Ok?
    ensures var out, live := ServiceUpdate(anims, delta, sqrt).value, Sorting.Filter(Unfinished, anims);
      |out| == |live| &&
      forall i :: 0 <= i < |out| ==>
        live[i].state != Finished && out[i] == UpdateAsWritten(live[i], delta, sqrt).value &&
        out[i].fired == live[i].fired + (if out[i].state == Finished then 1 else 0)
  {
    var live := Sorting.Filter(Unfinished, anims);
    var each := UpdateEach(live, delta, sqrt);
    assert ServiceUpdate(anims, delta, sqrt) == each;
    var out := each.value;
    forall i | 0 <= i < |out|
      ensures live[i].state != Finished && out[i] == UpdateAsWritten(live[i], delta, sqrt).value
      ensures out[i].fired == live[i].fired + (if out[i].state == Finished then 1 else 0)
    {
      assert live[i] in live;
      assert UpdateAsWritten(live[i], delta, sqrt).Ok?;
      CallbackOnEntryAsWritten(live[i], delta, sqrt);
    }
  }

  /** `b` is the update of a translation of `out` that had not finished
      and had not called back since `live`, the translations `out` came
      from. */
  ghost predicate UpdateOfSurvivor(out: seq<Translation>, live: seq<Translation>, b: Translation, delta: real,
                                   sqrt: real -> real)
  {
    exists i :: 0 <= i < |out| && i < |live| && out[i].state != Finished && out[i].fired == live[i].fired &&
                Ok(b) == UpdateAsWritten(out[i], delta, sqrt)
  }

  /** A translation finishing during one service update is dropped by the
      next, so its callback fires once: every translation the second
      update touches had not finished after the first and had not called
      back in it. */
  lemma FinishedDroppedNextUpdate(anims: seq<Translation>, delta: real, delta2: real, sqrt: real -> real)
    requires ServiceUpdate(anims, delta, sqrt).Ok?
    ensures var out, live := ServiceUpdate(anims, delta, sqrt).value, Sorting.Filter(Unfinished, anims);
      var next := ServiceUpdate(out, delta2, sqrt);
      next.Ok? ==> forall j :: 0 <= j < |next.value| ==> UpdateOfSurvivor(out, live, next.value[j], delta2, sqrt)
  {
    ServiceUpdatesUnfinished(anims, delta, sqrt);
    var out, live := ServiceUpdate(anims, delta, sqrt).value, Sorting.Filter(Unfinished, anims);
    var next := ServiceUpdate(out, delta2, sqrt);
    if next.Ok? {
      ServiceUpdatesUnfinished(out, delta2, sqrt);
      Survivors(out, live, Sorting.Filter(Unfinished, out), next.value, delta2, sqrt);
    }
  }

  /** The step behind `FinishedDroppedNextUpdate`, on the sequences alone. */
  lemma Survivors(out: seq<Translation>, live: seq<Translation>, live2: seq<Translation>, next: seq<Translation>,
                  delta2: real, sqrt: real -> real)
    requires |out| == |live|
    requires forall i :: 0 <= i < |out| && out[i].state != Finished ==> out[i].fired == live[i].fired
    requires forall x :: x in live2 ==> x in out && x.state != Finished
    requires |next| == |live2|
    requires forall j :: 0 <= j < |live2| ==> Ok(next[j]) == UpdateAsWritten(live2[j], delta2, sqrt)
    ensures forall j :: 0 <= j < |next| ==> UpdateOfSurvivor(out, live, next[j], delta2, sqrt)
  {
    forall j | 0 <= j < |next|
      ensures UpdateOfSurvivor(out, live, next[j], delta2, sqrt)
    {
      assert live2[j] in live2;
      var i :| 0 <= i < |out| && out[i] == live2[j];
      assert Ok(next[j]) == UpdateAsWritten(out[i], delta2, sqrt);
    }
  }

  /** Adding a translation and updating is the same as updating the others
      and then the new one, last. */
  lemma AddThenUpdate(anims: seq<Translation>, a: Translation, delta: real, sqrt: real -> real)
    requires a.state != Finished
    requires ServiceUpdate(anims, delta, sqrt).Ok? && UpdateAsWritten(a, delta, sqrt).Ok?
    ensures ServiceUpdate(AddAnimation(anims, a), delta, sqrt)
      == Ok(ServiceUpdate(anims, delta, sqrt).value + [UpdateAsWritten(a, delta, sqrt).value])
  {
    Sorting.FilterAppend(Unfinished, anims, [a]);
    assert Sorting.Filter(Unfinished, [a]) == [a] by {
      assert [a][1..] == [];
    }
    var live := Sorting.Filter(Unfinished, anims);
    UpdateEachAppend(live, a, delta, sqrt);
  }

  lemma {:induction false} UpdateEachAppend(live: seq<Translation>, a: Translation, delta: real, sqrt: real -> real)
    requires UpdateEach(live, delta, sqrt).Ok? && UpdateAsWritten(a, delta, sqrt).Ok?
    ensures UpdateEach(live + [a], delta, sqrt) == Ok(UpdateEach(live, delta, sqrt).value + [UpdateAsWritten(a, delta, sqrt).value])
    decreases |live|
  {
    if live == [] {
      assert live + [a] == [a];
      assert [a][1..] == [];
      assert UpdateEach([a][1..], delta, sqrt) == Ok([]);
      var u := UpdateAsWritten(a, delta, sqrt).value;
      assert [u] + [] == [u];
      assert UpdateEach([a], delta, sqrt) == Ok([u]);
      assert UpdateEach(live, delta, sqrt) == Ok([]);
      assert [] + [u] == [u];
    } else {
      assert (live + [a])[0] == live[0];
      assert (live + [a])[1..] == live[1..] + [a];
      UpdateEachAppend(live[1..], a, delta, sqrt);
      var first, rest := UpdateAsWritten(live[0], delta, sqrt).value, UpdateEach(live[1..], delta, sqrt).value;
      assert UpdateEach(live, delta, sqrt).value == [first] + rest;
      assert [first] + (rest + [UpdateAsWritten(a, delta, sqrt).value]) == ([first] + rest) + [UpdateAsWritten(a, delta, sqrt).value];
    }
  }

  /** Through the service, a translation that was never started still
      runs: once its time is up it ends and its callback fires. */
  lemma ServiceRunsStoppedTranslation(a: Translation, delta: real, sqrt: real -> real)
    requires a.state == Stopped && a.t + delta >= a.endT
    ensures ServiceUpdate([a], delta, sqrt) == Ok([End(a.(t := a.t + delta))])
    ensures End(a.(t := a.t + delta)).fired == a.fired + 1
  {
    assert [a][1..] == [];
    assert Sorting.Filter(Unfinished, [a]) == [a];
    assert UpdateEach([a][1..], delta, sqrt) == Ok([]);
    assert [End(a.(t := a.t + delta))] + [] == [End(a.(t := a.t + delta))];
  }
}

=== FILE: animation_deprecated.dfy ===
/** The deprecated animations (pyoneer2's `animation_deprecated.py` and the
    list-based service of pyoneer3's `animation_service_deprecated.py`): a
    `TimedAnimation` that runs an interpolation function until its end
    time, the interpolation functions, and a service that keeps only the
    live animations. The callback is counted rather than called. */
module AnimationDeprecated {
  import opened Support
  import opened Placement
  import opened Interpolation
  import Sorting

  /** The interpolation functions a `TimedAnimation` can be given. */
  datatype InterpFunction = LinearInterpolation | QuadraticInterpolation

  /** A `TimedAnimation`; `fired` counts the callback's calls. */
  datatype Timed = Timed(
    initial: XYSimple,
    pos: XYSimple,
    target: XYSimple,
    curT: real,
    endT: real,
    interp: InterpFunction,
    alive: bool,
    fired: nat)

  /** `TimedAnimation(start_pos, end_pos, duration, interp_function)`:
      alive at time 0, at the start. */
  function NewTimed(start: XYSimple, end: XYSimple, duration: real, f: InterpFunction): (r: Timed)
    ensures r.alive && r.fired == 0 && r.curT == 0.0 && r.endT == duration
    ensures r.initial == start && r.pos == start && r.target == end && r.interp == f
  {
    Timed(start, start, end, 0.0, duration, f, true, 0)
  }

  /** The point a fraction `c` of the way from `a` to `b`. */
  function Between(a: XYSimple, b: XYSimple, c: real): XYSimple
  {
    XYSimple(a.x + (b.x - a.x) * c, a.y + (b.y - a.y) * c)
  }

  lemma BetweenEnds(a: XYSimple, b: XYSimple)
    ensures Between(a, b, 0.0) == a && Between(a, b, 1.0) == b
  {
  }

  /** `linear_interpolation`: the position the elapsed fraction of the way
      from the initial position to the target. A zero end time divides by
      zero. */
  function LinearStep(a: Timed): (r: Result<XYSimple>)
    ensures r.Err? <==> a.endT == 0.0
    ensures r.Err? ==> r.fault == ZeroDivision
    ensures r.Ok? && a.curT == 0.0 ==> r.value == a.initial
    ensures r.Ok? && a.curT == a.endT ==> r.value == a.target
    ensures r.Ok? ==> r.value == Between(a.initial, a.target, a.curT / a.endT)
  {
    if a.endT == 0.0 then Err(ZeroDivision)
    else
      BetweenEnds(a.initial, a.target);
      Ok(Between(a.initial, a.target, a.curT / a.endT))
  }

  /** The fraction of the way `quadratic_interpolation` has covered: the
      parabola through the origin and `(end, 1)`. */
  function QuadraticFraction(cur: real, end: real): (y: real)
    requires end != 0.0
    ensures 0.0 <= cur <= end ==> 0.0 <= y <= 1.0
    ensures cur == 0.0 ==> y == 0.0
    ensures cur == end ==> y == 1.0
  {
    var a := 1.0 / (end * end);
    if 0.0 <= cur <= end then
      FractionBounds(cur, end);
      a * (cur * cur)
    else a * (cur * cur)
  }

  lemma FractionBounds(cur: real, end: real)
    requires 0.0 <= cur <= end && end != 0.0
    ensures 0.0 <= (1.0 / (end * end)) * (cur * cur) <= 1.0
  {
    var e2 := end * end;
    var c2 := cur * cur;
    assert 0.0 <= c2 <= e2 by {
      assert cur * cur <= cur * end;
      assert cur * end <= end * end;
    }
    assert e2 > 0.0;
    var a := 1.0 / e2;
    assert a * e2 == 1.0;
    assert a > 0.0;
    assert a * c2 <= a * e2;
  }

  /** The quadratic fraction never decreases as time runs on. */
  lemma {:induction false} QuadraticMonotone(c1: real, c2: real, end: real)
    requires end != 0.0 && 0.0 <= c1 <= c2
    ensures QuadraticFraction(c1, end) <= QuadraticFraction(c2, end)
  {
    var a := 1.0 / (end * end);
    assert a > 0.0 by {
      assert end * end > 0.0;
    }
    assert c1 * c1 <= c1 * c2 <= c2 * c2;
    assert a * (c1 * c1) <= a * (c2 * c2);
  }

  /** `quadratic_interpolation`: the position the quadratic fraction of the
      way from the initial position to the target. */
  function QuadraticStep(a: Timed): (r: Result<XYSimple>)
    ensures r.Err? <==> a.endT == 0.0
    ensures r.Err? ==> r.fault == ZeroDivision
    ensures r.Ok? && a.curT == 0.0 ==> r.value == a.initial
    ensures r.Ok? && a.curT == a.endT ==> r.value == a.target
    ensures r.Ok? ==> r.value == Between(a.initial, a.target, QuadraticFraction(a.curT, a.endT))
  {
    if a.endT == 0.0 then Err(ZeroDivision)
    else
      BetweenEnds(a.initial, a.target);
      Ok(Between(a.initial, a.target, QuadraticFraction(a.curT, a.endT)))
  }

  /** Within its time span a quadratic animation lies on the segment from
      its initial position to the target, never farther along at an
      earlier time. */
  lemma QuadraticStaysOnSegment(a: Timed, later: real)
    requires 0.0 <= a.curT <= later <= a.endT && a.endT != 0.0
    ensures exists c :: 0.0 <= c <= 1.0 && QuadraticStep(a).value == Between(a.initial, a.target, c)
    ensures QuadraticFraction(a.curT, a.endT) <= QuadraticFraction(later, a.endT)
  {
    QuadraticMonotone(a.curT, later, a.endT);
    assert QuadraticStep(a).value == Between(a.initial, a.target, QuadraticFraction(a.curT, a.endT));
  }

  /** `TimedAnimation.update(delta)`: once the time is up the animation
      jumps to the target, dies and calls back; otherwise the interpolation
      function sets the position. It does not look at `alive`. */
  function UpdateTimed(a: Timed, delta: real): (r: Result<Timed>)
    ensures r.Err? <==> a.curT + delta < a.endT && a.endT == 0.0
    ensures r.Ok? ==> r.value.curT == a.curT + delta && r.value.initial == a.initial && r.value.target == a.target
    ensures a.curT + delta >= a.endT ==>
      r == Ok(a.(curT := a.curT + delta, pos := a.target, alive := false, fired := a.fired + 1))
    ensures r.Ok? && a.curT + delta < a.endT ==> r.value.alive == a.alive && r.value.fired == a.fired
    // before the time is up only the clock and the position move, the
    // position by the animation's interpolation function
    ensures r.Ok? && a.curT + delta < a.endT ==>
      r.value == a.(curT := a.curT + delta, pos := r.value.pos) &&
      Ok(r.value.pos) == (if a.interp == LinearInterpolation then LinearStep(a.(curT := a.curT + delta))
                          else QuadraticStep(a.(curT := a.curT + delta)))
  {
    var b := a.(curT := a.curT + delta);
    if b.curT >= b.endT then Ok(b.(pos := b.target, alive := false, fired := b.fired + 1))
    else
      var p := match b.interp
        case LinearInterpolation => LinearStep(b)
        case QuadraticInterpolation => QuadraticStep(b);
      match p
      case Err(f) => Err(f)
      case Ok(q) => Ok(b.(pos := q))
  }

  /** An animation that has already died is not protected: updated again,
      it calls back again. */
  lemma DeadAnimationCallsBackAgain(a: Timed, delta: real)
    requires !a.alive && a.curT >= a.endT && delta >= 0.0
    ensures UpdateTimed(a, delta).Ok? && UpdateTimed(a, delta).value.fired == a.fired + 1
  {
  }

  /** A live linear animation running forward stays on the segment from
      the initial position to the target. */
  lemma LinearStaysOnSegment(a: Timed, delta: real)
    requires a.interp == LinearInterpolation && 0.0 <= a.curT + delta < a.endT
    ensures var b := UpdateTimed(a, delta).value;
      exists c :: 0.0 <= c < 1.0 && b.pos == Between(a.initial, a.target, c)
  {
    var c := (a.curT + delta) / a.endT;
    Ratio(a.curT + delta, a.endT);
    assert UpdateTimed(a, delta).value.pos == Between(a.initial, a.target, c);
  }

  /** `constant_linear_interpolation(animation, rate, delta)`: a step of
      `rate / (1000 / delta)` along the line from the initial position to
      the target, through `TargetAnimation.find_change`, which is
      `find_change` on those two points. A zero `delta` divides by zero. */
  function ConstantLinearStep(initial: XYSimple, target: XYSimple, pos: XYSimple, rate: real, delta: real,
                              sqrt: real -> real): (r: Result<XYSimple>)
    ensures r.Err? <==> delta == 0.0
    ensures r.Ok? ==> var c := FindChangeAsWritten(initial, target, rate * delta / 1000.0, sqrt);
      r.value == XYSimple(pos.x + c.dx, pos.y + c.dy)
  {
    if delta == 0.0 then Err(ZeroDivision)
    else
      var l := rate / (1000.0 / delta);
      StepOfRate(rate, delta);
      var c := FindChangeAsWritten(initial, target, l, sqrt);
      Ok(XYSimple(pos.x + c.dx, pos.y + c.dy))
  }

  /** `rate / (1000 / delta)` is the linear interpolator's step law without
      a constant. */
  lemma StepOfRate(rate: real, delta: real)
    requires delta != 0.0
    ensures rate / (1000.0 / delta) == rate * delta / 1000.0 == StepLength(rate, 0.0, delta)
  {
    var k := 1000.0 / delta;
    assert k * delta == 1000.0;
    assert (rate * delta / 1000.0) * k == rate;
  }

  // ---------------------------------------------------------------- service

  predicate Alive(a: Timed)
  {
    a.alive
  }

  /** Updates every animation in order; the first exception propagates. */
  function UpdateAll(anims: seq<Timed>, delta: real): (r: Result<seq<Timed>>)
    ensures r.Err? <==> exists i :: 0 <= i < |anims| && UpdateTimed(anims[i], delta).Err?
    ensures r.Ok? ==>
      |r.value| == |anims| && (forall i :: 0 <= i < |anims| ==> r.value[i] == UpdateTimed(anims[i], delta).value)
    decreases |anims|
  {
    if anims == [] then Ok([])
    else
      match UpdateTimed(anims[0], delta)
      case Err(f) => Err(f)
      case Ok(first) =>
        match UpdateAll(anims[1..], delta)
        case Err(f) => Err(f)
        case Ok(rest) =>
          assert forall i :: 1 <= i < |anims| ==> anims[i] == anims[1..][i - 1];
          Ok([first] + rest)
  }

  /** The deprecated `AnimationService.update(delta)`: keep the live
      animations, then update them. */
  function ServiceUpdate(anims: seq<Timed>, delta: real): (r: Result<seq<Timed>>)
    ensures r.Err? <==> exists a :: a in anims && a.alive && UpdateTimed(a, delta).Err?
    ensures r.Ok? ==> |r.value| <= |anims|
    ensures r.Ok? ==> forall b :: b in r.value ==> exists a :: a in anims && a.alive && UpdateTimed(a, delta).Ok? && b == UpdateTimed(a, delta).value
    // the live animations are updated in place and in order
    ensures r.Ok? ==> var live := Sorting.Filter(Alive, anims);
      |r.value| == |live| &&
      forall i :: 0 <= i < |live| ==> UpdateTimed(live[i], delta).Ok? && r.value[i] == UpdateTimed(live[i], delta).value
  {
    var live := Sorting.Filter(Alive, anims);
    var r := UpdateAll(live, delta);
    assert forall i :: 0 <= i < |live| ==> live[i] in live;
    if r.Ok? then
      assert forall b :: b in r.value ==> exists i :: 0 <= i < |live| && b == UpdateTimed(live[i], delta).value;
      r
    else
      r
  }

  /** Through the service the callback fires exactly when an animation
      dies: every animation returned is the update of the live one at its
      place, and has called back once more exactly when it is now dead. */
  lemma ServiceCallsBackOnDeath(anims: seq<Timed>, delta: real)
    requires ServiceUpdate(anims, delta).Ok?
    ensures var out, live := ServiceUpdate(anims, delta).value, Sorting.Filter(Alive, anims);
      |out| == |live| &&
      forall i :: 0 <= i < |out| ==>
        live[i].alive && out[i] == UpdateTimed(live[i], delta).value &&
        out[i].fired == live[i].fired + (if out[i].alive then 0 else 1)
  {
    var out, live := ServiceUpdate(anims, delta).value, Sorting.Filter(Alive, anims);
    forall i | 0 <= i < |out|
      ensures live[i].alive && out[i] == UpdateTimed(live[i], delta).value
      ensures out[i].fired == live[i].fired + (if out[i].alive then 0 else 1)
    {
      assert live[i] in live;
    }
  }

  /** `b` is the update of an animation of `out` that was still alive and
      had not called back since `live`, the animations `out` came from. */
  ghost predicate UpdateOfSurvivor(out: seq<Timed>, live: seq<Timed>, b: Timed, delta: real)
  {
    exists i :: 0 <= i < |out| && i < |live| && out[i].alive && out[i].fired == live[i].fired &&
                Ok(b) == UpdateTimed(out[i], delta)
  }

  /** An animation that dies during one service update is left out of the
      next, so it calls back once: every animation the second update
      touches was still alive after the first and had not called back in
      it. */
  lemma DeadDroppedNextUpdate(anims: seq<Timed>, delta: real, delta2: real)
    requires ServiceUpdate(anims, delta).Ok?
    ensures var out, live := ServiceUpdate(anims, delta).value, Sorting.Filter(Alive, anims);
      var next := ServiceUpdate(out, delta2);
      next.Ok? ==> forall j :: 0 <= j < |next.value| ==> UpdateOfSurvivor(out, live, next.value[j], delta2)
  {
    ServiceCallsBackOnDeath(anims, delta);
    var out, live := ServiceUpdate(anims, delta).value, Sorting.Filter(Alive, anims);
    var next := ServiceUpdate(out, delta2);
    if next.Ok? {
      ServiceCallsBackOnDeath(out, delta2);
      Survivors(out, live, Sorting.Filter(Alive, out), next.value, delta2);
    }
  }

  /** The step behind `DeadDroppedNextUpdate`, on the sequences alone. */
  lemma Survivors(out: seq<Timed>, live: seq<Timed>, live2: seq<Timed>, next: seq<Timed>, delta2: real)
    requires |out| == |live|
    requires forall i :: 0 <= i < |out| && out[i].alive ==> out[i].fired == live[i].fired
    requires forall x :: x in live2 ==> x in out && x.alive
    requires |next| == |live2|
    requires forall j :: 0 <= j < |live2| ==> Ok(next[j]) == UpdateTimed(live2[j], delta2)
    ensures forall j :: 0 <= j < |next| ==> UpdateOfSurvivor(out, live, next[j], delta2)
  {
    forall j | 0 <= j < |next|
      ensures UpdateOfSurvivor(out, live, next[j], delta2)
    {
      assert live2[j] in live2;
      var i :| 0 <= i < |out| && out[i] == live2[j];
      assert Ok(next[j]) == UpdateTimed(out[i], delta2);
    }
  }
}

=== FILE: game.dfy ===
/** The menu wiring of `game.py`: the tab pages of the sidebar, the hover
    handlers of tabs and text buttons, the start and quit buttons, and the
    rule by which the main loop hands each event to the element tree.
    Surfaces are reduced to the colour they were last filled with. */
module Game {
  import opened Support
  import opened Input
  import opened Graphics3

  const White := Color(255, 255, 255)

  /** The brightness the hover handlers add by default. */
  const DefaultBrightness: int := 15

  // ------------------------------------------------------------------ tabs

  /** An `Option` tab: its identity, the `selected` marker, its fill
      colour, and the colour its surface currently shows. */
  datatype Tab = Tab(id: nat, selected: bool, fill: Color, shown: Color)

  /** An element on a tab's page; only the two flags matter here. */
  datatype PageElem = PageElem(id: nat, active: bool, visible: bool)

  /** One entry of the `pages` dictionary, in insertion order. */
  datatype Page = Page(tab: Tab, elems: seq<PageElem>)

  /** The tabs are distinct objects. */
  predicate DistinctTabs(pages: seq<Page>)
  {
    forall i, j :: 0 <= i < j < |pages| ==> pages[i].tab.id != pages[j].tab.id
  }

  /** One page under `select_tab(u)`. The surface of `u` ends white: it
      is filled with its own colour in the loop and white after it. */
  function SelectPage(p: Page, u: nat): (r: Page)
    ensures r.tab.id == p.tab.id && r.tab.fill == p.tab.fill && |r.elems| == |p.elems|
    ensures r.tab.selected <==> p.tab.id == u
    ensures r.tab.shown == if p.tab.id == u then White else p.tab.fill
    ensures forall j :: 0 <= j < |p.elems| ==>
      r.elems[j].id == p.elems[j].id &&
      (r.elems[j].active <==> p.tab.id == u) && (r.elems[j].visible <==> p.tab.id == u)
  {
    var on := p.tab.id == u;
    Page(p.tab.(selected := on, shown := if on then White else p.tab.fill),
         seq(|p.elems|, j requires 0 <= j < |p.elems| => p.elems[j].(active := on, visible := on)))
  }

  /** `select_tab(u)`: every tab is selected exactly when it is `u`, and
      every element on its page is shown and active exactly then. */
  function SelectTab(pages: seq<Page>, u: nat): (r: seq<Page>)
    ensures |r| == |pages|
    ensures forall i :: 0 <= i < |pages| ==> r[i] == SelectPage(pages[i], u)
  {
    seq(|pages|, i requires 0 <= i < |pages| => SelectPage(pages[i], u))
  }

  /** Selecting a tab that is on the sidebar leaves exactly one tab
      selected: that one. */
  lemma ExactlyOneSelected(pages: seq<Page>, k: int)
    requires DistinctTabs(pages) && 0 <= k < |pages|
    ensures var r := SelectTab(pages, pages[k].tab.id);
      r[k].tab.selected && forall i :: 0 <= i < |r| && r[i].tab.selected ==> i == k
  {
  }

  /** Only the selected tab's page is shown: an element is visible exactly
      when its tab is selected. */
  lemma OnlySelectedPageShown(pages: seq<Page>, u: nat, i: int, j: int)
    requires 0 <= i < |pages| && 0 <= j < |pages[i].elems|
    ensures var r := SelectTab(pages, u);
      r[i].elems[j].visible <==> r[i].tab.selected
  {
  }

  /** Clicking the selected tab again changes nothing. */
  lemma SelectTabIdempotent(pages: seq<Page>, u: nat)
    ensures SelectTab(SelectTab(pages, u), u) == SelectTab(pages, u)
  {
    var once := SelectTab(pages, u);
    forall i | 0 <= i < |pages|
      ensures SelectPage(once[i], u) == once[i]
    {
      var p := once[i];
      assert SelectPage(p, u).elems == p.elems;
    }
  }

  /** `tab_mbd`: a click selects the tab. */
  function TabMbd(pages: seq<Page>, u: nat): (r: seq<Page>)
    ensures |r| == |pages|
    ensures forall i :: 0 <= i < |r| ==> (r[i].tab.selected <==> pages[i].tab.id == u)
  {
    SelectTab(pages, u)
  }

  /** `surf_menter(brightness)`: fill with the brightened, clamped fill
      colour. */
  function SurfMenter(t: Tab, brightness: int): (r: Tab)
    ensures r == t.(shown := r.shown)
    ensures InRange(r.shown.r) && InRange(r.shown.g) && InRange(r.shown.b)
    ensures r.shown == ClampColor(Brighten(t.fill, brightness))
  {
    t.(shown := ClampColor(Brighten(t.fill, brightness)))
  }

  /** `surf_mexit`: fill with the fill colour. */
  function SurfMexit(t: Tab): (r: Tab)
    ensures r == t.(shown := t.fill)
  {
    t.(shown := t.fill)
  }

  /** `tab_menter(brightness)`: hover highlight, except on the selected
      tab. */
  function TabMenter(t: Tab, brightness: int): (r: Tab)
    ensures t.selected ==> r == t
    ensures r == t.(shown := r.shown)
  {
    if t.selected then t else SurfMenter(t, brightness)
  }

  /** `tab_mexit`: the highlight goes, except on the selected tab. */
  function TabMexit(t: Tab): (r: Tab)
    ensures t.selected ==> r == t
    ensures r == t.(shown := r.shown)
  {
    if t.selected then t else SurfMexit(t)
  }

  /** Hovering over an unselected tab and leaving it restores its fill
      colour; over the selected tab it changes nothing at all. */
  lemma TabHoverRoundTrip(t: Tab, brightness: int)
    ensures !t.selected ==> TabMexit(TabMenter(t, brightness)) == t.(shown := t.fill)
    ensures t.selected ==> TabMexit(TabMenter(t, brightness)) == t
  {
  }

  /** After `select_tab`, hover handlers leave every tab's surface as
      the selection drew it only on the selected tab: the unselected ones
      return to their fill colour and the selected one stays white. */
  lemma HoverAfterSelect(pages: seq<Page>, u: nat, i: int, brightness: int)
    requires 0 <= i < |pages|
    ensures var t := SelectTab(pages, u)[i].tab;
      TabMexit(TabMenter(t, brightness)) == t
  {
  }

  // ------------------------------------------------------------ text hover

  /** A `Text` button; `color` is `font_args[1]`, the text colour. */
  datatype Label = Label(id: nat, color: Color)

  /** `text_menter(brightness)`: the label's colour is saved in the one
      attribute all text handlers share (`text_menter.og_color`), then
      brightened and clamped. */
  function TextMenter(l: Label, og: Option<Color>, brightness: int): (r: (Label, Option<Color>))
    ensures r.1 == Some(l.color)
    ensures r.0.id == l.id
    ensures InRange(r.0.color.r) && InRange(r.0.color.g) && InRange(r.0.color.b)
    ensures r.0 == l.(color := ClampColor(Brighten(l.color, brightness)))
  {
    (l.(color := ClampColor(Brighten(l.color, brightness))), Some(l.color))
  }

  /** `text_mexit`: restore whatever colour was saved last; before any
      `text_menter` the attribute does not exist. */
  function TextMexit(l: Label, og: Option<Color>): (r: Result<Label>)
    ensures r.Err? <==> og.None?
    ensures r.Err? ==> r.fault == UnsetAttribute
    ensures r.Ok? ==> r.value.id == l.id
    ensures r.Ok? ==> r.value == l.(color := og.value)
  {
    match og
    case None => Err(UnsetAttribute)
    case Some(c) => Ok(l.(color := c))
  }

  /** Entering and leaving one label restores its colour. */
  lemma TextHoverRoundTrip(l: Label, og: Option<Color>, brightness: int)
    ensures TextMexit(TextMenter(l, og, brightness).0, TextMenter(l, og, brightness).1) == Ok(l)
  {
  }

  /** The saved colour is shared: when `b` is entered after `a` and before
      `a` is left, `a` takes `b`'s colour. */
  lemma SharedColorCrossTalk(a: Label, b: Label, og: Option<Color>, brightness: int)
    ensures var (a1, og1) := TextMenter(a, og, brightness);
      var (_, og2) := TextMenter(b, og1, brightness);
      TextMexit(a1, og2) == Ok(a.(color := b.color))
  {
  }

  // ---------------------------------------------------------- start / quit

  /** The two scenes of the game, in the order the screen holds them, and
      the `running` flag of the main loop. */
  datatype Menu = Menu(start: Scene, sidebar: Scene, running: bool)

  function Scenes(m: Menu): seq<Scene>
  {
    [m.start, m.sidebar]
  }

  /** `game_start`: the start scene goes inactive, the sidebar active. */
  function GameStart(m: Menu): (r: Menu)
    ensures !r.start.active && r.sidebar.active && r.running == m.running
    ensures r.start.children == m.start.children && r.sidebar.children == m.sidebar.children
  {
    m.(start := m.start.(active := false), sidebar := m.sidebar.(active := true))
  }

  /** `game_quit`: only the loop flag is cleared. */
  function GameQuit(m: Menu): (r: Menu)
    ensures !r.running && r.start == m.start && r.sidebar == m.sidebar
  {
    m.(running := false)
  }

  /** After the start button, the screen draws the sidebar and nothing
      else. */
  lemma GameStartDrawsSidebarOnly(m: Menu)
    ensures Render(Scenes(GameStart(m))) == SceneDraw(GameStart(m).sidebar)
  {
    var r := GameStart(m);
    assert Render([r.sidebar]) == SceneDraw(r.sidebar) + Render([]);
    assert Scenes(r)[1..] == [r.sidebar];
  }

  // ----------------------------------------------------------- main loop

  /** One step the main loop takes for an element: `handle_event` on it,
      or `tick` on a GameObject. */
  datatype Step = HandleOn(id: nat, e: Event) | TickOn(id: nat)

  /** `any(c.handlers.values())`. */
  predicate Listens(c: Node)
  {
    HasAnyHandler(c.handlers)
  }

  /** The steps for one element: handle the event if some handler slot is
      truthy, then tick it if it is a GameObject. */
  function NodeSteps(c: Node, e: Event): (r: seq<Step>)
    ensures HandleOn(c.id, e) in r <==> Listens(c)
    ensures TickOn(c.id) in r <==> c.isGameObject
    ensures forall s :: s in r ==> s.id == c.id && (s.HandleOn? ==> s.e == e)
  {
    (if Listens(c) then [HandleOn(c.id, e)] else []) + (if c.isGameObject then [TickOn(c.id)] else [])
  }

  function NodesSteps(cs: seq<Node>, e: Event): (r: seq<Step>)
    ensures forall i :: 0 <= i < |cs| && Listens(cs[i]) ==> HandleOn(cs[i].id, e) in r
    ensures forall i :: 0 <= i < |cs| && cs[i].isGameObject ==> TickOn(cs[i].id) in r
    ensures forall s :: s in r ==> exists i :: 0 <= i < |cs| && s in NodeSteps(cs[i], e)
  {
    if cs == [] then []
    else
      var rest := NodesSteps(cs[1..], e);
      NodesStepsCons(cs, e, rest);
      NodeSteps(cs[0], e) + rest
  }

  /** The induction step of `NodesSteps`: the first element's steps
      followed by the steps `rest` of the others. */
  lemma NodesStepsCons(cs: seq<Node>, e: Event, rest: seq<Step>)
    requires cs != []
    requires forall i :: 0 <= i < |cs[1..]| && Listens(cs[1..][i]) ==> HandleOn(cs[1..][i].id, e) in rest
    requires forall i :: 0 <= i < |cs[1..]| && cs[1..][i].isGameObject ==> TickOn(cs[1..][i].id) in rest
    requires forall s :: s in rest ==> exists i :: 0 <= i < |cs[1..]| && s in NodeSteps(cs[1..][i], e)
    ensures var r := NodeSteps(cs[0], e) + rest;
      (forall i :: 0 <= i < |cs| && Listens(cs[i]) ==> HandleOn(cs[i].id, e) in r) &&
      (forall i :: 0 <= i < |cs| && cs[i].isGameObject ==> TickOn(cs[i].id) in r) &&
      (forall s :: s in r ==> exists i :: 0 <= i < |cs| && s in NodeSteps(cs[i], e))
  {
    var r := NodeSteps(cs[0], e) + rest;
    forall i | 1 <= i < |cs|
      ensures cs[i] == cs[1..][i - 1]
    {
    }
    forall s | s in r
      ensures exists i :: 0 <= i < |cs| && s in NodeSteps(cs[i], e)
    {
      if s !in NodeSteps(cs[0], e) {
        var j :| 0 <= j < |cs[1..]| && s in NodeSteps(cs[1..][j], e);
        assert cs[j + 1] == cs[1..][j];
      }
    }
  }

  /** The number of ticks in a list of steps. */
  function TickCount(steps: seq<Step>): nat
  {
    if steps == [] then 0 else (if steps[0].TickOn? then 1 else 0) + TickCount(steps[1..])
  }

  lemma {:induction false} TickCountAppend(a: seq<Step>, b: seq<Step>)
    ensures TickCount(a + b) == TickCount(a) + TickCount(b)
  {
    if a != [] {
      assert (a + b)[0] == a[0];
      assert (a + b)[1..] == a[1..] + b;
      TickCountAppend(a[1..], b);
    } else {
      assert a + b == b;
    }
  }

  /** The GameObjects among a list of elements. */
  function ObjectCount(cs: seq<Node>): nat
  {
    if cs == [] then 0 else (if cs[0].isGameObject then 1 else 0) + ObjectCount(cs[1..])
  }

  /** Each element contributes one tick when it is a GameObject. */
  lemma {:induction false} NodesStepsTicks(cs: seq<Node>, e: Event)
    ensures TickCount(NodesSteps(cs, e)) == ObjectCount(cs)
  {
    if cs != [] {
      NodesStepsTicks(cs[1..], e);
      TickCountAppend(NodeSteps(cs[0], e), NodesSteps(cs[1..], e));
      var c := cs[0];
      TickCountAppend(if Listens(c) then [HandleOn(c.id, e)] else [], if c.isGameObject then [TickOn(c.id)] else []);
    }
  }

  /** The steps one event causes: none for a quit; otherwise every
      descendant of every scene, whether the scene is active or not, in
      scene order. */
  function DispatchEvent(scenes: seq<Scene>, e: Event): (r: seq<Step>)
    ensures e.Quit? ==> r == []
    ensures !e.Quit? ==> forall k, c :: 0 <= k < |scenes| && c in SceneDescendants(scenes[k]) && Listens(c) ==>
      HandleOn(c.id, e) in r
  {
    if e.Quit? || scenes == [] then []
    else
      var here := NodesSteps(SceneDescendants(scenes[0]), e);
      var rest := DispatchEvent(scenes[1..], e);
      assert forall c :: c in SceneDescendants(scenes[0]) && Listens(c) ==> HandleOn(c.id, e) in here by {
        forall c | c in SceneDescendants(scenes[0]) && Listens(c)
          ensures HandleOn(c.id, e) in here
        {
          var i :| 0 <= i < |SceneDescendants(scenes[0])| && SceneDescendants(scenes[0])[i] == c;
        }
      }
      assert forall k :: 1 <= k < |scenes| ==> scenes[k] == scenes[1..][k - 1];
      here + rest
  }

  /** Every step an event causes belongs to some descendant of some
      scene: no other element is handed the event or ticked. */
  lemma {:induction false} DispatchOnlyDescendants(scenes: seq<Scene>, e: Event)
    ensures forall s :: s in DispatchEvent(scenes, e) ==>
      exists k, c :: 0 <= k < |scenes| && c in SceneDescendants(scenes[k]) && s in NodeSteps(c, e)
  {
    if !e.Quit? && scenes != [] {
      var here := NodesSteps(SceneDescendants(scenes[0]), e);
      var rest := DispatchEvent(scenes[1..], e);
      assert DispatchEvent(scenes, e) == here + rest;
      DispatchOnlyDescendants(scenes[1..], e);
      forall s | s in here + rest
        ensures exists k, c :: 0 <= k < |scenes| && c in SceneDescendants(scenes[k]) && s in NodeSteps(c, e)
      {
        if s in here {
          var i :| 0 <= i < |SceneDescendants(scenes[0])| && s in NodeSteps(SceneDescendants(scenes[0])[i], e);
          assert SceneDescendants(scenes[0])[i] in SceneDescendants(scenes[0]);
        } else {
          var k, c :| 0 <= k < |scenes[1..]| && c in SceneDescendants(scenes[1..][k]) && s in NodeSteps(c, e);
          assert scenes[1..][k] == scenes[k + 1];
        }
      }
    }
  }

  /** The GameObjects on the whole screen. */
  function ScreenObjects(scenes: seq<Scene>): nat
  {
    if scenes == [] then 0 else ObjectCount(SceneDescendants(scenes[0])) + ScreenObjects(scenes[1..])
  }

  /** An event that is not a quit ticks every GameObject on the screen
      once. */
  lemma {:induction false} DispatchTicksEveryObject(scenes: seq<Scene>, e: Event)
    requires !e.Quit?
    ensures TickCount(DispatchEvent(scenes, e)) == ScreenObjects(scenes)
  {
    if scenes != [] {
      DispatchTicksEveryObject(scenes[1..], e);
      NodesStepsTicks(SceneDescendants(scenes[0]), e);
      TickCountAppend(NodesSteps(SceneDescendants(scenes[0]), e), DispatchEvent(scenes[1..], e));
    }
  }

  /** The result of one pass of the event loop. */
  datatype FrameResult = FrameResult(running: bool, steps: seq<Step>)

  /** The inner loop of `mainloop` over one frame's events: a quit clears
      `running` but the remaining events are still dispatched. The tree
      itself is not changed by this model of the loop; the effect of each
      step is `Graphics3.HandleEvent` on that element or `Gameplay.Tick`. */
  function Frame(scenes: seq<Scene>, running: bool, es: seq<Event>): (r: FrameResult)
    ensures r.running <==> running && forall i :: 0 <= i < |es| ==> !es[i].Quit?
    ensures es == [] ==> r.steps == []
  {
    if es == [] then FrameResult(running, [])
    else
      var rest := Frame(scenes, running && !es[0].Quit?, es[1..]);
      assert forall i :: 1 <= i < |es| ==> es[i] == es[1..][i - 1];
      FrameResult(rest.running, DispatchEvent(scenes, es[0]) + rest.steps)
  }

  /** A quit does not stop the frame: the events after it are handled as
      if it were not there, only the flag differs. */
  lemma QuitKeepsProcessing(scenes: seq<Scene>, running: bool, es: seq<Event>)
    ensures Frame(scenes, running, [Quit] + es) == FrameResult(false, Frame(scenes, running, es).steps)
  {
    assert ([Quit] + es)[1..] == es;
    FrameStepsIgnoreFlag(scenes, false, running, es);
  }

  /** The steps of a frame do not depend on the flag it starts with. */
  lemma {:induction false} FrameStepsIgnoreFlag(scenes: seq<Scene>, a: bool, b: bool, es: seq<Event>)
    ensures Frame(scenes, a, es).steps == Frame(scenes, b, es).steps
  {
    if es != [] {
      FrameStepsIgnoreFlag(scenes, a && !es[0].Quit?, b && !es[0].Quit?, es[1..]);
    }
  }

  function NonQuit(es: seq<Event>): nat
  {
    if es == [] then 0 else (if es[0].Quit? then 0 else 1) + NonQuit(es[1..])
  }

  /** GameObjects tick once per event that is not a quit, not once per
      frame. */
  lemma {:induction false} TicksPerEvent(scenes: seq<Scene>, running: bool, es: seq<Event>)
    ensures TickCount(Frame(scenes, running, es).steps) == NonQuit(es) * ScreenObjects(scenes)
  {
    if es != [] {
      var e := es[0];
      var rest := Frame(scenes, running && !e.Quit?, es[1..]);
      assert Frame(scenes, running, es).steps == DispatchEvent(scenes, e) + rest.steps;
      TicksPerEvent(scenes, running && !e.Quit?, es[1..]);
      TickCountAppend(DispatchEvent(scenes, e), rest.steps);
      var n, k := NonQuit(es[1..]), ScreenObjects(scenes);
      if e.Quit? {
        assert NonQuit(es) == n;
      } else {
        DispatchTicksEveryObject(scenes, e);
        assert NonQuit(es) == n + 1;
        MulSucc(n, k);
      }
      assert TickCount(Frame(scenes, running, es).steps)
          == TickCount(DispatchEvent(scenes, e)) + TickCount(rest.steps);
    }
  }

  lemma MulSucc(n: nat, m: nat)
    ensures (n + 1) * m == m + n * m
  {
  }

  /** An element whose only binding is an empty `uevent` list is not
      handed events. */
  lemma EmptyUeventDoesNotListen(c: Node, e: Event)
    requires c.handlers == NoHandlers
    ensures !c.isGameObject ==> NodeSteps(c, e) == []
  {
  }
}

=== FILE: gameplay.dfy ===
/** The unit control loop of `gameplay.py`: a GameObject finds the nearest
    enemy, steers toward it, slews its turrets, sets their fire flags,
    switches its thrusters on, then integrates rotation, velocity and
    position; its timers drive the turrets' fire callbacks. Angles,
    distances and the heading vector of a rotation are computed by the
    oracles in `Numerics` (the source uses `math.sqrt`, `math.acos` and a
    `tan`-based heading). Timer callbacks are tagged commands. */
module Gameplay {
  import opened Support
  import opened Placement
  import opened VMath
  import Sorting

  // -------------------------------------------------------------- resize

  /** What `resize` does with a surface: hands it back untouched, or scales
      it to an integer size. */
  datatype Resized = Unchanged | Scaled(w: int, h: int)

  /** A surface's aspect ratio, width over height. */
  function Aspect(surf: Size): real
    requires surf.h != 0.0
  {
    surf.w / surf.h
  }

  /** `resize(surf, size)`: a missing dimension is derived from the other
      through the surface's aspect ratio and truncated by `int()`. The
      ratio is computed before anything else, so a surface of height 0
      raises even when no resize is asked for. */
  function Resize(surf: Size, target: (Option<int>, Option<int>)): (r: Result<Resized>)
    ensures surf.h == 0.0 ==> r == Err(ZeroDivision)
    ensures surf.h != 0.0 && target.0.None? && target.1.None? ==> r == Ok(Unchanged)
    ensures surf.h != 0.0 && target.0.Some? && target.1.Some? ==> r == Ok(Scaled(target.0.value, target.1.value))
    // keep the aspect ratio, derive the width
    ensures surf.h != 0.0 && target.0.None? && target.1.Some? ==>
      r.Ok? && r.value.Scaled? && r.value.h == target.1.value &&
      r.value.w == Trunc(target.1.value as real * Aspect(surf)) &&
      -1.0 < r.value.w as real - target.1.value as real * Aspect(surf) < 1.0
    // keep the aspect ratio, derive the height; a zero-width surface has ratio 0
    ensures surf.h != 0.0 && target.0.Some? && target.1.None? ==>
      (r.Err? <==> surf.w == 0.0) &&
      (r.Ok? ==> r.value.Scaled? && r.value.w == target.0.value && Aspect(surf) != 0.0 &&
                 r.value.h == Trunc(target.0.value as real / Aspect(surf)) &&
                 -1.0 < r.value.h as real - target.0.value as real / Aspect(surf) < 1.0)
  {
    if surf.h == 0.0 then Err(ZeroDivision)
    else
      var aspect := Aspect(surf);
      assert aspect == 0.0 <==> surf.w == 0.0;
      match target
      case (None, None) => Ok(Unchanged)
      case (None, Some(h)) =>
        var w := h as real * aspect;
        TruncNear(w);
        Ok(Scaled(Trunc(w), h))
      case (Some(w), None) =>
        if aspect == 0.0 then Err(ZeroDivision)
        else
          var h := w as real / aspect;
          TruncNear(h);
          Ok(Scaled(w, Trunc(h)))
      case (Some(w), Some(h)) => Ok(Scaled(w, h))
  }

  // ---------------------------------------------------------- categories

  /** The behavioural categories as written: both are 0. */
  const Active: int := 0
  const Passive: int := 0

  /** The evidently intended value of PASSIVE: distinct from ACTIVE. */
  const PassiveIntended: int := 1

  /** `self.category == GameObject.ACTIVE`. */
  predicate IsActive(category: int)
  {
    category == Active
  }

  /** With the constants as written, a unit created PASSIVE seeks targets
      and fires its thrusters like an ACTIVE one. */
  lemma PassiveCountsAsActive()
    ensures IsActive(Passive)
  {
  }

  /** With a distinct PASSIVE value, the category test separates the two. */
  lemma CategoriesDistinguished()
    ensures IsActive(Active) && !IsActive(PassiveIntended)
  {
  }

  // ---------------------------------------------------------------- guns

  datatype GunStats = GunStats(damage: int, fireRate: int, range: real)

  /** `GUN_STATS`: the one gun the table defines. */
  function GunLookup(key: string): Option<GunStats>
  {
    if key == "FIGHTER_GUN_MK1" then Some(GunStats(25, 60, 250.0)) else None
  }

  // ------------------------------------------------------------- records

  /** A turret spec `[position, gun, gimbal_locked, rotation, turn_rate,
      automatic]`. */
  datatype TurretSpec = TurretSpec(mount: XYSimple, gun: string, gimbal: bool, rot: real,
                                   turnRate: real, auto: bool)

  /** A turret entry `[spec, image, fire]`; the image is surface work. */
  datatype Turret = Turret(spec: TurretSpec, fire: bool)

  /** A thruster `[position, thrust, active]`. */
  datatype Thruster = Thruster(mount: XYSimple, thrust: real, active: bool)

  /** What a timer's callback does when it is called: the turret fire
      callback for turret `turret`, owning timer `timer`. */
  datatype Command = FireTurret(turret: nat, timer: nat)

  /** A timer `[current, duration, auto_reset, callback]`. */
  datatype Timer = Timer(acc: real, period: real, autoReset: bool, cmd: Command)

  datatype Unit = Unit(team: int, category: int, unitType: int, targetTypes: seq<int>,
                       health: real, mass: real, relPos: XYComplex, vel: XYSimple,
                       rot: real, rotLocked: bool, rotVel: real, turnRate: real, maxTurnRate: real,
                       turrets: seq<Turret>, thrusters: seq<Thruster>, timers: seq<Timer>)

  /** The floating-point numerics the loop delegates: `math.sqrt`,
      `math.degrees(math.acos(.))`, and the unit heading vector of a
      rotation in degrees (`calculate_ship_heading`) wherever that does
      not raise; see `Heading`. */
  datatype Numerics = Numerics(sqrt: real -> real, acosDeg: real -> real, facing: real -> XYSimple)

  function AsVec(p: XYSimple): (r: Vec)
    ensures |r| == 2 && r[0] == p.x && r[1] == p.y
  {
    [p.x, p.y]
  }

  /** `calculate_ship_heading`, and its copy in the turret loop: the slope
      is `tan(radians(90 + rot))`, exactly zero only at -90 degrees, and a
      rotation outside (-90, 90) is turned into a vector through `-1 / slope`,
      so -90 itself divides by zero. Every other rotation yields the unit
      vector of the `facing` oracle. */
  function Heading(rot: real, o: Numerics): (r: Result<XYSimple>)
    ensures r.Err? <==> rot == -90.0
    ensures r.Err? ==> r.fault == ZeroDivision
    ensures r.Ok? ==> r.value == o.facing(rot)
  {
    if rot == -90.0 then Err(ZeroDivision) else Ok(o.facing(rot))
  }

  // ------------------------------------------------------ timers and ticks

  predicate Due(t: Timer, tick: real)
  {
    t.acc + tick >= t.period
  }

  /** One timer in the loop at the top of `tick`: the accumulator grows by
      `tick`, and a timer that reaches its period and auto-resets starts
      again from 0. */
  function StepTimer(t: Timer, tick: real): (r: Timer)
    ensures r == t.(acc := r.acc)
    ensures Due(t, tick) && t.autoReset ==> r.acc == 0.0
    ensures !(Due(t, tick) && t.autoReset) ==> r.acc == t.acc + tick
  {
    if Due(t, tick) && t.autoReset then t.(acc := 0.0) else t.(acc := t.acc + tick)
  }

  /** The callbacks a frame invokes, in timer order. */
  function DueCommands(ts: seq<Timer>, tick: real): (r: seq<Command>)
    ensures r == Sorting.Map((t: Timer) => t.cmd, Sorting.Filter((t: Timer) => Due(t, tick), ts))
    ensures |r| <= |ts|
    ensures forall i :: 0 <= i < |ts| && Due(ts[i], tick) ==> ts[i].cmd in r
    ensures forall c :: c in r ==> exists i :: 0 <= i < |ts| && Due(ts[i], tick) && ts[i].cmd == c
  {
    var r := if ts == [] then [] else (if Due(ts[0], tick) then [ts[0].cmd] else []) + DueCommands(ts[1..], tick);
    Sorting.MapFilterMembers((t: Timer) => t.cmd, (t: Timer) => Due(t, tick), ts);
    r
  }

  /** The loop at the top of `tick`: every timer steps, and those that
      reach their period have their callbacks invoked. Returns the timers
      and the callbacks invoked, in order. */
  function TickTimers(ts: seq<Timer>, tick: real): (r: (seq<Timer>, seq<Command>))
    ensures |r.0| == |ts|
    ensures forall i :: 0 <= i < |ts| ==> r.0[i] == StepTimer(ts[i], tick)
    ensures r.1 == DueCommands(ts, tick)
  {
    (seq(|ts|, i requires 0 <= i < |ts| => StepTimer(ts[i], tick)), DueCommands(ts, tick))
  }

  /** A frame in which no timer reaches its period invokes no callback. */
  lemma NothingDueNothingFires(ts: seq<Timer>, tick: real)
    requires forall i :: 0 <= i < |ts| ==> !Due(ts[i], tick)
    ensures DueCommands(ts, tick) == []
  {
  }

  /** The sum of a sequence of ticks. */
  function Total(ticks: seq<real>): real
  {
    if ticks == [] then 0.0 else ticks[0] + Total(ticks[1..])
  }

  /** Several frames of timer updates. */
  function TickTimersAll(ts: seq<Timer>, ticks: seq<real>): (r: seq<Timer>)
    ensures |r| == |ts|
    decreases |ticks|
  {
    if ticks == [] then ts else TickTimersAll(TickTimers(ts, ticks[0]).0, ticks[1..])
  }

  /** A timer that does not auto-reset accumulates the total elapsed time
      (its callback may still reset it; that is a separate step). */
  lemma {:induction false} TimerAccumulates(ts: seq<Timer>, ticks: seq<real>, i: int)
    requires 0 <= i < |ts| && !ts[i].autoReset
    ensures TickTimersAll(ts, ticks)[i].acc == ts[i].acc + Total(ticks)
    ensures !TickTimersAll(ts, ticks)[i].autoReset
    decreases |ticks|
  {
    if ticks != [] {
      TimerAccumulates(TickTimers(ts, ticks[0]).0, ticks[1..], i);
    }
  }

  /** A turret fire callback: when the turret's fire flag (`turret[2]`) is
      set it resets its own timer. Indices outside the lists raise. */
  function RunCommand(turrets: seq<Turret>, timers: seq<Timer>, c: Command): (r: Result<seq<Timer>>)
    ensures r.Err? <==> c.turret >= |turrets| || (turrets[c.turret].fire && c.timer >= |timers|)
    ensures r.Ok? && !turrets[c.turret].fire ==> r.value == timers
    ensures r.Ok? && turrets[c.turret].fire ==>
      |r.value| == |timers| && r.value[c.timer].acc == 0.0 &&
      forall k :: 0 <= k < |timers| && k != c.timer ==> r.value[k] == timers[k]
  {
    if c.turret >= |turrets| then Err(IndexOutOfRange)
    else if !turrets[c.turret].fire then Ok(timers)
    else if c.timer >= |timers| then Err(IndexOutOfRange)
    else Ok(timers[c.timer := timers[c.timer].(acc := 0.0)])
  }

  function RunCommands(turrets: seq<Turret>, timers: seq<Timer>, cs: seq<Command>): (r: Result<seq<Timer>>)
    ensures r.Ok? ==> |r.value| == |timers|
    decreases |cs|
  {
    if cs == [] then Ok(timers)
    else
      match RunCommand(turrets, timers, cs[0])
      case Err(f) => Err(f)
      case Ok(ts) => RunCommands(turrets, ts, cs[1..])
  }

  /** A fresh timer appended by `set_turret_timers` at position `k`: it
      starts at 0, runs for the gun's fire interval, does not auto-reset,
      and its command names an automatic turret and the timer itself. */
  predicate FreshTimer(turrets: seq<Turret>, t: Timer, k: int)
  {
    t.cmd.timer == k && t.cmd.turret < |turrets| && turrets[t.cmd.turret].spec.auto &&
    GunLookup(turrets[t.cmd.turret].spec.gun).Some? &&
    t.period == (GunLookup(turrets[t.cmd.turret].spec.gun).value.fireRate * 1000) as real &&
    t.acc == 0.0 && !t.autoReset
  }

  function AutoCount(turrets: seq<Turret>, i: nat): nat
    requires i <= |turrets|
    decreases |turrets| - i
  {
    if i == |turrets| then 0 else (if turrets[i].spec.auto then 1 else 0) + AutoCount(turrets, i + 1)
  }

  /** `set_turret_timers` from turret `i` on. Every turret's gun is looked
      up, so an unknown gun raises even on a turret without a timer. */
  function SetTurretTimersFrom(turrets: seq<Turret>, i: nat, timers: seq<Timer>): (r: Result<seq<Timer>>)
    requires i <= |turrets|
    ensures r.Err? <==> exists j :: i <= j < |turrets| && GunLookup(turrets[j].spec.gun).None?
    ensures r.Err? ==> r.fault == KeyMissing
    ensures r.Ok? ==> |r.value| == |timers| + AutoCount(turrets, i) && r.value[..|timers|] == timers
    ensures r.Ok? ==> forall k :: |timers| <= k < |r.value| ==>
      FreshTimer(turrets, r.value[k], k) && i <= r.value[k].cmd.turret
    ensures r.Ok? ==> forall k1, k2 :: |timers| <= k1 < k2 < |r.value| ==>
      r.value[k1].cmd.turret < r.value[k2].cmd.turret
    decreases |turrets| - i
  {
    if i == |turrets| then Ok(timers)
    else
      match GunLookup(turrets[i].spec.gun)
      case None => Err(KeyMissing)
      case Some(g) =>
        var next := if turrets[i].spec.auto
                    then timers + [Timer(0.0, (g.fireRate * 1000) as real, false, FireTurret(i, |timers|))]
                    else timers;
        var r := SetTurretTimersFrom(turrets, i + 1, next);
        assert r.Ok? ==> r.value[..|timers|] == next[..|timers|];
        r
  }

  /** `set_turret_timers`: one timer per automatic turret, appended. */
  function SetTurretTimers(turrets: seq<Turret>, timers: seq<Timer>): (r: Result<seq<Timer>>)
    ensures r.Err? <==> exists j :: 0 <= j < |turrets| && GunLookup(turrets[j].spec.gun).None?
    ensures r.Ok? ==> |r.value| == |timers| + AutoCount(turrets, 0) && r.value[..|timers|] == timers
    ensures r.Ok? ==> forall k :: |timers| <= k < |r.value| ==> FreshTimer(turrets, r.value[k], k)
    ensures r.Ok? ==> forall k1, k2 :: |timers| <= k1 < k2 < |r.value| ==>
      r.value[k1].cmd.turret < r.value[k2].cmd.turret
  {
    SetTurretTimersFrom(turrets, 0, timers)
  }

  /** A turret's timer fires its own callback: the command of every timer
      that `set_turret_timers` adds resets that very timer. */
  lemma FireCallbackResetsOwnTimer(turrets: seq<Turret>, timers: seq<Timer>, k: int)
    requires SetTurretTimers(turrets, timers).Ok?
    requires |timers| <= k < |SetTurretTimers(turrets, timers).value|
    ensures var ts := SetTurretTimers(turrets, timers).value;
      var c := ts[k].cmd;
      turrets[c.turret].fire ==> RunCommand(turrets, ts, c) == Ok(ts[k := ts[k].(acc := 0.0)])
  {
  }

  // ------------------------------------------------------------- targeting

  /** The filter of `locate_enemy`: another team, and of a wanted type
      (any type when the list is empty). */
  predicate Eligible(self: Unit, other: Unit)
  {
    other.team != self.team && (|self.targetTypes| == 0 || other.unitType in self.targetTypes)
  }

  /** The distance between the offset parts of two positions. */
  function Dist(self: Unit, other: Unit, sqrt: real -> real): real
  {
    var dx := other.relPos.xOffset - self.relPos.xOffset;
    var dy := other.relPos.yOffset - self.relPos.yOffset;
    sqrt(dx * dx + dy * dy)
  }

  /** `locate_enemy` over the registry in iteration order: the first
      eligible unit at the least distance, or none with distance 0. */
  /** Index `k` is the unit `locate_enemy` picks: eligible, no farther
      than any eligible unit, and strictly nearer than every eligible unit
      before it (the scan changes its pick only on a strictly smaller
      distance). */
  predicate Nearest(self: Unit, registry: seq<Unit>, k: int, sqrt: real -> real)
  {
    0 <= k < |registry| && Eligible(self, registry[k]) &&
    (forall j :: 0 <= j < |registry| && Eligible(self, registry[j]) ==>
       Dist(self, registry[k], sqrt) <= Dist(self, registry[j], sqrt)) &&
    (forall j :: 0 <= j < k && Eligible(self, registry[j]) ==>
       Dist(self, registry[k], sqrt) < Dist(self, registry[j], sqrt))
  }

  /** At most one unit is the nearest, so the pick is determined. */
  lemma NearestIsUnique(self: Unit, registry: seq<Unit>, k1: int, k2: int, sqrt: real -> real)
    requires Nearest(self, registry, k1, sqrt) && Nearest(self, registry, k2, sqrt)
    ensures k1 == k2
  {
  }

  method LocateEnemy(self: Unit, registry: seq<Unit>, sqrt: real -> real) returns (target: Option<nat>, dist: real)
    ensures target.Some? ==> Nearest(self, registry, target.value, sqrt)
    ensures target.None? <==> forall i :: 0 <= i < |registry| ==> !Eligible(self, registry[i])
    ensures target.None? ==> dist == 0.0
    ensures target.Some? ==> target.value < |registry| && Eligible(self, registry[target.value])
    ensures target.Some? ==> registry[target.value].team != self.team
    ensures target.Some? ==> dist == Dist(self, registry[target.value], sqrt)
    ensures target.Some? ==> forall j :: 0 <= j < |registry| && Eligible(self, registry[j]) ==>
      dist <= Dist(self, registry[j], sqrt)
    ensures target.Some? ==> forall j :: 0 <= j < target.value && Eligible(self, registry[j]) ==>
      dist < Dist(self, registry[j], sqrt)
  {
    target, dist := None, 0.0;
    var i := 0;
    while i < |registry|
      invariant 0 <= i <= |registry|
      invariant target.None? <==> forall j :: 0 <= j < i ==> !Eligible(self, registry[j])
      invariant target.None? ==> dist == 0.0
      invariant target.Some? ==> target.value < i && Eligible(self, registry[target.value])
      invariant target.Some? ==> dist == Dist(self, registry[target.value], sqrt)
      invariant target.Some? ==> forall j :: 0 <= j < i && Eligible(self, registry[j]) ==>
        dist <= Dist(self, registry[j], sqrt)
      invariant target.Some? ==> forall j :: 0 <= j < target.value && Eligible(self, registry[j]) ==>
        dist < Dist(self, registry[j], sqrt)
    {
      var g := registry[i];
      if Eligible(self, g) {
        var d := Dist(self, g, sqrt);
        if target.None? || d < dist {
          target, dist := Some(i), d;
        }
      }
      i := i + 1;
    }
  }

  // --------------------------------------------------------------- steering

  function Max(a: real, b: real): real
  {
    if a >= b then a else b
  }

  function Min(a: real, b: real): real
  {
    if a <= b then a else b
  }

  function Abs(a: real): real
  {
    if a >= 0.0 then a else -a
  }

  /** The proportional factor: 1 beyond `limit`, linear below it. */
  function Factor(p: real, limit: real): (r: real)
    requires limit > 0.0
    ensures 0.0 <= p ==> 0.0 <= r <= 1.0
    ensures p == 0.0 ==> r == 0.0
  {
    if p > limit then 1.0 else p / limit
  }

  /** The new rotational velocity for a target whose right-projection is
      `rp` (positive: target on the right). */
  function Steer(rotVel: real, rp: real, turnRate: real, maxTurnRate: real, tick: real): (r: real)
    ensures rp >= 0.0 ==> r >= -maxTurnRate * tick / 1000.0
    ensures rp < 0.0 ==> r <= maxTurnRate * tick / 1000.0
    ensures rp == 0.0 && maxTurnRate * tick >= 0.0 ==> r == 0.0
    // the turn rate never exceeds the larger of its cap and its previous value
    ensures turnRate * tick >= 0.0 && maxTurnRate * tick >= 0.0 ==>
      Abs(r) <= Max(maxTurnRate * tick / 1000.0, Abs(rotVel))
  {
    var cap := maxTurnRate * tick / 1000.0;
    var step := turnRate * tick / 1000.0;
    if rp >= 0.0 then
      var a := rotVel - step;
      var f := Factor(rp, 100.0);
      ScaledBetween(a, f);
      Max(-cap, a * f)
    else
      var a := rotVel + step;
      var f := Factor(-rp, 100.0);
      ScaledBetween(a, f);
      Min(cap, a * f)
  }

  /** A value scaled by a factor in [0, 1] lies between 0 and itself. */
  lemma ScaledBetween(a: real, f: real)
    requires 0.0 <= f <= 1.0
    ensures Min(0.0, a) <= a * f <= Max(0.0, a)
  {
    if a >= 0.0 {
      assert a * f <= a * 1.0;
    } else {
      assert a * f >= a * 1.0;
    }
  }

  /** Turning toward a target on the left mirrors turning toward one on the
      right. */
  lemma SteerIsSymmetric(rotVel: real, rp: real, turnRate: real, maxTurnRate: real, tick: real)
    requires maxTurnRate * tick >= 0.0
    ensures Steer(rotVel, rp, turnRate, maxTurnRate, tick) == -Steer(-rotVel, -rp, turnRate, maxTurnRate, tick)
  {
    var step := turnRate * tick / 1000.0;
    if rp > 0.0 {
      assert (-rotVel + step) * Factor(rp, 100.0) == -((rotVel - step) * Factor(rp, 100.0));
    } else if rp < 0.0 {
      assert (-rotVel - step) * Factor(-rp, 100.0) == -((rotVel + step) * Factor(-rp, 100.0));
    }
  }

  /** Steering from rest at a target dead ahead leaves the unit still. */
  lemma SteerStraightAhead(turnRate: real, maxTurnRate: real, tick: real)
    requires maxTurnRate >= 0.0 && tick >= 0.0
    ensures Steer(0.0, 0.0, turnRate, maxTurnRate, tick) == 0.0
  {
    assert maxTurnRate * tick >= 0.0;
  }

  // ---------------------------------------------------------------- turrets

  /** The turret slew step: a turret that is not gimbal locked turns by at
      most `turn_rate * tick / 1000`, against the sign of its
      right-projection `trp`. */
  function Slew(t: TurretSpec, trp: real, tick: real): (r: TurretSpec)
    ensures r == t.(rot := r.rot)
    ensures t.gimbal ==> r.rot == t.rot
    ensures !t.gimbal && t.turnRate * tick >= 0.0 && trp >= 0.0 ==> r.rot <= t.rot
    ensures !t.gimbal && t.turnRate * tick >= 0.0 && trp < 0.0 ==> r.rot >= t.rot
    ensures t.turnRate * tick >= 0.0 ==> Abs(r.rot - t.rot) <= t.turnRate * tick / 1000.0
  {
    if t.gimbal then t
    else
      var step := t.turnRate * tick / 1000.0;
      if trp >= 0.0 then
        var f := Factor(trp, 20.0);
        ScaledBetween(step, f);
        t.(rot := t.rot - step * f)
      else
        var f := Factor(-trp, 20.0);
        ScaledBetween(step, f);
        t.(rot := t.rot + step * f)
  }

  /** Slewing is symmetric: a mirrored projection turns the same amount the
      other way. */
  lemma SlewIsSymmetric(t: TurretSpec, trp: real, tick: real)
    ensures Slew(t, trp, tick).rot - t.rot == -(Slew(t, -trp, tick).rot - t.rot)
  {
  }

  predicate InCone(angle: real)
  {
    -10.0 < angle < 10.0
  }

  /** The fire marker as written: the condition lands in `turret[0][2]`,
      the gimbal-lock slot of the spec, and `turret[2]` (the flag the fire
      callback reads) is never written. */
  function FireFlagAsWritten(t: Turret, tAngle: real, dist: real, range: real): (r: Turret)
    ensures r.spec.gimbal <==> InCone(tAngle) && dist <= range
    ensures r.fire == t.fire && r.spec == t.spec.(gimbal := r.spec.gimbal)
  {
    t.(spec := t.spec.(gimbal := InCone(tAngle) && dist <= range))
  }

  /** The fire marker as intended: the turret's own fire flag. */
  function FireFlag(t: Turret, tAngle: real, dist: real, range: real): (r: Turret)
    ensures r.fire <==> InCone(tAngle) && dist <= range
    ensures r.spec == t.spec
  {
    t.(fire := InCone(tAngle) && dist <= range)
  }

  /** A free turret on target in range, as written: it locks its own gimbal
      (so the next slew leaves it where it is), and its fire flag stays
      false, so its callback never resets its timer. As intended, the fire
      flag is set and the turret keeps tracking. */
  lemma FireFlagLandsInGimbalSlot(t: Turret, timers: seq<Timer>, trp: real, tick: real)
    requires !t.spec.gimbal && !t.fire && t.spec.turnRate > 0.0 && tick > 0.0 && trp > 0.0
    ensures var w := FireFlagAsWritten(t, 0.0, 0.0, 250.0);
      w.spec.gimbal && !w.fire && Slew(w.spec, trp, tick).rot == w.spec.rot &&
      RunCommand([w], timers, FireTurret(0, 0)) == Ok(timers)
    ensures var c := FireFlag(t, 0.0, 0.0, 250.0);
      c.fire && !c.spec.gimbal && Slew(c.spec, trp, tick).rot < c.spec.rot
  {
    var c := FireFlag(t, 0.0, 0.0, 250.0);
    var step := t.spec.turnRate * tick / 1000.0;
    assert step > 0.0;
    assert step * Factor(trp, 20.0) > 0.0;
  }

  /** The angle between a turret's heading and the target, from
      `angle_between` with the target distance precomputed. */
  function Aim(th: XYSimple, tlp: Vec, dist: real, o: Numerics): real
    requires |tlp| == 2
  {
    AngleTo(AsVec(th), tlp, dist, o)
  }

  /** The angle between any heading vector and the target. */
  function AngleTo(h: Vec, tlp: Vec, dist: real, o: Numerics): real
    requires |h| == |tlp| == 2
  {
    AngleBetween(h, tlp, Some(dist), o.sqrt, o.acosDeg).degrees
  }

  /** One turret in the control loop, as written: heading from the hull
      rotation plus the turret's own (raising at -90), slew with the gimbal
      lock as it was, then the gun lookup and the fire marker, which lands
      in the gimbal-lock slot. */
  function ControlTurret(t: Turret, rot: real, tlp: Vec, dist: real, tick: real, o: Numerics): (r: Result<Turret>)
    requires |tlp| == 2
    ensures r.Err? <==> rot + t.spec.rot == -90.0 || GunLookup(t.spec.gun).None?
    ensures r.Err? ==> r.fault == (if rot + t.spec.rot == -90.0 then ZeroDivision else KeyMissing)
    ensures r.Ok? ==> r.value.fire == t.fire
    ensures r.Ok? ==> r.value.spec == t.spec.(rot := r.value.spec.rot, gimbal := r.value.spec.gimbal)
    ensures r.Ok? ==> (r.value.spec.gimbal <==>
      InCone(Aim(o.facing(rot + t.spec.rot), tlp, dist, o)) && dist <= GunLookup(t.spec.gun).value.range)
    ensures r.Ok? && t.spec.gimbal ==> r.value.spec.rot == t.spec.rot
    ensures r.Ok? && t.spec.turnRate * tick >= 0.0 ==> Abs(r.value.spec.rot - t.spec.rot) <= t.spec.turnRate * tick / 1000.0
  {
    match Heading(rot + t.spec.rot, o)
    case Err(f) => Err(f)
    case Ok(th) =>
      var trp := Dot([-th.y, th.x], tlp);
      var spec := Slew(t.spec, trp, tick);
      match GunLookup(t.spec.gun)
      case None => Err(KeyMissing)
      case Some(g) => Ok(FireFlagAsWritten(t.(spec := spec), Aim(th, tlp, dist, o), dist, g.range))
  }

  /** One turret in the control loop as intended: the fire marker sets the
      turret's fire flag and leaves its gimbal lock alone. */
  function ControlTurretIntended(t: Turret, rot: real, tlp: Vec, dist: real, tick: real, o: Numerics): (r: Result<Turret>)
    requires |tlp| == 2
    ensures r.Err? <==> rot + t.spec.rot == -90.0 || GunLookup(t.spec.gun).None?
    ensures r.Ok? ==> r.value.spec.gimbal == t.spec.gimbal && r.value.spec.gun == t.spec.gun
    ensures r.Ok? && t.spec.gimbal ==> r.value.spec == t.spec
    ensures r.Ok? && r.value.fire ==> dist <= GunLookup(t.spec.gun).value.range
  {
    match Heading(rot + t.spec.rot, o)
    case Err(f) => Err(f)
    case Ok(th) =>
      var trp := Dot([-th.y, th.x], tlp);
      var spec := Slew(t.spec, trp, tick);
      match GunLookup(t.spec.gun)
      case None => Err(KeyMissing)
      case Some(g) => Ok(FireFlag(t.(spec := spec), Aim(th, tlp, dist, o), dist, g.range))
  }

  /** The two differ in where the marker goes and nowhere else: the
      as-written turret carries the intended fire flag in its gimbal slot
      and its old fire flag. */
  lemma ControlTurretMarkerPlacement(t: Turret, rot: real, tlp: Vec, dist: real, tick: real, o: Numerics)
    requires |tlp| == 2
    ensures var w, c := ControlTurret(t, rot, tlp, dist, tick, o), ControlTurretIntended(t, rot, tlp, dist, tick, o);
      w.Ok? == c.Ok? &&
      (w.Ok? ==> w.value == c.value.(fire := t.fire, spec := c.value.spec.(gimbal := c.value.fire)))
  {
  }

  function ControlTurrets(ts: seq<Turret>, rot: real, tlp: Vec, dist: real, tick: real, o: Numerics): (r: Result<seq<Turret>>)
    requires |tlp| == 2
    ensures r.Err? <==> exists i :: 0 <= i < |ts| && (rot + ts[i].spec.rot == -90.0 || GunLookup(ts[i].spec.gun).None?)
    ensures r.Ok? ==> |r.value| == |ts|
    ensures r.Ok? ==> forall i :: 0 <= i < |ts| ==> ControlTurret(ts[i], rot, tlp, dist, tick, o) == Ok(r.value[i])
  {
    if ts == [] then Ok([])
    else
      match ControlTurret(ts[0], rot, tlp, dist, tick, o)
      case Err(f) => Err(f)
      case Ok(t) =>
        assert forall i :: 1 <= i < |ts| ==> ts[i] == ts[1..][i - 1];
        match ControlTurrets(ts[1..], rot, tlp, dist, tick, o)
        case Err(f) => Err(f)
        case Ok(rest) =>
          var r := [t] + rest;
          assert r[0] == t && r[1..] == rest;
          Ok(r)
  }

  /** Across the turret loop every turret keeps its fire flag and gun, and
      one whose gimbal was locked keeps its rotation. */
  lemma ControlTurretsKeep(ts: seq<Turret>, rot: real, tlp: Vec, dist: real, tick: real, o: Numerics)
    requires |tlp| == 2 && ControlTurrets(ts, rot, tlp, dist, tick, o).Ok?
    ensures var r := ControlTurrets(ts, rot, tlp, dist, tick, o).value;
      forall i :: 0 <= i < |ts| ==>
        r[i].fire == ts[i].fire && r[i].spec.gun == ts[i].spec.gun &&
        (ts[i].spec.gimbal ==> r[i].spec.rot == ts[i].spec.rot)
  {
    var r := ControlTurrets(ts, rot, tlp, dist, tick, o).value;
    forall i | 0 <= i < |ts|
      ensures r[i].fire == ts[i].fire && r[i].spec.gun == ts[i].spec.gun
      ensures ts[i].spec.gimbal ==> r[i].spec.rot == ts[i].spec.rot
    {
      assert ControlTurret(ts[i], rot, tlp, dist, tick, o) == Ok(r[i]);
    }
  }

  // -------------------------------------------------------------- thrusters

  /** `activate_thrusters`. */
  function ActivateAll(ts: seq<Thruster>): (r: seq<Thruster>)
    ensures |r| == |ts|
    ensures forall i :: 0 <= i < |ts| ==> r[i] == ts[i].(active := true)
  {
    if ts == [] then [] else [ts[0].(active := true)] + ActivateAll(ts[1..])
  }

  /** The thrust rule: a unit at rest switches every thruster on; a moving
      unit does so only when both its travel and its facing point within
      the cone at the target. Nothing switches a thruster off. */
  function ThrustRule(ts: seq<Thruster>, speed: real, headingAngle: real, targetAngle: real): (r: seq<Thruster>)
    ensures |r| == |ts|
    ensures forall i :: 0 <= i < |ts| ==> r[i] == ts[i].(active := r[i].active)
    ensures forall i :: 0 <= i < |ts| ==>
      (r[i].active <==> ts[i].active || !(speed > 0.0) || (InCone(headingAngle) && InCone(targetAngle)))
  {
    if speed > 0.0 then
      if InCone(headingAngle) && InCone(targetAngle) then ActivateAll(ts) else ts
    else ActivateAll(ts)
  }

  // --------------------------------------------------------------- physics

  /** The rotation wrap as written: below -180 the rotation is replaced by
      `360 - rot`, which is at least 540. */
  function WrapAsWritten(rot: real): (r: real)
    ensures 180.0 < rot <= 540.0 ==> -180.0 < r <= 180.0
    ensures rot <= -180.0 ==> r >= 540.0
    ensures -180.0 < rot <= 180.0 ==> r == rot
    ensures 180.0 < rot ==> r == rot - 360.0
    ensures rot <= -180.0 ==> r == 360.0 - rot
    // from above -180 it agrees with the intended wrap
    ensures -180.0 < rot ==> r == Wrap(rot)
  {
    if rot <= -180.0 then 360.0 - rot else if rot > 180.0 then rot - 360.0 else rot
  }

  /** The rotation wrap as intended: a whole turn added or removed. */
  function Wrap(rot: real): (r: real)
    ensures -540.0 < rot <= 540.0 ==> -180.0 < r <= 180.0
    ensures r == rot || r == rot + 360.0 || r == rot - 360.0
  {
    if rot <= -180.0 then rot + 360.0 else if rot > 180.0 then rot - 360.0 else rot
  }

  /** Turning left past -180 leaves the range as written; the intended
      wrap lands on the same direction inside it. */
  lemma WrapCounterexample()
    ensures WrapAsWritten(-170.0 + -20.0) == 550.0
    ensures Wrap(-170.0 + -20.0) == 170.0
  {
  }

  /** The sum of the thrusts of the active thrusters. */
  function ActiveThrust(ts: seq<Thruster>): real
  {
    if ts == [] then 0.0 else (if ts[0].active then ts[0].thrust else 0.0) + ActiveThrust(ts[1..])
  }

  predicate AnyActive(ts: seq<Thruster>)
  {
    exists i :: 0 <= i < |ts| && ts[i].active
  }

  /** An active thruster somewhere is either the first or in the tail. */
  lemma AnyActiveSplit(ts: seq<Thruster>)
    requires ts != []
    ensures AnyActive(ts) <==> ts[0].active || AnyActive(ts[1..])
  {
    if AnyActive(ts) && !ts[0].active {
      var i :| 0 <= i < |ts| && ts[i].active;
      assert ts[1..][i - 1].active;
    }
    if AnyActive(ts[1..]) {
      var i :| 0 <= i < |ts[1..]| && ts[1..][i].active;
      assert ts[i + 1].active;
    }
  }

  /** `vel + k * heading`, component-wise. */
  function Push(vel: XYSimple, k: real, heading: XYSimple): XYSimple
  {
    XYSimple(vel.x + k * heading.x, vel.y + k * heading.y)
  }

  /** The thruster loop of `update_ship_physics`: each active thruster adds
      `thrust / mass` times the heading, component-wise. A massless unit
      with an active thruster divides by zero. */
  function Accelerate(vel: XYSimple, ts: seq<Thruster>, mass: real, heading: XYSimple): (r: Result<XYSimple>)
    ensures r.Err? <==> mass == 0.0 && AnyActive(ts)
    ensures r.Err? ==> r.fault == ZeroDivision
    decreases |ts|
  {
    if ts == [] then Ok(vel)
    else
      AnyActiveSplit(ts);
      if !ts[0].active then Accelerate(vel, ts[1..], mass, heading)
      else if mass == 0.0 then Err(ZeroDivision)
      else Accelerate(Push(vel, ts[0].thrust / mass, heading), ts[1..], mass, heading)
  }

  /** The velocity change is the total active thrust over the mass, along
      the heading. */
  lemma {:induction false} AccelerateIsTotalThrust(vel: XYSimple, ts: seq<Thruster>, mass: real, heading: XYSimple)
    requires mass != 0.0
    ensures Accelerate(vel, ts, mass, heading) == Ok(Push(vel, ActiveThrust(ts) / mass, heading))
    decreases |ts|
  {
    if ts == [] {
      PushZero(vel, mass, heading);
    } else {
      var s := ActiveThrust(ts[1..]);
      if ts[0].active {
        var k := ts[0].thrust / mass;
        AccelerateIsTotalThrust(Push(vel, k, heading), ts[1..], mass, heading);
        PushTwice(vel, k, s / mass, heading);
        DivideSum(ts[0].thrust, s, mass);
      } else {
        AccelerateIsTotalThrust(vel, ts[1..], mass, heading);
      }
    }
  }

  lemma PushZero(vel: XYSimple, m: real, heading: XYSimple)
    requires m != 0.0
    ensures Push(vel, 0.0 / m, heading) == vel
  {
  }

  lemma PushTwice(vel: XYSimple, a: real, b: real, heading: XYSimple)
    ensures Push(Push(vel, a, heading), b, heading) == Push(vel, a + b, heading)
  {
    assert (a + b) * heading.x == a * heading.x + b * heading.x;
    assert (a + b) * heading.y == a * heading.y + b * heading.y;
  }

  lemma DivideSum(a: real, b: real, m: real)
    requires m != 0.0
    ensures (a + b) / m == a / m + b / m
  {
  }

  /** `offset_ship`: the velocity moves the offsets, never the scales. */
  function OffsetShip(relPos: XYComplex, v: XYSimple): (r: XYComplex)
    ensures r.xScale == relPos.xScale && r.yScale == relPos.yScale
    ensures ExtractOffsets(r) == Plus(ExtractOffsets(relPos), v)
  {
    Offset(relPos, XYComplex(0.0, v.x, 0.0, v.y))
  }

  /** The new rotation: unchanged when locked, else the old one plus the
      rotation velocity through the wrap as written. */
  function Rotate(u: Unit): (r: real)
    ensures u.rotLocked ==> r == u.rot
    ensures !u.rotLocked && -180.0 < u.rot + u.rotVel <= 540.0 ==> -180.0 < r <= 180.0
    ensures !u.rotLocked && u.rot + u.rotVel <= -180.0 ==> r >= 540.0
    ensures !u.rotLocked && -180.0 < u.rot + u.rotVel ==> r == Wrap(u.rot + u.rotVel)
    ensures !u.rotLocked && u.rot + u.rotVel <= -180.0 ==> r == 360.0 - (u.rot + u.rotVel)
  {
    if u.rotLocked then u.rot else WrapAsWritten(u.rot + u.rotVel)
  }

  /** `update_ship_physics`: rotate unless locked, accelerate an ACTIVE
      unit along the heading of its new rotation (computed before the
      thrusters are looked at), then move it by its velocity. */
  function Physics(u: Unit, o: Numerics): (r: Result<Unit>)
    ensures r.Err? <==> IsActive(u.category) && (Rotate(u) == -90.0 || (u.mass == 0.0 && AnyActive(u.thrusters)))
    ensures r.Err? ==> r.fault == ZeroDivision
    ensures r.Ok? ==> r.value == u.(rot := Rotate(u), vel := r.value.vel, relPos := r.value.relPos)
    ensures r.Ok? && !u.rotLocked && -180.0 < u.rot + u.rotVel <= 540.0 ==> -180.0 < r.value.rot <= 180.0
    ensures r.Ok? && !u.rotLocked && u.rot + u.rotVel <= -180.0 ==> r.value.rot >= 540.0
    ensures r.Ok? && !IsActive(u.category) ==> r.value.vel == u.vel
    ensures r.Ok? && IsActive(u.category) ==> r.value.vel == Accelerate(u.vel, u.thrusters, u.mass, o.facing(Rotate(u))).value
    ensures r.Ok? ==> r.value.relPos == OffsetShip(u.relPos, r.value.vel)
  {
    var rot := Rotate(u);
    var vel :=
      if !IsActive(u.category) then Ok(u.vel)
      else match Heading(rot, o)
        case Err(f) => Err(f)
        case Ok(h) => Accelerate(u.vel, u.thrusters, u.mass, h);
    match vel
    case Err(f) => Err(f)
    case Ok(v) => Ok(u.(rot := rot, vel := v, relPos := OffsetShip(u.relPos, v)))
  }

  // ------------------------------------------------------------ the loop

  /** What a control step keeps: identity, stats, list lengths, timers. */
  predicate SameFrame(u: Unit, r: Unit)
  {
    r.team == u.team && r.category == u.category && r.unitType == u.unitType &&
    r.targetTypes == u.targetTypes && r.health == u.health && r.mass == u.mass &&
    r.turnRate == u.turnRate && r.maxTurnRate == u.maxTurnRate && r.rotLocked == u.rotLocked &&
    |r.turrets| == |u.turrets| && |r.thrusters| == |u.thrusters| && r.timers == u.timers
  }

  /** The speed of a velocity, `magnitude(vel)`: zero at rest, and
      otherwise zero exactly when the squares of its components vanish. */
  function Speed(vel: XYSimple, sqrt: real -> real): (r: real)
    requires SqrtLaw(sqrt)
    ensures r >= 0.0
    ensures r == 0.0 <==> SumSquares(AsVec(vel)) == 0.0
    ensures vel == XYSimple(0.0, 0.0) ==> r == 0.0
  {
    SumSquaresNonNegative(AsVec(vel));
    SqrtZero(sqrt, SumSquares(AsVec(vel)));
    Magnitude(AsVec(vel), sqrt)
  }

  /** Swapping the two components keeps the sum of squares. */
  lemma SwappedSquares(v: XYSimple)
    ensures SumSquares([v.y, v.x]) == SumSquares(AsVec(v))
  {
    var a, b := [v.y, v.x], AsVec(v);
    assert a[1..] == [v.x] && b[1..] == [v.y];
    assert [v.x][1..] == [] && [v.y][1..] == [];
  }

  /** The angle between the direction of travel and the target: the
      source normalises `(vel[1], vel[0])`. A unit at rest never computes
      it; the value 0 stands in and is not looked at. */
  function TravelAngle(vel: XYSimple, tlp: Vec, dist: real, o: Numerics): real
    requires SqrtLaw(o.sqrt)
    requires |tlp| == 2
  {
    if Speed(vel, o.sqrt) > 0.0 then
      SwappedSquares(vel);
      AngleTo(Normalize([vel.y, vel.x], o.sqrt).value, tlp, dist, o)
    else 0.0
  }

  /** The ACTIVE branch of `update_ship_controls` once the target offset
      `tlp`, its distance and the ship heading are known: steer, switch
      thrusters on, aim each turret, then physics. */
  function ControlActive(u: Unit, tlp: Vec, dist: real, heading: XYSimple, tick: real, o: Numerics): (r: Result<Unit>)
    requires SqrtLaw(o.sqrt)
    requires |tlp| == 2
    ensures ControlTurrets(u.turrets, u.rot, tlp, dist, tick, o).Err? ==>
      r == Err(ControlTurrets(u.turrets, u.rot, tlp, dist, tick, o).fault)
    // the steering, thrust and turret results feed the physics step
    ensures r.Ok? ==> r == Physics(u.(rotVel := r.value.rotVel, thrusters := r.value.thrusters,
                                      turrets := r.value.turrets), o)
    ensures r.Ok? ==> r.value.rotVel == Steer(u.rotVel, Dot([-heading.y, heading.x], tlp), u.turnRate, u.maxTurnRate, tick)
    ensures r.Ok? ==>
      r.value.thrusters == ThrustRule(u.thrusters, Speed(u.vel, o.sqrt), TravelAngle(u.vel, tlp, dist, o),
                                      Aim(heading, tlp, dist, o))
    ensures r.Ok? ==> Ok(r.value.turrets) == ControlTurrets(u.turrets, u.rot, tlp, dist, tick, o)
    ensures r.Ok? ==> SameFrame(u, r.value)
    ensures r.Ok? ==> forall i :: 0 <= i < |u.thrusters| && u.thrusters[i].active ==> r.value.thrusters[i].active
    ensures r.Ok? && u.vel == XYSimple(0.0, 0.0) ==>
      forall i :: 0 <= i < |u.thrusters| ==> r.value.thrusters[i].active
    ensures r.Ok? ==> forall i :: 0 <= i < |u.turrets| ==>
      r.value.turrets[i].fire == u.turrets[i].fire &&
      r.value.turrets[i].spec.gun == u.turrets[i].spec.gun &&
      (u.turrets[i].spec.gimbal ==> r.value.turrets[i].spec.rot == u.turrets[i].spec.rot)
  {
    match ControlTurrets(u.turrets, u.rot, tlp, dist, tick, o)
    case Err(f) => Err(f)
    case Ok(turrets) =>
      ControlTurretsKeep(u.turrets, u.rot, tlp, dist, tick, o);
      var rotVel := Steer(u.rotVel, Dot([-heading.y, heading.x], tlp), u.turnRate, u.maxTurnRate, tick);
      var thrusters := ThrustRule(u.thrusters, Speed(u.vel, o.sqrt), TravelAngle(u.vel, tlp, dist, o),
                                  Aim(heading, tlp, dist, o));
      var controlled := u.(rotVel := rotVel, thrusters := thrusters, turrets := turrets);
      assert SameFrame(u, controlled);
      Physics(controlled, o)
  }

  /** The offset from a unit to its target, `t_rel_pos`. */
  function TargetOffset(u: Unit, t: Unit): (r: Vec)
    ensures |r| == 2
  {
    Sub(AsVec(ExtractOffsets(t.relPos)), AsVec(ExtractOffsets(u.relPos)))
  }

  /** The ACTIVE branch of `update_ship_controls` against target `t`: the
      ship heading (raising at -90), then the control step. */
  function Engage(u: Unit, t: Unit, tick: real, o: Numerics): (r: Result<Unit>)
    requires SqrtLaw(o.sqrt)
    ensures u.rot == -90.0 ==> r == Err(ZeroDivision)
  {
    match Heading(u.rot, o)
    case Err(f) => Err(f)
    case Ok(h) => ControlActive(u, TargetOffset(u, t), Dist(u, t, o.sqrt), h, tick, o)
  }

  /** What `update_ship_controls` yields for `u`: physics alone for a unit
      that is not ACTIVE; for an ACTIVE one, `NoneAttribute` when no unit
      is eligible, else the control step against the nearest eligible one
      (unique by `NearestIsUnique`). */
  ghost predicate ControlOutcome(u: Unit, registry: seq<Unit>, tick: real, o: Numerics, r: Result<Unit>)
    requires SqrtLaw(o.sqrt)
  {
    if !IsActive(u.category) then r == Physics(u, o)
    else if forall i :: 0 <= i < |registry| ==> !Eligible(u, registry[i]) then r == Err(NoneAttribute)
    else exists k :: Nearest(u, registry, k, o.sqrt) && r == Engage(u, registry[k], tick, o)
  }

  /** `update_ship_controls`: for an ACTIVE unit, target, steer, thrust,
      and aim each turret; then physics for every unit. With no target the
      source reads `rel_pos` of `None` and raises. */
  method UpdateShipControls(u: Unit, registry: seq<Unit>, tick: real, o: Numerics) returns (r: Result<Unit>)
    requires SqrtLaw(o.sqrt)
    ensures ControlOutcome(u, registry, tick, o, r)
    ensures !IsActive(u.category) ==> r == Physics(u, o)
    ensures IsActive(u.category) && (forall i :: 0 <= i < |registry| ==> !Eligible(u, registry[i])) ==>
      r == Err(NoneAttribute)
    ensures r.Ok? ==> SameFrame(u, r.value)
    ensures r.Ok? ==> forall i :: 0 <= i < |u.thrusters| && u.thrusters[i].active ==> r.value.thrusters[i].active
    ensures r.Ok? && IsActive(u.category) && u.vel == XYSimple(0.0, 0.0) ==>
      forall i :: 0 <= i < |u.thrusters| ==> r.value.thrusters[i].active
    ensures IsActive(u.category) && u.rot == -90.0 && (exists i :: 0 <= i < |registry| && Eligible(u, registry[i])) ==>
      r == Err(ZeroDivision)
    ensures r.Ok? ==> forall i :: 0 <= i < |u.turrets| ==>
      r.value.turrets[i].fire == u.turrets[i].fire &&
      r.value.turrets[i].spec.gun == u.turrets[i].spec.gun &&
      (u.turrets[i].spec.gimbal ==> r.value.turrets[i].spec.rot == u.turrets[i].spec.rot)
  {
    if !IsActive(u.category) {
      r := Physics(u, o);
      return;
    }
    var target, dist := LocateEnemy(u, registry, o.sqrt);
    if target.None? {
      return Err(NoneAttribute);
    }
    var t := registry[target.value];
    var tlp := TargetOffset(u, t);
    var hd := Heading(u.rot, o);
    if hd.Err? {
      r := Err(hd.fault);
    } else {
      r := ControlActive(u, tlp, dist, hd.value, tick, o);
    }
    assert r == Engage(u, t, tick, o);
    assert Nearest(u, registry, target.value, o.sqrt);
  }

  /** `tick`: the timers advance and invoke their callbacks, then the
      control step runs. */
  method Tick(u: Unit, registry: seq<Unit>, tick: real, o: Numerics) returns (r: Result<Unit>)
    requires SqrtLaw(o.sqrt)
    ensures r.Ok? ==> |r.value.timers| == |u.timers| && |r.value.turrets| == |u.turrets|
    ensures r.Ok? && (forall i :: 0 <= i < |u.timers| ==> !Due(u.timers[i], tick)) ==>
      forall i :: 0 <= i < |u.timers| ==> r.value.timers[i].acc == u.timers[i].acc + tick
    ensures var after := RunCommands(u.turrets, TickTimers(u.timers, tick).0, TickTimers(u.timers, tick).1);
      after.Err? ==> r == Err(after.fault)
    ensures var after := RunCommands(u.turrets, TickTimers(u.timers, tick).0, TickTimers(u.timers, tick).1);
      after.Ok? ==> ControlOutcome(u.(timers := after.value), registry, tick, o, r)
  {
    var (timers, fired) := TickTimers(u.timers, tick);
    var after := RunCommands(u.turrets, timers, fired);
    if forall i :: 0 <= i < |u.timers| ==> !Due(u.timers[i], tick) {
      NothingDueNothingFires(u.timers, tick);
    }
    if after.Err? {
      return Err(after.fault);
    }
    r := UpdateShipControls(u.(timers := after.value), registry, tick, o);
  }
}

=== FILE: graphics2.dfy ===
/** The older pyoneer2 scene graph (`pyoneer2/graphics.py`). It differs from
    pyoneer3 in three ways the model makes precise: one universal handler
    slot that `bind_u` overwrites, no active gate and no enter/exit events,
    no visibility flag; and `get_descendants` starts from the node's own
    children list instead of a copy, so enumerating descendants rewrites
    the tree. Positions and anchors are shared with pyoneer3 (module
    `Placement`). */
module Graphics2 {
  import opened Support
  import opened Placement
  import opened Input
  import Sorting
  import G3 = Graphics3

  // ------------------------------------------------------------ handlers

  datatype Handlers2 = Handlers2(mbd: Option<G3.Handler>, mover: Option<G3.Handler>, uevent: Option<G3.Handler>)

  /** `bind_u` stores the handler in the single universal slot. */
  function BindU2(h: Handlers2, f: G3.Handler): (r: Handlers2)
    ensures r.uevent == Some(f) && r.mbd == h.mbd && r.mover == h.mover
  {
    h.(uevent := Some(f))
  }

  function BindMbd2(h: Handlers2, f: G3.Handler): (r: Handlers2)
    ensures r.mbd == Some(f) && r.mover == h.mover && r.uevent == h.uevent
  {
    h.(mbd := Some(f))
  }

  function BindMover2(h: Handlers2, f: G3.Handler): (r: Handlers2)
    ensures r.mover == Some(f) && r.mbd == h.mbd && r.uevent == h.uevent
  {
    h.(mover := Some(f))
  }

  /** The three `unbind_*` methods each clear one slot. */
  function Unbind2(h: Handlers2, s: G3.Slot): (r: Handlers2)
    requires s == G3.Mbd || s == G3.Mover || s == G3.Uevent
    ensures s == G3.Mbd ==> r == h.(mbd := None)
    ensures s == G3.Mover ==> r == h.(mover := None)
    ensures s == G3.Uevent ==> r == h.(uevent := None)
  {
    match s
    case Mbd => h.(mbd := None)
    case Mover => h.(mover := None)
    case _ => h.(uevent := None)
  }

  /** A second `bind_u` loses the first handler, where pyoneer3 keeps both. */
  lemma BindUReplaces(h: Handlers2, h3: G3.Handlers, f: G3.Handler, g: G3.Handler)
    ensures BindU2(BindU2(h, f), g) == BindU2(h, g)
    ensures f != g ==> BindU2(BindU2(h, f), g).uevent != Some(f)
    ensures G3.BindU(G3.BindU(h3, f), g).uevent == h3.uevent + [f, g]
  {
  }

  /** `handle_event`: `mbd` on a press inside the rect, `mover` on motion
      inside it, then the universal handler on every event. A mouse event
      before the first `update_surface` reads `rect` of `None` and raises. */
  function HandleEvent2(h: Handlers2, rect: Option<Rect>, e: Event): (r: Result<seq<G3.Call>>)
    ensures r.Err? <==> rect.None? && (e.MouseButtonDown? || e.MouseMotion?)
    ensures r.Ok? ==> |r.value| <= 2
    ensures r.Ok? ==> (G3.CountSlot(r.value, G3.Mbd)
                        == if e.MouseButtonDown? && h.mbd.Some? && Collide(rect.value, e.pos) then 1 else 0)
    ensures r.Ok? ==> (G3.CountSlot(r.value, G3.Mover)
                        == if e.MouseMotion? && h.mover.Some? && Collide(rect.value, e.pos) then 1 else 0)
    ensures r.Ok? ==> G3.CountSlot(r.value, G3.Uevent) == (if h.uevent.Some? then 1 else 0)
    ensures r.Ok? && h.uevent.Some? ==> r.value[|r.value| - 1] == G3.Call(G3.Uevent, h.uevent.value)
  {
    var u := G3.Fire(G3.Uevent, h.uevent);
    match e
    case MouseButtonDown(pos, _) =>
      if rect.None? then Err(NoneAttribute)
      else
        var c := if Collide(rect.value, pos) then G3.Fire(G3.Mbd, h.mbd) else [];
        G3.CountSlotAppend(c, u, G3.Mbd);
        G3.CountSlotAppend(c, u, G3.Mover);
        G3.CountSlotAppend(c, u, G3.Uevent);
        Ok(c + u)
    case MouseMotion(pos) =>
      if rect.None? then Err(NoneAttribute)
      else
        var c := if Collide(rect.value, pos) then G3.Fire(G3.Mover, h.mover) else [];
        G3.CountSlotAppend(c, u, G3.Mbd);
        G3.CountSlotAppend(c, u, G3.Mover);
        G3.CountSlotAppend(c, u, G3.Uevent);
        Ok(c + u)
    case _ => Ok(u)
  }

  /** The pyoneer3 handler set that has the same bindings. */
  function AsPyoneer3(h: Handlers2): (r: G3.Handlers)
    ensures r.menter.None? && r.mexit.None? && |r.uevent| <= 1
  {
    G3.Handlers(h.mbd, h.mover, None, None, if h.uevent.Some? then [h.uevent.value] else [])
  }

  /** Without enter/exit handlers, pyoneer2 dispatch is pyoneer3 dispatch on
      a node that is always active: the same handlers fire in the same
      order, and the same events raise. */
  lemma DispatchAgreesWithPyoneer3(h: Handlers2, n: G3.Node, e: Event)
    requires n.active && n.handlers == AsPyoneer3(h)
    ensures HandleEvent2(h, n.rect, e).Ok? <==> G3.HandleEvent(n, e).Ok?
    ensures HandleEvent2(h, n.rect, e).Ok? ==> HandleEvent2(h, n.rect, e).value == G3.HandleEvent(n, e).value.calls
  {
    assert G3.FireAll(n.handlers.uevent) == G3.Fire(G3.Uevent, h.uevent);
    match e
    case MouseButtonDown(_, _) => PressAgrees(h, n, e);
    case MouseMotion(_) => MotionAgrees(h, n, e);
    case _ =>
  }

  lemma PressAgrees(h: Handlers2, n: G3.Node, e: Event)
    requires n.active && n.handlers == AsPyoneer3(h) && e.MouseButtonDown?
    requires G3.FireAll(n.handlers.uevent) == G3.Fire(G3.Uevent, h.uevent)
    ensures HandleEvent2(h, n.rect, e).Ok? <==> G3.HandleEvent(n, e).Ok?
    ensures HandleEvent2(h, n.rect, e).Ok? ==> HandleEvent2(h, n.rect, e).value == G3.HandleEvent(n, e).value.calls
  {
    assert G3.HandleEvent(n, e) == G3.Press(n, e.pos);
  }

  lemma MotionAgrees(h: Handlers2, n: G3.Node, e: Event)
    requires n.active && n.handlers == AsPyoneer3(h) && e.MouseMotion?
    requires G3.FireAll(n.handlers.uevent) == G3.Fire(G3.Uevent, h.uevent)
    ensures HandleEvent2(h, n.rect, e).Ok? <==> G3.HandleEvent(n, e).Ok?
    ensures HandleEvent2(h, n.rect, e).Ok? ==> HandleEvent2(h, n.rect, e).value == G3.HandleEvent(n, e).value.calls
  {
    assert G3.HandleEvent(n, e) == G3.Motion(n, e.pos);
    if n.rect.Some? && Collide(n.rect.value, e.pos) {
      var enter := G3.Fire(G3.Menter, if n.mouseInside then None else n.handlers.menter);
      assert enter == [];
    }
  }

  // --------------------------------------------------- aliasing descendants

  /** The tree as the interpreter holds it: node id to its `children` list
      object. An id without an entry has an empty list. */
  type Arena = map<nat, seq<nat>>

  function ChildrenOf(a: Arena, id: nat): seq<nat>
  {
    if id in a then a[id] else []
  }

  /** `get_descendants` as written: `descendants` IS `self.children`, and the
      `for` loop walks that list while it is being extended, so it also
      visits (and re-expands) every node appended during the walk. Returns
      the arena afterwards and the list returned; `None` when `fuel` runs
      out before the walk ends. */
  function GetDescendants2(a: Arena, id: nat, fuel: nat): (r: Option<(Arena, seq<nat>)>)
    ensures r.Some? ==> r.value.1 == ChildrenOf(r.value.0, id)
    decreases fuel, 1
  {
    if fuel == 0 then None
    else
      match Walk(a, id, 0, fuel - 1)
      case None => None
      case Some(a') => Some((a', ChildrenOf(a', id)))
  }

  /** The loop from index `i` of node `id`'s (growing) list. */
  function Walk(a: Arena, id: nat, i: nat, fuel: nat): Option<Arena>
    decreases fuel, 0
  {
    if |ChildrenOf(a, id)| <= i then Some(a)
    else if fuel == 0 then None
    else
      match GetDescendants2(a, ChildrenOf(a, id)[i], fuel - 1)
      case None => None
      case Some((a', d)) => Walk(a'[id := ChildrenOf(a', id) + d], id, i + 1, fuel - 1)
  }

  /** `x` lies below `k` in `a`, reached from `k` by at most `n + 1` child
      links. */
  ghost predicate ReachIn(a: Arena, k: nat, x: nat, n: nat)
    decreases n
  {
    x in ChildrenOf(a, k) || (n > 0 && exists c :: c in ChildrenOf(a, k) && ReachIn(a, c, x, n - 1))
  }

  ghost predicate Below(a: Arena, k: nat, x: nat)
  {
    exists n :: ReachIn(a, k, x, n)
  }

  /** What a call of `get_descendants` does to the arena `a0` it starts
      from, giving `a1`: every `children` list is only extended, and
      everything in it afterwards lay below its owner in `a0`. */
  ghost predicate Grown(a0: Arena, a1: Arena)
  {
    (forall k :: ChildrenOf(a0, k) <= ChildrenOf(a1, k)) &&
    (forall k, x :: x in ChildrenOf(a1, k) ==> Below(a0, k, x))
  }

  /** Every call that ends leaves the arena `Grown`, and returns the node's
      old `children` followed only by nodes that lay below it. */
  lemma {:induction false} GetDescendantsGrows(a: Arena, id: nat, fuel: nat)
    requires GetDescendants2(a, id, fuel).Some?
    ensures Grown(a, GetDescendants2(a, id, fuel).value.0)
    ensures var d := GetDescendants2(a, id, fuel).value.1;
      ChildrenOf(a, id) <= d && forall x :: x in d ==> Below(a, id, x)
    decreases fuel, 1
  {
    WalkGrows(a, id, 0, fuel - 1);
  }

  lemma {:induction false} WalkGrows(a: Arena, id: nat, i: nat, fuel: nat)
    requires Walk(a, id, i, fuel).Some?
    ensures Grown(a, Walk(a, id, i, fuel).value)
    decreases fuel, 0
  {
    if |ChildrenOf(a, id)| <= i {
      GrownRefl(a);
    } else {
      var c := ChildrenOf(a, id)[i];
      var (a1, d) := GetDescendants2(a, c, fuel - 1).value;
      GetDescendantsGrows(a, c, fuel - 1);
      var a2 := a1[id := ChildrenOf(a1, id) + d];
      assert c in ChildrenOf(a1, id) by {
        assert ChildrenOf(a, id) <= ChildrenOf(a1, id);
        assert ChildrenOf(a1, id)[i] == c;
      }
      ExtendGrown(a1, id, c);
      WalkGrows(a2, id, i + 1, fuel - 1);
      GrownTrans(a, a1, a2);
      GrownTrans(a, a2, Walk(a2, id, i + 1, fuel - 1).value);
    }
  }

  /** Extending `id`'s list by the list of its child `c` keeps the arena
      `Grown`. */
  lemma ExtendGrown(a: Arena, id: nat, c: nat)
    requires c in ChildrenOf(a, id)
    ensures Grown(a, a[id := ChildrenOf(a, id) + ChildrenOf(a, c)])
  {
    var b := a[id := ChildrenOf(a, id) + ChildrenOf(a, c)];
    forall k, x | x in ChildrenOf(b, k)
      ensures Below(a, k, x)
    {
      if k == id && x !in ChildrenOf(a, id) {
        assert ReachIn(a, c, x, 0);
        assert ReachIn(a, id, x, 1);
      } else {
        assert ReachIn(a, k, x, 0);
      }
    }
  }

  lemma GrownRefl(a: Arena)
    ensures Grown(a, a)
  {
    forall k, x | x in ChildrenOf(a, k)
      ensures Below(a, k, x)
    {
      assert ReachIn(a, k, x, 0);
    }
  }

  lemma GrownTrans(a0: Arena, a1: Arena, a2: Arena)
    requires Grown(a0, a1) && Grown(a1, a2)
    ensures Grown(a0, a2)
  {
    forall k, x | x in ChildrenOf(a2, k)
      ensures Below(a0, k, x)
    {
      var n :| ReachIn(a1, k, x, n);
      BelowLift(a0, a1, k, x, n);
    }
  }

  /** A path in the grown arena is a path in the old one. */
  lemma {:induction false} BelowLift(a0: Arena, a1: Arena, k: nat, x: nat, n: nat)
    requires Grown(a0, a1) && ReachIn(a1, k, x, n)
    ensures Below(a0, k, x)
    decreases n
  {
    if x !in ChildrenOf(a1, k) {
      var c :| c in ChildrenOf(a1, k) && ReachIn(a1, c, x, n - 1);
      BelowLift(a0, a1, c, x, n - 1);
      BelowTrans(a0, k, c, x);
    }
  }

  lemma BelowTrans(a: Arena, k: nat, y: nat, x: nat)
    requires Below(a, k, y) && Below(a, y, x)
    ensures Below(a, k, x)
  {
    var n :| ReachIn(a, k, y, n);
    var m :| ReachIn(a, y, x, m);
    ReachTrans(a, k, y, x, n, m);
  }

  lemma {:induction false} ReachTrans(a: Arena, k: nat, y: nat, x: nat, n: nat, m: nat)
    requires ReachIn(a, k, y, n) && ReachIn(a, y, x, m)
    ensures ReachIn(a, k, x, n + m + 1)
    decreases n
  {
    if y in ChildrenOf(a, k) {
      ReachMore(a, y, x, m, n + m);
    } else {
      var c :| c in ChildrenOf(a, k) && ReachIn(a, c, y, n - 1);
      ReachTrans(a, c, y, x, n - 1, m);
    }
  }

  lemma {:induction false} ReachMore(a: Arena, k: nat, x: nat, p: nat, q: nat)
    requires p <= q && ReachIn(a, k, x, p)
    ensures ReachIn(a, k, x, q)
    decreases p
  {
    if x !in ChildrenOf(a, k) {
      var c :| c in ChildrenOf(a, k) && ReachIn(a, c, x, p - 1);
      ReachMore(a, c, x, p - 1, q - 1);
    }
  }

  /** The chain 0 -> 1 -> 2 -> 3. */
  const Chain3: Arena := map[0 := [1], 1 := [2], 2 := [3], 3 := []]

  /** On a chain of depth three the call returns node 3 twice, and it leaves
      node 0's `children` holding all of its descendants: the tree itself
      has changed. */
  lemma AliasingRewritesTree()
    ensures GetDescendants2(Chain3, 0, 20).Some?
    ensures GetDescendants2(Chain3, 0, 20).value.1 == [1, 2, 3, 3]
    ensures ChildrenOf(GetDescendants2(Chain3, 0, 20).value.0, 0) != ChildrenOf(Chain3, 0)
  {
    var a := Chain3;
    var b := a[1 := [2, 3]];
    ChainFromOne(a, 18);
    // get_descendants(0): walk [1], then the appended 2 and 3
    var c := b[0 := [1, 2, 3]];
    ChainFromTwo(c, 17);
    var d := c[0 := [1, 2, 3, 3]];
    assert [1, 2, 3] + [3] == [1, 2, 3, 3] && [1, 2, 3, 3] + [] == [1, 2, 3, 3];
    assert d[0 := [1, 2, 3, 3] + []] == d;
    LeafHasNoDescendants(d, 3, 15);
    assert Walk(d, 0, 4, 15) == Some(d);
    assert Walk(d, 0, 3, 16) == Some(d);
    assert Walk(d, 0, 2, 17) == Some(d);
    assert c[0 := [1, 2, 3] + [3]] == d;
    assert Walk(c, 0, 1, 18) == Some(d);
    assert [1] + [2, 3] == [1, 2, 3];
    assert b[0 := [1] + [2, 3]] == c;
    assert Walk(a, 0, 0, 19) == Some(d);
  }

  /** A node with no children is its own untouched empty list, whatever
      the fuel. */
  lemma LeafHasNoDescendants(b: Arena, k: nat, f: nat)
    requires f > 0 && ChildrenOf(b, k) == []
    ensures GetDescendants2(b, k, f) == Some((b, []))
  {
  }

  /** `get_descendants(2)` on the chain's tail: walk [3]. */
  lemma ChainFromTwo(b: Arena, f: nat)
    requires f >= 3 && 2 in b && b[2] == [3] && ChildrenOf(b, 3) == []
    ensures GetDescendants2(b, 2, f) == Some((b, [3]))
  {
    LeafHasNoDescendants(b, 3, f - 2);
    assert [3] + [] == [3];
    assert b[2 := [3] + []] == b;
    assert Walk(b, 2, 1, f - 2) == Some(b);
  }

  /** `get_descendants(1)` on the chain: walk [2], then the appended 3. */
  lemma ChainFromOne(a: Arena, f: nat)
    requires f >= 5 && a == Chain3
    ensures GetDescendants2(a, 1, f) == Some((a[1 := [2, 3]], [2, 3]))
  {
    var b := a[1 := [2, 3]];
    ChainFromTwo(a, f - 2);
    LeafHasNoDescendants(b, 3, f - 3);
    assert [2] + [3] == [2, 3] && [2, 3] + [] == [2, 3];
    assert b[1 := [2, 3] + []] == b;
    assert Walk(b, 1, 2, f - 3) == Some(b);
    assert Walk(b, 1, 1, f - 2) == Some(b);
    assert a[1 := [2] + [3]] == b;
  }

  // --------------------------------------------------------------- drawing

  /** A pyoneer2 UIElement: no visibility, no active flag. */
  datatype Node2 = Node2(id: nat, relPos: XYComplex, surf: Size, priority: int, children: seq<Node2>)

  datatype Scene2 = Scene2(active: bool, surf: Size, children: seq<Node2>)

  function Priority2(n: Node2): int
  {
    n.priority
  }

  /** The tree after a draw: `draw_children` sorts every child list in
      place, with no visibility check anywhere. */
  function Arrange2(n: Node2): (r: Node2)
    ensures r.id == n.id && r.priority == n.priority
    decreases n, 1
  {
    n.(children := Sorting.SortByKey(Arrange2All(n.children), Priority2))
  }

  function Arrange2All(cs: seq<Node2>): (r: seq<Node2>)
    ensures |r| == |cs|
    ensures forall i :: 0 <= i < |cs| ==> r[i] == Arrange2(cs[i])
    decreases cs, 0
  {
    if cs == [] then [] else [Arrange2(cs[0])] + Arrange2All(cs[1..])
  }

  function PostOrder2(n: Node2): (r: seq<nat>)
    ensures |r| == Size2(n)
    decreases n, 1
  {
    PostAll2(n.children) + [n.id]
  }

  function PostAll2(cs: seq<Node2>): (r: seq<nat>)
    ensures |r| == SizeAll2(cs)
    decreases cs, 0
  {
    if cs == [] then [] else PostOrder2(cs[0]) + PostAll2(cs[1..])
  }

  /** The number of nodes in a subtree. */
  function Size2(n: Node2): nat
    decreases n, 1
  {
    1 + SizeAll2(n.children)
  }

  function SizeAll2(cs: seq<Node2>): nat
    decreases cs, 0
  {
    if cs == [] then 0 else Size2(cs[0]) + SizeAll2(cs[1..])
  }

  /** The same node as pyoneer3 sees it: visible, active, no handlers. */
  function Lift(n: Node2): (r: G3.Node)
    ensures r.id == n.id && r.priority == n.priority && r.visible
    decreases n, 1
  {
    G3.Node(n.id, n.relPos, n.surf, None, n.priority, true, true, G3.NoHandlers, false, false, LiftAll(n.children))
  }

  function LiftAll(cs: seq<Node2>): (r: seq<G3.Node>)
    ensures |r| == |cs|
    ensures forall i :: 0 <= i < |cs| ==> r[i] == Lift(cs[i])
    decreases cs, 0
  {
    if cs == [] then [] else [Lift(cs[0])] + LiftAll(cs[1..])
  }

  /** `draw_children` then `draw`: the ids blitted, in blit order. */
  function DrawSeq2(n: Node2): (r: seq<nat>)
    ensures |r| == Size2(n) && r[|r| - 1] == n.id
    ensures multiset(r) == multiset(PostOrder2(n))
    ensures r == G3.DrawSeq(Lift(n))
  {
    ArrangeLifts(n);
    PostOrderLifts(Arrange2(n));
    PostOrderLifts(n);
    G3.ArrangeKeepsBlits(Lift(n));
    PostOrder2(Arrange2(n))
  }

  /** Sorting and lifting commute, so the pyoneer2 draw is the pyoneer3
      draw of a tree in which every node is visible. */
  lemma {:induction false} ArrangeLifts(n: Node2)
    ensures G3.Arrange(Lift(n)) == Lift(Arrange2(n))
    decreases n, 1
  {
    ArrangeAllLifts(n.children);
    var xs := Arrange2All(n.children);
    LiftAllIsMap(xs);
    LiftAllIsMap(Sorting.SortByKey(xs, Priority2));
    Sorting.SortCommutesWithMap(xs, Lift, Priority2, G3.PriorityOf);
  }

  lemma {:induction false} ArrangeAllLifts(cs: seq<Node2>)
    ensures G3.ArrangeAll(LiftAll(cs)) == LiftAll(Arrange2All(cs))
    decreases cs, 0
  {
    forall i | 0 <= i < |cs|
      ensures G3.Arrange(LiftAll(cs)[i]) == Lift(Arrange2(cs[i]))
    {
      ArrangeLifts(cs[i]);
    }
  }

  lemma {:induction false} LiftAllIsMap(cs: seq<Node2>)
    ensures LiftAll(cs) == Sorting.Map(Lift, cs)
  {
  }

  lemma {:induction false} PostOrderLifts(n: Node2)
    ensures G3.PostOrder(Lift(n)) == PostOrder2(n)
    decreases n, 1
  {
    PostAllLifts(n.children);
  }

  lemma {:induction false} PostAllLifts(cs: seq<Node2>)
    ensures G3.PostAll(LiftAll(cs)) == PostAll2(cs)
    decreases cs, 0
  {
    if cs != [] {
      PostOrderLifts(cs[0]);
      PostAllLifts(cs[1..]);
      assert LiftAll(cs)[1..] == LiftAll(cs[1..]);
    }
  }

  /** `Scene.draw`: sort the scene's children, then `draw_children` and
      `draw` for each. */
  function SceneDraw2(s: Scene2): (r: seq<nat>)
    ensures |r| == SizeAll2(s.children)
    ensures multiset(r) == multiset(PostAll2(s.children))
  {
    var order := Sorting.SortByKey(Arrange2All(s.children), Priority2);
    SceneDrawAgrees(s);
    PostAllLifts(s.children);
    PostAll2Size(order);
    Sorting.SortByKeyCorrect(Arrange2All(s.children), Priority2);
    PostAll2(order)
  }

  lemma {:induction false} PostAll2Size(cs: seq<Node2>)
    ensures |PostAll2(cs)| == SizeAll2(cs)
  {
  }

  function LiftScene(s: Scene2): G3.Scene
  {
    G3.Scene(s.active, s.surf, LiftAll(s.children))
  }

  lemma SceneDrawAgrees(s: Scene2)
    ensures PostAll2(Sorting.SortByKey(Arrange2All(s.children), Priority2)) == G3.SceneDraw(LiftScene(s))
  {
    var xs := Arrange2All(s.children);
    var sorted := Sorting.SortByKey(xs, Priority2);
    ArrangeAllLifts(s.children);
    LiftAllIsMap(xs);
    LiftAllIsMap(sorted);
    Sorting.SortCommutesWithMap(xs, Lift, Priority2, G3.PriorityOf);
    PostAllLifts(sorted);
  }

  /** `Screen.render`: every active scene draws, in list order. */
  function Render2(scenes: seq<Scene2>): (r: seq<nat>)
    ensures (forall i :: 0 <= i < |scenes| ==> !scenes[i].active) ==> r == []
    ensures r == G3.Render(Sorting.Map(LiftScene, scenes))
  {
    if scenes == [] then []
    else
      SceneDrawAgrees(scenes[0]);
      assert Sorting.Map(LiftScene, scenes)[1..] == Sorting.Map(LiftScene, scenes[1..]);
      (if scenes[0].active then PostAll2(Sorting.SortByKey(Arrange2All(scenes[0].children), Priority2)) else [])
        + Render2(scenes[1..])
  }
}

=== FILE: graphics3.dfy ===
/** The pyoneer3 scene graph (`pyoneer3/graphics.py`): colours, the node
    tree with its descendant enumeration and priority-ordered drawing, the
    handler slots and the per-node mouse enter/exit state machine. A node
    owns its children by value; its surfaces are reduced to sizes and what
    a draw produces is the sequence of node ids in blit order. */
module Graphics3 {
  import opened Support
  import opened Placement
  import opened Input
  import Sorting

  // ---------------------------------------------------------------- colours

  datatype Color = Color(r: int, g: int, b: int)

  predicate InRange(c: int)
  {
    0 <= c <= 255
  }

  function ClampChannel(c: int): (r: int)
    ensures InRange(r)
    ensures InRange(c) ==> r == c
    ensures c < 0 ==> r == 0
    ensures 255 < c ==> r == 255
  {
    if c < 0 then 0 else if c > 255 then 255 else c
  }

  /** `clamp_color`: each channel pulled into [0, 255]. */
  function ClampColor(rgb: Color): (r: Color)
    ensures InRange(r.r) && InRange(r.g) && InRange(r.b)
    ensures InRange(rgb.r) ==> r.r == rgb.r
    ensures InRange(rgb.g) ==> r.g == rgb.g
    ensures InRange(rgb.b) ==> r.b == rgb.b
    ensures InRange(rgb.r) && InRange(rgb.g) && InRange(rgb.b) ==> r == rgb
  {
    Color(ClampChannel(rgb.r), ClampChannel(rgb.g), ClampChannel(rgb.b))
  }

  lemma ClampColorIdempotent(rgb: Color)
    ensures ClampColor(ClampColor(rgb)) == ClampColor(rgb)
  {
  }

  /** `[c + k for c in rgb]`, the brightening the hover handlers apply
      before clamping. */
  function Brighten(rgb: Color, k: int): (r: Color)
    ensures r.r - rgb.r == k && r.g - rgb.g == k && r.b - rgb.b == k
  {
    Color(rgb.r + k, rgb.g + k, rgb.b + k)
  }

  // ------------------------------------------------------------------ nodes

  /** The identity of a bound callable. */
  type Handler = nat

  /** The handler dictionary: four single slots and the `uevent` list. */
  datatype Handlers = Handlers(mbd: Option<Handler>, mover: Option<Handler>,
                               menter: Option<Handler>, mexit: Option<Handler>,
                               uevent: seq<Handler>)

  const NoHandlers := Handlers(None, None, None, None, [])

  /** `any(c.handlers.values())`: some slot is bound or the list is
      non-empty; an empty `uevent` list is falsy. */
  predicate HasAnyHandler(h: Handlers)
  {
    h.mbd.Some? || h.mover.Some? || h.menter.Some? || h.mexit.Some? || h.uevent != []
  }

  /** A UIElement (or subclass). `rect` is `None` until the first
      `update`; `isGameObject` marks the gameplay subclass the main loop
      ticks. */
  datatype Node = Node(id: nat, relPos: XYComplex, surf: Size, rect: Option<Rect>,
                       priority: int, visible: bool, active: bool,
                       handlers: Handlers, mouseInside: bool, isGameObject: bool,
                       children: seq<Node>)

  /** A Scene: the root container bound to the display surface. */
  datatype Scene = Scene(active: bool, surf: Size, children: seq<Node>)

  /** `UIElement.__init__(pos, surf, fill_color=None, render_priority=1)`. */
  function NewElement(id: nat, pos: XYComplex, surf: Size, renderPriority: int): (r: Node)
    ensures r.priority == renderPriority && r.relPos == pos
    ensures r.visible && r.active && !r.mouseInside && r.rect.None?
    ensures !HasAnyHandler(r.handlers) && r.children == []
  {
    Node(id, pos, surf, None, renderPriority, true, true, NoHandlers, false, false, [])
  }

  /** `ScrollingFrame.__init__` as written: it calls
      `super().__init__(pos, None, render_priority)`, so `render_priority`
      lands in the `fill_color` slot and the frame keeps the default
      priority 1. (The window surface is the frame's own business; the
      node's `surf` is the virtual surface of size `scroll_limits`.) */
  function NewScrollingFrame(id: nat, pos: XYComplex, scrollLimits: Size, renderPriority: int): (r: Node)
    ensures r.priority == 1
    ensures r.handlers.menter.Some? && r.handlers.mexit.Some? && |r.handlers.uevent| == 1
  {
    var base := NewElement(id, pos, scrollLimits, 1);
    base.(handlers := Handlers(None, None, Some(ScrollMenter), Some(ScrollMexit), [ScrollHandler]))
  }

  /** The handlers every ScrollingFrame binds to itself in its constructor. */
  const ScrollHandler: Handler := 0
  const ScrollMenter: Handler := 1
  const ScrollMexit: Handler := 2

  /** The evidently intended constructor: the frame is drawn at the
      priority it was given. */
  function NewScrollingFrameIntended(id: nat, pos: XYComplex, scrollLimits: Size, renderPriority: int): (r: Node)
    ensures r.priority == renderPriority
    ensures r.handlers.menter.Some? && r.handlers.mexit.Some? && |r.handlers.uevent| == 1
  {
    NewScrollingFrame(id, pos, scrollLimits, renderPriority).(priority := renderPriority)
  }

  /** `Image.__init__` as written: the same positional slip, so every Image
      has priority 1. */
  function NewImage(id: nat, pos: XYComplex, image: Size, renderPriority: int): (r: Node)
    ensures r.priority == 1 && r.surf == image
  {
    NewElement(id, pos, image, 1)
  }

  /** The evidently intended Image constructor: a UIElement at the
      requested priority. */
  function NewImageIntended(id: nat, pos: XYComplex, image: Size, renderPriority: int): (r: Node)
    ensures r.priority == renderPriority && r.surf == image
    ensures r == NewImage(id, pos, image, renderPriority).(priority := renderPriority)
  {
    NewElement(id, pos, image, renderPriority)
  }

  /** Whatever priority is requested, a ScrollingFrame or Image built by the
      source draws at priority 1, unlike a plain UIElement. */
  lemma RequestedPriorityIgnored(pos: XYComplex, s: Size)
    ensures NewScrollingFrame(0, pos, s, 5).priority != NewElement(0, pos, s, 5).priority
    ensures NewImage(0, pos, s, 5).priority != 5
    ensures NewScrollingFrameIntended(0, pos, s, 5).priority == 5
    ensures NewImageIntended(0, pos, s, 5).priority == 5
  {
  }

  // ------------------------------------------------------------ descendants

  /** `set_parent` seen from the parent: the child is appended to its list. */
  function Attach(parent: Node, child: Node): (r: Node)
    ensures r.children == parent.children + [child]
    ensures r.(children := parent.children) == parent
    ensures multiset(Descendants(r)) == multiset(Descendants(parent)) + multiset{child} + multiset(Descendants(child))
  {
    var r := parent.(children := parent.children + [child]);
    FlatAppend(parent.children, child);
    r
  }

  /** `set_parent` onto a Scene. */
  function AttachToScene(s: Scene, child: Node): (r: Scene)
    ensures r.children == s.children + [child] && r.active == s.active && r.surf == s.surf
    ensures multiset(SceneDescendants(r)) == multiset(SceneDescendants(s)) + multiset{child} + multiset(Descendants(child))
  {
    FlatAppend(s.children, child);
    s.(children := s.children + [child])
  }

  /** `get_descendants`: a copy of the children, then each child's own
      descendants in child order. */
  function Descendants(n: Node): seq<Node>
    decreases n, 1
  {
    n.children + Flat(n.children)
  }

  function Flat(cs: seq<Node>): seq<Node>
    decreases cs, 0
  {
    if cs == [] then [] else Descendants(cs[0]) + Flat(cs[1..])
  }

  /** `Scene.get_descendants`, the same rule on the scene's children. */
  function SceneDescendants(s: Scene): seq<Node>
  {
    s.children + Flat(s.children)
  }

  lemma {:induction false} FlatAppend(cs: seq<Node>, c: Node)
    ensures Flat(cs + [c]) == Flat(cs) + Descendants(c)
  {
    if cs == [] {
      assert cs + [c] == [c];
      assert [c][1..] == [];
    } else {
      FlatAppend(cs[1..], c);
      assert (cs + [c])[1..] == cs[1..] + [c];
    }
  }

  /** `x` lies strictly below `n` in the tree. */
  ghost predicate Below(x: Node, n: Node)
    decreases n
  {
    exists i :: 0 <= i < |n.children| && (x == n.children[i] || Below(x, n.children[i]))
  }

  /** The number of nodes in the subtree. */
  function Count(n: Node): nat
    decreases n, 1
  {
    1 + CountAll(n.children)
  }

  function CountAll(cs: seq<Node>): nat
    decreases cs, 0
  {
    if cs == [] then 0 else Count(cs[0]) + CountAll(cs[1..])
  }

  /** The enumeration lists the direct children first and then exactly the
      nodes below them: one entry per node of the subtree other than the
      root. */
  lemma {:induction false} DescendantsSpec(n: Node)
    ensures Descendants(n)[..|n.children|] == n.children
    ensures |Descendants(n)| == Count(n) - 1
    ensures forall x :: x in Descendants(n) <==> Below(x, n)
    decreases n, 1
  {
    FlatSpec(n.children);
    forall x
      ensures x in Descendants(n) <==> Below(x, n)
    {
      if x in Descendants(n) {
        if x in n.children {
          var i :| 0 <= i < |n.children| && n.children[i] == x;
          assert Below(x, n);
        } else {
          assert x in Flat(n.children);
          var i :| 0 <= i < |n.children| && x in Descendants(n.children[i]);
          DescendantsSpec(n.children[i]);
          assert Below(x, n);
        }
      }
      if Below(x, n) {
        var i :| 0 <= i < |n.children| && (x == n.children[i] || Below(x, n.children[i]));
        if x != n.children[i] {
          DescendantsSpec(n.children[i]);
          assert x in Descendants(n.children[i]);
          FlatContains(n.children, i, x);
        }
      }
    }
  }

  lemma {:induction false} FlatSpec(cs: seq<Node>)
    ensures |Flat(cs)| == CountAll(cs) - |cs|
    ensures forall x :: x in Flat(cs) ==> exists i :: 0 <= i < |cs| && x in Descendants(cs[i])
    decreases cs, 0
  {
    if cs != [] {
      DescendantsSpec(cs[0]);
      FlatSpec(cs[1..]);
      forall x | x in Flat(cs)
        ensures exists i :: 0 <= i < |cs| && x in Descendants(cs[i])
      {
        if x in Descendants(cs[0]) {
          assert 0 <= 0 < |cs| && x in Descendants(cs[0]);
        } else {
          assert x in Flat(cs[1..]);
          var j :| 0 <= j < |cs[1..]| && x in Descendants(cs[1..][j]);
          assert cs[1..][j] == cs[j + 1];
        }
      }
    }
  }

  lemma {:induction false} FlatContains(cs: seq<Node>, i: int, x: Node)
    requires 0 <= i < |cs| && x in Descendants(cs[i])
    ensures x in Flat(cs)
    decreases cs
  {
    if i > 0 {
      FlatContains(cs[1..], i - 1, x);
    }
  }

  // ------------------------------------------------------------------ drawing

  function PriorityOf(n: Node): int
  {
    n.priority
  }

  /** The order in which `draw_children` and `Scene.draw` visit a child
      list: `children.sort(key=lambda c: c.priority)`. */
  function ChildDrawOrder(cs: seq<Node>): (r: seq<Node>)
    ensures Sorting.SortedBy(r, PriorityOf)
    ensures multiset(r) == multiset(cs)
    ensures forall p :: Sorting.WithKey(r, PriorityOf, p) == Sorting.WithKey(cs, PriorityOf, p)
  {
    Sorting.SortByKeyCorrect(cs, PriorityOf);
    Sorting.SortByKey(cs, PriorityOf)
  }

  /** The tree as it stands after a draw: every child list reached by
      `draw_children` has been sorted in place. An invisible node returns
      before sorting, so its subtree keeps its order. */
  function Arrange(n: Node): (r: Node)
    ensures r.id == n.id && r.priority == n.priority && r.visible == n.visible
    decreases n, 1
  {
    if !n.visible then n
    else n.(children := ChildDrawOrder(ArrangeAll(n.children)))
  }

  function ArrangeAll(cs: seq<Node>): (r: seq<Node>)
    ensures |r| == |cs|
    ensures forall i :: 0 <= i < |cs| ==> r[i] == Arrange(cs[i])
    decreases cs, 0
  {
    if cs == [] then [] else [Arrange(cs[0])] + ArrangeAll(cs[1..])
  }

  /** Ids in post-order, skipping invisible subtrees: the blits one
      `draw_seq` makes on a tree whose child lists are already in draw
      order (children first, then the node itself). */
  function PostOrder(n: Node): seq<nat>
    decreases n, 1
  {
    if !n.visible then [] else PostAll(n.children) + [n.id]
  }

  function PostAll(cs: seq<Node>): seq<nat>
    decreases cs, 0
  {
    if cs == [] then [] else PostOrder(cs[0]) + PostAll(cs[1..])
  }

  /** `draw_seq`: the ids of the nodes blitted, in blit order. An invisible
      node draws neither its children nor itself; a visible one draws its
      subtree before itself, and every node whose ancestors are all visible
      is drawn exactly once. */
  function DrawSeq(n: Node): (r: seq<nat>)
    ensures !n.visible ==> r == []
    ensures n.visible ==> |r| > 0 && r[|r| - 1] == n.id
    ensures multiset(r) == multiset(PostOrder(n))
  {
    ArrangeKeepsBlits(n);
    PostOrder(Arrange(n))
  }

  lemma {:induction false} PostAllAppend(a: seq<Node>, b: seq<Node>)
    ensures PostAll(a + b) == PostAll(a) + PostAll(b)
  {
    if a == [] {
      assert a + b == b;
    } else {
      var ab := a + b;
      assert ab[0] == a[0];
      assert ab[1..] == a[1..] + b;
      PostAllAppend(a[1..], b);
      var head, x, y := PostOrder(a[0]), PostAll(a[1..]), PostAll(b);
      assert PostAll(ab) == head + (x + y);
      assert head + (x + y) == (head + x) + y;
    }
  }

  lemma {:induction false} PostAllInsert(x: Node, s: seq<Node>)
    ensures multiset(PostAll(Sorting.Insert(x, s, PriorityOf))) == multiset(PostAll(s)) + multiset(PostOrder(x))
  {
    if s != [] && PriorityOf(s[0]) <= PriorityOf(x) {
      PostAllInsert(x, s[1..]);
    }
  }

  /** Sorting a child list permutes the blits of the children. */
  lemma {:induction false} PostAllSorted(cs: seq<Node>)
    ensures multiset(PostAll(Sorting.SortByKey(cs, PriorityOf))) == multiset(PostAll(cs))
  {
    if cs != [] {
      var init, last := cs[..|cs| - 1], cs[|cs| - 1];
      var sortedInit := Sorting.SortByKey(init, PriorityOf);
      var sorted := Sorting.SortByKey(cs, PriorityOf);
      assert sorted == Sorting.Insert(last, sortedInit, PriorityOf);
      PostAllSorted(init);
      PostAllInsert(last, sortedInit);
      var pi, pl := PostAll(init), PostOrder(last);
      PostAllLast(cs);
      assert multiset(pi + pl) == multiset(pi) + multiset(pl);
    }
  }

  lemma PostAllLast(cs: seq<Node>)
    requires cs != []
    ensures PostAll(cs) == PostAll(cs[..|cs| - 1]) + PostOrder(cs[|cs| - 1])
  {
    var init, last := cs[..|cs| - 1], cs[|cs| - 1];
    assert cs == init + [last];
    PostAllAppend(init, [last]);
    PostAllSingle(last);
  }

  lemma PostAllSingle(x: Node)
    ensures PostAll([x]) == PostOrder(x)
  {
    assert [x][1..] == [];
  }

  lemma {:induction false} ArrangeKeepsBlits(n: Node)
    ensures multiset(PostOrder(Arrange(n))) == multiset(PostOrder(n))
    decreases n, 1
  {
    if n.visible {
      ArrangeAllKeepsBlits(n.children);
      Sorting.SortByKeyCorrect(ArrangeAll(n.children), PriorityOf);
      PostAllSorted(ArrangeAll(n.children));
    }
  }

  lemma {:induction false} ArrangeAllKeepsBlits(cs: seq<Node>)
    ensures multiset(PostAll(ArrangeAll(cs))) == multiset(PostAll(cs))
    decreases cs, 0
  {
    if cs != [] {
      ArrangeKeepsBlits(cs[0]);
      ArrangeAllKeepsBlits(cs[1..]);
      assert ArrangeAll(cs) == [Arrange(cs[0])] + ArrangeAll(cs[1..]);
      assert ([Arrange(cs[0])] + ArrangeAll(cs[1..]))[1..] == ArrangeAll(cs[1..]);
    }
  }

  /** Drawing twice in a row draws in the same order: the in-place sort of
      the first draw leaves nothing for the second one to move. */
  lemma {:induction false} ArrangeIdempotent(n: Node)
    ensures Arrange(Arrange(n)) == Arrange(n)
    decreases n, 1
  {
    if n.visible {
      var a := ArrangeAll(n.children);
      var sorted := ChildDrawOrder(a);
      forall i | 0 <= i < |sorted|
        ensures Arrange(sorted[i]) == sorted[i]
      {
        assert sorted[i] in multiset(a);
        var j :| 0 <= j < |a| && a[j] == sorted[i];
        ArrangeIdempotent(n.children[j]);
      }
      assert ArrangeAll(sorted) == sorted;
      Sorting.SortSortedIsIdentity(sorted, PriorityOf);
    }
  }

  /** `Scene.draw`: sort the scene's children in place and run `draw_seq`
      on each; the scene itself has no visibility flag. */
  function SceneDraw(s: Scene): (r: seq<nat>)
    ensures multiset(r) == multiset(PostAll(s.children))
    // the children's own draws, one after another, lowest priority first
    ensures r == Sorting.ConcatMap(DrawSeq, ChildDrawOrder(s.children))
  {
    var order := ChildDrawOrder(ArrangeAll(s.children));
    ArrangeAllKeepsBlits(s.children);
    PostAllSorted(ArrangeAll(s.children));
    SortThenArrange(s.children);
    PostAll(order)
  }

  /** Arranging each child and then sorting the list is sorting first and
      then arranging: arranging keeps a node's priority. */
  lemma SortThenArrange(cs: seq<Node>)
    ensures PostAll(ChildDrawOrder(ArrangeAll(cs))) == Sorting.ConcatMap(DrawSeq, ChildDrawOrder(cs))
  {
    assert ArrangeAll(cs) == Sorting.Map(Arrange, cs);
    Sorting.SortCommutesWithMap(cs, Arrange, PriorityOf, PriorityOf);
    PostAllArranged(Sorting.SortByKey(cs, PriorityOf));
  }

  /** A visible node draws each child, in stable priority order, and then
      itself: the priority order holds at every level of the tree. */
  lemma DrawSeqUnfolds(n: Node)
    requires n.visible
    ensures DrawSeq(n) == Sorting.ConcatMap(DrawSeq, ChildDrawOrder(n.children)) + [n.id]
  {
    SortThenArrange(n.children);
  }

  /** The blits of a list of arranged nodes are their draws in turn. */
  lemma {:induction false} PostAllArranged(ys: seq<Node>)
    ensures PostAll(Sorting.Map(Arrange, ys)) == Sorting.ConcatMap(DrawSeq, ys)
  {
    if ys != [] {
      var m := Sorting.Map(Arrange, ys);
      assert m[0] == Arrange(ys[0]);
      assert m[1..] == Sorting.Map(Arrange, ys[1..]);
      PostAllArranged(ys[1..]);
    }
  }

  /** `Screen.render`: every active scene draws, in list order. */
  function Render(scenes: seq<Scene>): (r: seq<nat>)
    ensures (forall i :: 0 <= i < |scenes| ==> !scenes[i].active) ==> r == []
    ensures |scenes| > 0 && scenes[0].active ==>
      |SceneDraw(scenes[0])| <= |r| && r[..|SceneDraw(scenes[0])|] == SceneDraw(scenes[0])
    ensures |scenes| > 0 && !scenes[0].active ==> r == Render(scenes[1..])
  {
    if scenes == [] then []
    else (if scenes[0].active then SceneDraw(scenes[0]) else []) + Render(scenes[1..])
  }

  predicate SceneActive(s: Scene)
  {
    s.active
  }

  /** `render` draws exactly the active scenes, in list order: an inactive
      scene contributes nothing and no active one is skipped. */
  lemma {:induction false} RenderDrawsActiveScenes(scenes: seq<Scene>)
    ensures Render(scenes) == Sorting.ConcatMap(SceneDraw, Sorting.Filter(SceneActive, scenes))
  {
    if scenes != [] {
      RenderDrawsActiveScenes(scenes[1..]);
      var kept := if scenes[0].active then [scenes[0]] else [];
      var rest := Sorting.Filter(SceneActive, scenes[1..]);
      assert Sorting.Filter(SceneActive, scenes) == kept + rest;
      if scenes[0].active {
        assert (kept + rest)[0] == scenes[0];
        assert (kept + rest)[1..] == rest;
      } else {
        assert kept + rest == rest;
      }
    }
  }

  /** Rendering a list of scenes is rendering its parts one after the
      other. */
  lemma RenderAppend(a: seq<Scene>, b: seq<Scene>)
    ensures Render(a + b) == Render(a) + Render(b)
  {
    RenderDrawsActiveScenes(a + b);
    RenderDrawsActiveScenes(a);
    RenderDrawsActiveScenes(b);
    Sorting.FilterAppend(SceneActive, a, b);
    Sorting.ConcatMapAppend(SceneDraw, Sorting.Filter(SceneActive, a), Sorting.Filter(SceneActive, b));
  }

  // ------------------------------------------------------------------ events

  /** The slot a fired handler was bound to. */
  datatype Slot = Mbd | Mover | Menter | Mexit | Uevent

  datatype Call = Call(slot: Slot, handler: Handler)

  function Fire(slot: Slot, h: Option<Handler>): (r: seq<Call>)
    ensures h.None? ==> r == []
    ensures h.Some? ==> r == [Call(slot, h.value)]
  {
    if h.Some? then [Call(slot, h.value)] else []
  }

  /** Every `uevent` handler, in binding order. */
  function FireAll(hs: seq<Handler>): (r: seq<Call>)
    ensures |r| == |hs|
    ensures forall i :: 0 <= i < |hs| ==> r[i] == Call(Uevent, hs[i])
    ensures forall c :: c in r ==> c.slot == Uevent
  {
    if hs == [] then [] else [Call(Uevent, hs[0])] + FireAll(hs[1..])
  }

  datatype Handled = Handled(node: Node, calls: seq<Call>)

  /** `handle_event`: which handler slots fire, in which order, and the
      new `mouse_inside` flag. A mouse event on a node that was never
      updated reads `rect` of `None` and raises. */
  function HandleEvent(n: Node, e: Event): (r: Result<Handled>)
    // an inactive node ignores everything
    ensures !n.active ==> r == Ok(Handled(n, []))
    // only `mouse_inside` can change
    ensures r.Ok? ==> r.value.node == n.(mouseInside := r.value.node.mouseInside)
    ensures r.Err? <==> n.active && n.rect.None? && (e.MouseButtonDown? || e.MouseMotion?)
    // the universal handlers always come last, all of them, in order
    ensures r.Ok? && n.active ==>
      |r.value.calls| >= |n.handlers.uevent| &&
      r.value.calls[|r.value.calls| - |n.handlers.uevent|..] == FireAll(n.handlers.uevent)
    // a button press never touches the hover flag; it fires `mbd` iff inside
    ensures r.Ok? && e.MouseButtonDown? ==> r.value.node.mouseInside == n.mouseInside
    ensures r.Ok? && n.active && e.MouseButtonDown? && n.handlers.mbd.Some? ==>
      (Collide(n.rect.value, e.pos) <==> Call(Mbd, n.handlers.mbd.value) in r.value.calls)
    ensures r.Ok? && n.active && e.MouseButtonDown? && n.handlers.mbd.None? ==>
      r.value.calls == FireAll(n.handlers.uevent)
    ensures r.Ok? && n.active && e.MouseButtonDown? ==>
      r.value.calls == (if Collide(n.rect.value, e.pos) then Fire(Mbd, n.handlers.mbd) else [])
                       + FireAll(n.handlers.uevent)
    // motion inside: enter only on the edge, hover always
    ensures r.Ok? && n.active && e.MouseMotion? && Collide(n.rect.value, e.pos) ==>
      r.value.node.mouseInside &&
      r.value.calls == Fire(Menter, if n.mouseInside then None else n.handlers.menter)
                       + Fire(Mover, n.handlers.mover) + FireAll(n.handlers.uevent)
    // motion outside: exit only on the edge
    ensures r.Ok? && n.active && e.MouseMotion? && !Collide(n.rect.value, e.pos) ==>
      !r.value.node.mouseInside &&
      r.value.calls == Fire(Mexit, if n.mouseInside then n.handlers.mexit else None)
                       + FireAll(n.handlers.uevent)
    // other events reach the universal handlers only
    ensures r.Ok? && n.active && (e.Quit? || e.KeyDown?) ==>
      r.value == Handled(n, FireAll(n.handlers.uevent))
  {
    if !n.active then Ok(Handled(n, []))
    else
      match e
      case MouseButtonDown(pos, _) => Press(n, pos)
      case MouseMotion(pos) => Motion(n, pos)
      case _ =>
        var u := FireAll(n.handlers.uevent);
        EndsWith([], u);
        Ok(Handled(n, u))
  }

  /** The `MOUSEBUTTONDOWN` branch of `handle_event` on an active node. */
  function Press(n: Node, pos: XYSimple): (r: Result<Handled>)
    ensures r.Err? <==> n.rect.None?
    ensures r.Ok? ==> r.value.node == n
    ensures r.Ok? ==>
      |r.value.calls| >= |n.handlers.uevent| &&
      r.value.calls[|r.value.calls| - |n.handlers.uevent|..] == FireAll(n.handlers.uevent)
    ensures r.Ok? && n.handlers.mbd.Some? ==>
      (Collide(n.rect.value, pos) <==> Call(Mbd, n.handlers.mbd.value) in r.value.calls)
    ensures r.Ok? && n.handlers.mbd.None? ==> r.value.calls == FireAll(n.handlers.uevent)
    ensures r.Ok? ==>
      r.value.calls == (if Collide(n.rect.value, pos) then Fire(Mbd, n.handlers.mbd) else [])
                       + FireAll(n.handlers.uevent)
  {
    var u := FireAll(n.handlers.uevent);
    if n.rect.None? then Err(NoneAttribute)
    else
      var c := if Collide(n.rect.value, pos) then Fire(Mbd, n.handlers.mbd) else [];
      EndsWith(c, u);
      Ok(Handled(n, c + u))
  }

  /** The `MOUSEMOTION` branch of `handle_event` on an active node. */
  function Motion(n: Node, pos: XYSimple): (r: Result<Handled>)
    ensures r.Err? <==> n.rect.None?
    ensures r.Ok? ==> r.value.node == n.(mouseInside := r.value.node.mouseInside)
    ensures r.Ok? ==>
      |r.value.calls| >= |n.handlers.uevent| &&
      r.value.calls[|r.value.calls| - |n.handlers.uevent|..] == FireAll(n.handlers.uevent)
    ensures r.Ok? && Collide(n.rect.value, pos) ==>
      r.value.node.mouseInside &&
      r.value.calls == Fire(Menter, if n.mouseInside then None else n.handlers.menter)
                       + Fire(Mover, n.handlers.mover) + FireAll(n.handlers.uevent)
    ensures r.Ok? && !Collide(n.rect.value, pos) ==>
      !r.value.node.mouseInside &&
      r.value.calls == Fire(Mexit, if n.mouseInside then n.handlers.mexit else None)
                       + FireAll(n.handlers.uevent)
  {
    var u := FireAll(n.handlers.uevent);
    if n.rect.None? then Err(NoneAttribute)
    else if Collide(n.rect.value, pos) then
      var enter := if n.mouseInside then [] else Fire(Menter, n.handlers.menter);
      EndsWith(enter + Fire(Mover, n.handlers.mover), u);
      Ok(Handled(n.(mouseInside := true), enter + Fire(Mover, n.handlers.mover) + u))
    else if n.mouseInside then
      EndsWith(Fire(Mexit, n.handlers.mexit), u);
      Ok(Handled(n.(mouseInside := false), Fire(Mexit, n.handlers.mexit) + u))
    else
      EndsWith([], u);
      Ok(Handled(n, u))
  }

  /** The calls `c` made before the universal handlers `u` leave `u` as the
      tail of the list. */
  lemma EndsWith(c: seq<Call>, u: seq<Call>)
    ensures |c + u| >= |u| && (c + u)[|c + u| - |u|..] == u
    ensures c == [] ==> c + u == u
  {
  }

  function CountSlot(cs: seq<Call>, s: Slot): nat
  {
    if cs == [] then 0 else (if cs[0].slot == s then 1 else 0) + CountSlot(cs[1..], s)
  }

  lemma {:induction false} CountSlotAppend(a: seq<Call>, b: seq<Call>, s: Slot)
    ensures CountSlot(a + b, s) == CountSlot(a, s) + CountSlot(b, s)
  {
    if a == [] {
      assert a + b == b;
    } else {
      CountSlotAppend(a[1..], b, s);
      assert (a + b)[1..] == a[1..] + b;
    }
  }

  lemma {:induction false} FireAllIsUevent(hs: seq<Handler>, s: Slot)
    requires s != Uevent
    ensures CountSlot(FireAll(hs), s) == 0
  {
    if hs != [] {
      FireAllIsUevent(hs[1..], s);
      assert FireAll(hs)[1..] == FireAll(hs[1..]);
    }
  }

  /** Feed a sequence of events to one node, collecting every call. */
  function HandleEvents(n: Node, es: seq<Event>): Result<Handled>
    decreases es
  {
    if es == [] then Ok(Handled(n, []))
    else
      match HandleEvent(n, es[0])
      case Err(f) => Err(f)
      case Ok(h) =>
        match HandleEvents(h.node, es[1..])
        case Err(f) => Err(f)
        case Ok(rest) => Ok(Handled(rest.node, h.calls + rest.calls))
  }

  /** With both hover handlers bound, the enter and exit handlers alternate:
      over any run of events the enters outnumber the exits by exactly the
      change in `mouse_inside`. */
  lemma {:induction false} EnterExitAlternate(n: Node, es: seq<Event>)
    requires n.handlers.menter.Some? && n.handlers.mexit.Some?
    requires HandleEvents(n, es).Ok?
    ensures var h := HandleEvents(n, es).value;
      CountSlot(h.calls, Menter) + (if n.mouseInside then 1 else 0)
        == CountSlot(h.calls, Mexit) + (if h.node.mouseInside then 1 else 0)
    decreases es
  {
    if es != [] {
      var h := HandleEvent(n, es[0]).value;
      EnterExitStep(n, es[0]);
      EnterExitAlternate(h.node, es[1..]);
      var rest := HandleEvents(h.node, es[1..]).value;
      CountSlotAppend(h.calls, rest.calls, Menter);
      CountSlotAppend(h.calls, rest.calls, Mexit);
    }
  }

  /** One event: an enter is fired exactly when the flag rises and an exit
      exactly when it falls. */
  lemma EnterExitStep(n: Node, e: Event)
    requires n.handlers.menter.Some? && n.handlers.mexit.Some?
    requires HandleEvent(n, e).Ok?
    ensures var h := HandleEvent(n, e).value;
      CountSlot(h.calls, Menter) == (if !n.mouseInside && h.node.mouseInside then 1 else 0) &&
      CountSlot(h.calls, Mexit) == (if n.mouseInside && !h.node.mouseInside then 1 else 0)
  {
    var h := HandleEvent(n, e).value;
    var u := FireAll(n.handlers.uevent);
    FireAllIsUevent(n.handlers.uevent, Menter);
    FireAllIsUevent(n.handlers.uevent, Mexit);
    if !n.active {
    } else if e.MouseMotion? && Collide(n.rect.value, e.pos) {
      var a := Fire(Menter, if n.mouseInside then None else n.handlers.menter);
      var b := Fire(Mover, n.handlers.mover);
      assert h.calls == (a + b) + u;
      CountSlotAppend(a + b, u, Menter);
      CountSlotAppend(a + b, u, Mexit);
      CountSlotAppend(a, b, Menter);
      CountSlotAppend(a, b, Mexit);
    } else if e.MouseMotion? {
      var a := Fire(Mexit, if n.mouseInside then n.handlers.mexit else None);
      assert h.calls == a + u;
      CountSlotAppend(a, u, Menter);
      CountSlotAppend(a, u, Mexit);
    } else if e.MouseButtonDown? {
      var a := if Collide(n.rect.value, e.pos) then Fire(Mbd, n.handlers.mbd) else [];
      assert h.calls == a + u;
      CountSlotAppend(a, u, Menter);
      CountSlotAppend(a, u, Mexit);
    }
  }

  // ----------------------------------------------------------------- binding

  function BindMbd(h: Handlers, f: Handler): (r: Handlers)
    ensures r.mbd == Some(f) && r.(mbd := h.mbd) == h
  {
    h.(mbd := Some(f))
  }

  function BindMover(h: Handlers, f: Handler): (r: Handlers)
    ensures r.mover == Some(f) && r.(mover := h.mover) == h
  {
    h.(mover := Some(f))
  }

  function BindMenter(h: Handlers, f: Handler): (r: Handlers)
    ensures r.menter == Some(f) && r.(menter := h.menter) == h
  {
    h.(menter := Some(f))
  }

  function BindMexit(h: Handlers, f: Handler): (r: Handlers)
    ensures r.mexit == Some(f) && r.(mexit := h.mexit) == h
  {
    h.(mexit := Some(f))
  }

  /** `bind_u` appends: earlier universal handlers stay bound. */
  function BindU(h: Handlers, f: Handler): (r: Handlers)
    ensures r.uevent == h.uevent + [f] && r.(uevent := h.uevent) == h
    ensures HasAnyHandler(r)
  {
    h.(uevent := h.uevent + [f])
  }

  /** The `unbind_*` methods clear one single slot. */
  function Unbind(h: Handlers, s: Slot): (r: Handlers)
    requires s != Uevent
    ensures s == Mbd ==> r == h.(mbd := None)
    ensures s == Mover ==> r == h.(mover := None)
    ensures s == Menter ==> r == h.(menter := None)
    ensures s == Mexit ==> r == h.(mexit := None)
    ensures r.uevent == h.uevent
  {
    match s
    case Mbd => h.(mbd := None)
    case Mover => h.(mover := None)
    case Menter => h.(menter := None)
    case Mexit => h.(mexit := None)
  }

  /** `unbind_u(index=-1)`: `list.pop(index)`, with Python's negative
      indices counted from the end; an index outside the list raises. */
  function UnbindU(h: Handlers, index: int): (r: Result<(Handlers, Handler)>)
    ensures r.Ok? <==> -|h.uevent| <= index < |h.uevent|
    ensures r.Ok? ==> |r.value.0.uevent| == |h.uevent| - 1
    ensures r.Ok? ==> r.value.0.(uevent := h.uevent) == h
    ensures r.Ok? ==> multiset(r.value.0.uevent) + multiset{r.value.1} == multiset(h.uevent)
  {
    var n := |h.uevent|;
    if index < -n || n <= index then Err(IndexOutOfRange)
    else
      var i := if index < 0 then index + n else index;
      assert h.uevent == h.uevent[..i] + [h.uevent[i]] + h.uevent[i + 1..];
      Ok((h.(uevent := h.uevent[..i] + h.uevent[i + 1..]), h.uevent[i]))
  }

  /** `bind_u` followed by `unbind_u()` gives back the handler and the
      original bindings. */
  lemma BindUnbindRoundTrip(h: Handlers, f: Handler)
    ensures UnbindU(BindU(h, f), -1) == Ok((h, f))
  {
    var b := BindU(h, f);
    var n := |b.uevent|;
    assert b.uevent[..n - 1] == h.uevent;
    assert b.uevent[n..] == [];
    assert b.uevent[..n - 1] + b.uevent[n..] == h.uevent;
  }
}

=== FILE: input.dfy ===
/** The pygame input the toolkits consume: events as tagged records and the
    hit test `Rect.collidepoint`. */
module Input {
  import opened Placement

  /** Mouse button codes: 1 is the primary button, 4 and 5 the wheel. */
  const WheelUp: int := 4
  const WheelDown: int := 5

  datatype Event =
    | Quit
    | MouseButtonDown(pos: XYSimple, button: int)
    | MouseMotion(pos: XYSimple)
    | KeyDown(key: int)

  /** A pygame `Rect`: top-left corner and extent. */
  datatype Rect = Rect(left: real, top: real, w: real, h: real)

  /** `Rect.collidepoint`: the left and top edges are inside, the right and
      bottom edges are not. */
  predicate Collide(r: Rect, p: XYSimple)
  {
    r.left <= p.x < r.left + r.w && r.top <= p.y < r.top + r.h
  }

  /** `update_rect`: the surface's rect moved to the absolute position. */
  function RectAt(surf: Size, topLeft: XYSimple): (r: Rect)
    ensures Collide(r, topLeft) <==> 0.0 < surf.w && 0.0 < surf.h
    ensures forall p: XYSimple {:trigger Collide(r, p)} ::
      Collide(r, p) ==> topLeft.x <= p.x && topLeft.y <= p.y
  {
    Rect(topLeft.x, topLeft.y, surf.w, surf.h)
  }
}

=== FILE: interpolation.dfy ===
/** The interpolators of pyoneer2 (`interpolation.py`): the straight-line
    step `find_change`, the linear interpolator that advances a position
    by `rate * delta / 1000 + constant` each update, and the duration that
    makes the step law cover a given distance. `math.sqrt` is a parameter
    obeying `Support.SqrtLaw`. */
module Interpolation {
  import opened Support
  import opened Placement

  /** A step `(dx, dy)`. */
  datatype Change = Change(dx: real, dy: real)

  function Sign(x: real): real
  {
    if x > 0.0 then 1.0 else -1.0
  }

  /** `x ** 2`. */
  function Sq(x: real): real
  {
    x * x
  }

  /** The horizontal size of a step of length `dist` along `(w, h)`,
      `sqrt(dist ** 2 * w ** 2 / (h ** 2 + w ** 2))`. The source only
      evaluates it with `w` non-zero, where the denominator is positive
      (`GeneralRatio`); the zero case is there for the division check
      alone. */
  function GeneralDx(w: real, h: real, dist: real, sqrt: real -> real): real
  {
    if Sq(h) + Sq(w) == 0.0 then 0.0 else sqrt(Sq(dist) * Sq(w) / (Sq(h) + Sq(w)))
  }

  /** `find_change(start, to, dist)` as written: the axis branches yield a
      step of `+dist` and the general branch a non-negative horizontal
      step, whichever side of `start` the target is on. */
  function FindChangeAsWritten(start: XYSimple, to: XYSimple, dist: real, sqrt: real -> real): (r: Change)
    ensures var w, h := to.x - start.x, to.y - start.y;
      (w == 0.0 && h == 0.0 ==> r == Change(0.0, 0.0)) &&
      (w == 0.0 && h != 0.0 ==> r == Change(0.0, dist)) &&
      (w != 0.0 && h == 0.0 ==> r == Change(dist, 0.0))
  {
    var w := to.x - start.x;
    var h := to.y - start.y;
    if w == 0.0 && h == 0.0 then Change(0.0, 0.0)
    else if w == 0.0 then Change(0.0, dist)
    else if h == 0.0 then Change(dist, 0.0)
    else LineStep(GeneralDx(w, h, dist, sqrt), w, h)
  }

  /** The step with horizontal part `dx` on the line through `(w, h)`. */
  function LineStep(dx: real, w: real, h: real): Change
    requires w != 0.0
  {
    Change(dx, dx * h / w)
  }

  /** In the general branch as written the step lies on the line to the
      target and has length `dist`, but its horizontal part is never
      negative. */
  lemma FindChangeAsWrittenGeometry(start: XYSimple, to: XYSimple, dist: real, sqrt: real -> real)
    requires SqrtLaw(sqrt)
    requires to.x - start.x != 0.0 && to.y - start.y != 0.0
    ensures var r, w, h := FindChangeAsWritten(start, to, dist, sqrt), to.x - start.x, to.y - start.y;
      r.dx >= 0.0 && r.dy * w == r.dx * h && Sq(r.dx) + Sq(r.dy) == Sq(dist)
  {
    var w, h := to.x - start.x, to.y - start.y;
    GeneralStepAsWritten(w, h, dist, sqrt);
    assert FindChangeAsWritten(start, to, dist, sqrt) == LineStep(GeneralDx(w, h, dist, sqrt), w, h);
  }

  lemma GeneralStepAsWritten(w: real, h: real, dist: real, sqrt: real -> real)
    requires SqrtLaw(sqrt) && w != 0.0
    ensures var r := LineStep(GeneralDx(w, h, dist, sqrt), w, h);
      r.dx >= 0.0 && r.dy * w == r.dx * h && Sq(r.dx) + Sq(r.dy) == Sq(dist)
  {
    var m := GeneralDx(w, h, dist, sqrt);
    GeneralRoot(w, h, dist, sqrt);
    var dy := m * h / w;
    OnLine(m, h, w);
    LineLength(w, h, dist, m, dy);
    assert LineStep(m, w, h) == Change(m, dy);
  }

  /** `find_change` as intended: the step points at the target. */
  function FindChange(start: XYSimple, to: XYSimple, dist: real, sqrt: real -> real): (r: Change)
    ensures var w, h := to.x - start.x, to.y - start.y;
      (w == 0.0 && h == 0.0 ==> r == Change(0.0, 0.0)) &&
      (w == 0.0 && h != 0.0 ==> r == Change(0.0, Sign(h) * dist)) &&
      (w != 0.0 && h == 0.0 ==> r == Change(Sign(w) * dist, 0.0))
  {
    var w := to.x - start.x;
    var h := to.y - start.y;
    if w == 0.0 && h == 0.0 then Change(0.0, 0.0)
    else if w == 0.0 then Change(0.0, Sign(h) * dist)
    else if h == 0.0 then Change(Sign(w) * dist, 0.0)
    else LineStep(Sign(w) * GeneralDx(w, h, dist, sqrt), w, h)
  }

  /** The intended step lies on the line from start to target, has length
      `dist` (unless start is the target), and a forward step heads toward
      the target on both axes. */
  lemma FindChangeTowardTarget(start: XYSimple, to: XYSimple, dist: real, sqrt: real -> real)
    requires SqrtLaw(sqrt)
    ensures Aimed(FindChange(start, to, dist, sqrt), to.x - start.x, to.y - start.y, dist)
  {
    var w, h := to.x - start.x, to.y - start.y;
    var r := FindChange(start, to, dist, sqrt);
    if w == 0.0 && h == 0.0 {
      assert r == Change(0.0, 0.0);
    } else if w == 0.0 {
      assert r == Change(0.0, Sign(h) * dist);
      AxisStep(h, dist);
    } else if h == 0.0 {
      assert r == Change(Sign(w) * dist, 0.0);
      AxisStep(w, dist);
    } else {
      GeneralStep(w, h, dist, sqrt);
      assert r == LineStep(Sign(w) * GeneralDx(w, h, dist, sqrt), w, h);
    }
  }

  /** A step `r` toward an offset `(w, h)`: it lies on the line through the
      offset, has length `dist` unless the offset is zero, and a forward
      step agrees in sign with the offset on both axes. */
  predicate Aimed(r: Change, w: real, h: real, dist: real)
  {
    r.dy * w == r.dx * h &&
    ((w != 0.0 || h != 0.0) ==> Sq(r.dx) + Sq(r.dy) == Sq(dist)) &&
    (dist >= 0.0 ==> r.dx * w >= 0.0 && r.dy * h >= 0.0)
  }

  lemma GeneralStep(w: real, h: real, dist: real, sqrt: real -> real)
    requires SqrtLaw(sqrt) && w != 0.0 && h != 0.0
    ensures Aimed(LineStep(Sign(w) * GeneralDx(w, h, dist, sqrt), w, h), w, h, dist)
  {
    var m := GeneralDx(w, h, dist, sqrt);
    GeneralRoot(w, h, dist, sqrt);
    var dx := Sign(w) * m;
    AxisStep(w, m);
    var dy := dx * h / w;
    OnLine(dx, h, w);
    LineLength(w, h, dist, dx, dy);
    VerticalSign(w, h, dx, dy);
    AimedOf(dx, dy, w, h, dist);
    assert LineStep(dx, w, h) == Change(dx, dy);
  }

  /** `Aimed`, from its three facts about a step `(dx, dy)`. */
  lemma AimedOf(dx: real, dy: real, w: real, h: real, dist: real)
    requires dy * w == dx * h && Sq(dx) + Sq(dy) == Sq(dist)
    requires dx * w >= 0.0 && dy * h >= 0.0
    ensures Aimed(Change(dx, dy), w, h, dist)
  {
  }

  /** A step of `Sign(x) * d` along one axis has length `d` and, for a
      forward step, the sign of `x`. */
  lemma AxisStep(x: real, d: real)
    requires x != 0.0
    ensures Sq(Sign(x) * d) == Sq(d)
    ensures d >= 0.0 ==> (Sign(x) * d) * x >= 0.0
    ensures Aimed(Change(0.0, Sign(x) * d), 0.0, x, d)
    ensures Aimed(Change(Sign(x) * d, 0.0), x, 0.0, d)
  {
    Multiplicative(Sign(x), d);
    if x > 0.0 {
      assert Sign(x) * d == d;
    } else {
      assert Sign(x) * d == -d;
      assert (-d) * x == d * (-x);
    }
  }

  /** The root `GeneralDx` takes is non-negative and its square, scaled
      by the denominator, is the numerator `dist ** 2 * w ** 2`. */
  lemma GeneralRoot(w: real, h: real, dist: real, sqrt: real -> real)
    requires SqrtLaw(sqrt) && w != 0.0
    ensures var m := GeneralDx(w, h, dist, sqrt);
      m >= 0.0 && Sq(m) * (Sq(h) + Sq(w)) == Sq(dist) * Sq(w)
  {
    GeneralRatio(w, h, dist);
    var q := Sq(dist) * Sq(w) / (Sq(h) + Sq(w));
    var m := GeneralDx(w, h, dist, sqrt);
    assert m == sqrt(q);
    assert Sq(m) == q;
  }

  /** The vertical part `dx * h / w` puts a step on the line `(w, h)`. */
  lemma OnLine(dx: real, h: real, w: real)
    requires w != 0.0
    ensures (dx * h / w) * w == dx * h
  {
  }

  /** A step on the line `(w, h)` whose horizontal part has the square the
      general branch gives has length `dist`. */
  lemma LineLength(w: real, h: real, dist: real, dx: real, dy: real)
    requires w != 0.0
    requires Sq(dx) * (Sq(h) + Sq(w)) == Sq(dist) * Sq(w)
    requires dy * w == dx * h
    ensures Sq(dx) + Sq(dy) == Sq(dist)
  {
    SquareSign(w);
    Multiplicative(dy, w);
    Multiplicative(dx, h);
    var X, Y, W, H, D := Sq(dx), Sq(dy), Sq(w), Sq(h), Sq(dist);
    assert Y * W == X * H;
    Distribute(X, Y, W, H, D);
    Cancel(X + Y, D, W);
  }

  lemma Distribute(X: real, Y: real, W: real, H: real, D: real)
    requires Y * W == X * H && X * (H + W) == D * W
    ensures (X + Y) * W == D * W
  {
    assert (X + Y) * W == X * W + Y * W;
    assert X * (H + W) == X * H + X * W;
  }

  /** `Sq` distributes over a product. */
  lemma Multiplicative(a: real, b: real)
    ensures Sq(a * b) == Sq(a) * Sq(b)
  {
  }

  /** A square is non-negative, and positive when its root is non-zero. */
  lemma SquareSign(x: real)
    ensures Sq(x) >= 0.0
    ensures x != 0.0 ==> Sq(x) > 0.0
  {
    if x != 0.0 {
      assert x * (1.0 / x) == 1.0;
      Multiplicative(x, 1.0 / x);
      assert Sq(x) * Sq(1.0 / x) == 1.0;
    }
  }

  /** With `w` non-zero the denominator of `GeneralDx` is positive and the
      quantity under the root is a non-negative ratio. */
  lemma GeneralRatio(w: real, h: real, dist: real)
    requires w != 0.0
    ensures Sq(h) + Sq(w) > 0.0 && Sq(w) > 0.0
    ensures var q := Sq(dist) * Sq(w) / (Sq(h) + Sq(w));
      q >= 0.0 && q * (Sq(h) + Sq(w)) == Sq(dist) * Sq(w)
  {
    SquareSign(w);
    SquareSign(h);
    SquareSign(dist * w);
    Multiplicative(dist, w);
    Quotient(Sq(dist) * Sq(w), Sq(h) + Sq(w));
  }

  lemma Quotient(n: real, d: real)
    requires d > 0.0
    ensures (n / d) * d == n
    ensures n >= 0.0 ==> n / d >= 0.0
  {
  }

  lemma Cancel(a: real, b: real, c: real)
    requires c != 0.0 && a * c == b * c
    ensures a == b
  {
    assert (a - b) * c == 0.0;
  }

  /** A step on the line `(w, h)` whose horizontal part has the sign of
      `w` has a vertical part with the sign of `h`. */
  lemma VerticalSign(w: real, h: real, dx: real, dy: real)
    requires w != 0.0 && dx * w >= 0.0 && dy * w == dx * h
    ensures dy * h >= 0.0
  {
    assert (dy * h) * (w * w) == (dy * w) * (h * w);
    assert (dy * w) * (h * w) == (dx * w) * (h * h);
    SquareSign(h);
    SquareSign(w);
    assert (dx * w) * (h * h) >= 0.0;
    ScaleCompare(dy * h, 0.0, w * w);
  }

  /** Heading from the origin to (-3, -4) with a step of 5: as written the
      step is (3, 4), straight away from the target; as intended it is
      (-3, -4). */
  lemma FindChangeCounterexample(sqrt: real -> real)
    requires SqrtLaw(sqrt)
    ensures FindChangeAsWritten(XYSimple(0.0, 0.0), XYSimple(-3.0, -4.0), 5.0, sqrt) == Change(3.0, 4.0)
    ensures FindChange(XYSimple(0.0, 0.0), XYSimple(-3.0, -4.0), 5.0, sqrt) == Change(-3.0, -4.0)
  {
    assert Sq(5.0) * Sq(-3.0) / (Sq(-4.0) + Sq(-3.0)) == 3.0 * 3.0;
    SqrtOfSquare(sqrt, 3.0);
  }

  // ---------------------------------------------------------- interpolators

  /** The base `Interpolator` and `LinearInterpolator`; both keep a
      coefficient (the rate, in pixels per second) and a constant. */
  datatype Interpolator = Base(coefficients: real, constant: real) | Linear(rate: real, constant: real)

  /** `coefficients * (delta / 1000) + constant`: the distance one update
      covers. */
  function StepLength(rate: real, constant: real, delta: real): real
  {
    rate * (delta / 1000.0) + constant
  }

  /** The Euclidean distance between two points. */
  function Distance(a: XYSimple, b: XYSimple, sqrt: real -> real): real
  {
    sqrt((b.x - a.x) * (b.x - a.x) + (b.y - a.y) * (b.y - a.y))
  }

  /** `interpolate(animation, delta)` as written: the branch is chosen by
      the animation's start and end positions, and the step is added to the
      list `pos` refers to. While a translation runs, `start` and `pos` are
      one and the same list (the constructor stores it under both names), so
      every step moves the start along with it. The axis branches add the
      step without a sign, and the general branch uses
      `FindChangeAsWritten`. */
  function InterpolateAsWritten(i: Interpolator, start: XYSimple, end: XYSimple, pos: XYSimple, delta: real,
                                sqrt: real -> real): (r: Result<XYSimple>)
    ensures r.Err? <==> i.Base?
    ensures r.Err? ==> r.fault == NotImplemented
    ensures r.Ok? && start == end ==> r.value == pos
    ensures r.Ok? && start != end && end.x == start.x ==>
      r.value == XYSimple(pos.x, pos.y + StepLength(i.rate, i.constant, delta))
    ensures r.Ok? && end.x != start.x && end.y == start.y ==>
      r.value == XYSimple(pos.x + StepLength(i.rate, i.constant, delta), pos.y)
    // the general case steps by the as-written `find_change` of the step length
    ensures r.Ok? && end.x != start.x && end.y != start.y ==>
      var c := FindChangeAsWritten(start, end, StepLength(i.rate, i.constant, delta), sqrt);
      r.value == XYSimple(pos.x + c.dx, pos.y + c.dy)
  {
    match i
    case Base(_, _) => Err(NotImplemented)
    case Linear(rate, constant) =>
      var dist := StepLength(rate, constant, delta);
      if end == start then Ok(pos)
      else if end.x - start.x == 0.0 then Ok(XYSimple(pos.x, pos.y + dist))
      else if end.y - start.y == 0.0 then Ok(XYSimple(pos.x + dist, pos.y))
      else
        var c := FindChangeAsWritten(start, end, dist, sqrt);
        Ok(XYSimple(pos.x + c.dx, pos.y + c.dy))
  }

  /** In the general case the as-written step lies on the line through
      the start and the end, has the step length, and never moves left. */
  lemma InterpolateAsWrittenOnLine(i: Interpolator, start: XYSimple, end: XYSimple, pos: XYSimple, delta: real,
                                   sqrt: real -> real)
    requires SqrtLaw(sqrt) && i.Linear?
    requires end.x != start.x && end.y != start.y
    ensures var p, w, h := InterpolateAsWritten(i, start, end, pos, delta, sqrt).value, end.x - start.x, end.y - start.y;
      var dx, dy := p.x - pos.x, p.y - pos.y;
      dx >= 0.0 && dy * w == dx * h && Sq(dx) + Sq(dy) == Sq(StepLength(i.rate, i.constant, delta))
  {
    FindChangeAsWrittenGeometry(start, end, StepLength(i.rate, i.constant, delta), sqrt);
  }

  /** `interpolate` as intended: one step of the step law toward the
      target, on the line to it. */
  function Interpolate(i: Interpolator, pos: XYSimple, end: XYSimple, delta: real, sqrt: real -> real)
    : (r: Result<XYSimple>)
    ensures r.Err? <==> i.Base?
    ensures r.Err? ==> r.fault == NotImplemented
    ensures r.Ok? && pos == end ==> r.value == pos
  {
    match i
    case Base(_, _) => Err(NotImplemented)
    case Linear(rate, constant) =>
      var dist := StepLength(rate, constant, delta);
      if end == pos then Ok(pos)
      else
        var c := FindChange(pos, end, dist, sqrt);
        Ok(XYSimple(pos.x + c.dx, pos.y + c.dy))
  }

  /** One intended step stays on the line from the position to the
      target, covers the step length, and heads toward the target. */
  lemma InterpolateTowardTarget(rate: real, constant: real, pos: XYSimple, end: XYSimple, delta: real, sqrt: real -> real)
    requires SqrtLaw(sqrt) && pos != end
    ensures var p := Interpolate(Linear(rate, constant), pos, end, delta, sqrt).value;
      var d := StepLength(rate, constant, delta);
      Aimed(Change(p.x - pos.x, p.y - pos.y), end.x - pos.x, end.y - pos.y, d)
  {
    var c := FindChange(pos, end, StepLength(rate, constant, delta), sqrt);
    var p := Interpolate(Linear(rate, constant), pos, end, delta, sqrt).value;
    assert p.x - pos.x == c.dx && p.y - pos.y == c.dy;
    FindChangeTowardTarget(pos, end, StepLength(rate, constant, delta), sqrt);
  }

  /** Heading right and down (both offsets positive) the step as written
      and the intended step agree: the direction error only shows when the
      target lies left of or above the position. */
  lemma InterpolateAgreesHeadingForward(i: Interpolator, pos: XYSimple, end: XYSimple, delta: real, sqrt: real -> real)
    requires end.x > pos.x && end.y > pos.y
    ensures InterpolateAsWritten(i, pos, end, pos, delta, sqrt) == Interpolate(i, pos, end, delta, sqrt)
  {
    if i.Linear? {
      var dist := StepLength(i.rate, i.constant, delta);
      assert FindChange(pos, end, dist, sqrt) == FindChangeAsWritten(pos, end, dist, sqrt);
    }
  }

  /** The direction error in the axis branch: heading up from (0, 10) to
      (0, 0) at 5 per update, the step as written goes down, away. */
  lemma VerticalStepCounterexample(sqrt: real -> real)
    requires SqrtLaw(sqrt)
    ensures InterpolateAsWritten(Linear(5.0, 0.0), XYSimple(0.0, 10.0), XYSimple(0.0, 0.0), XYSimple(0.0, 10.0), 1000.0, sqrt)
      == Ok(XYSimple(0.0, 15.0))
    ensures Interpolate(Linear(5.0, 0.0), XYSimple(0.0, 10.0), XYSimple(0.0, 0.0), 1000.0, sqrt)
      == Ok(XYSimple(0.0, 5.0))
  {
  }

  /** `compute_duration(start, end)`: the time, in milliseconds, after
      which the step law has covered the distance. The base class raises;
      a zero rate divides by zero. */
  function ComputeDuration(i: Interpolator, start: XYSimple, end: XYSimple, sqrt: real -> real): (r: Result<real>)
    ensures i.Base? ==> r == Err(NotImplemented)
    ensures i.Linear? ==> (r.Err? <==> i.rate == 0.0)
    ensures i.Linear? && r.Err? ==> r.fault == ZeroDivision
    // stepping for that long at that rate covers the distance
    ensures r.Ok? ==> StepLength(i.rate, i.constant, r.value) == Distance(start, end, sqrt)
  {
    match i
    case Base(_, _) => Err(NotImplemented)
    case Linear(rate, constant) =>
      if rate == 0.0 then Err(ZeroDivision)
      else
        var time := (Distance(start, end, sqrt) - constant) / rate;
        assert rate * (time * 1000.0 / 1000.0) == rate * time;
        Ok(time * 1000.0)
  }

  /** `compute_coefficients(duration)`: the base class raises; the linear
      interpolator does nothing, so its rate is unchanged. */
  function ComputeCoefficients(i: Interpolator, duration: real): (r: Result<Interpolator>)
    ensures r.Err? <==> i.Base?
    ensures r.Ok? ==> r.value == i
  {
    match i
    case Base(_, _) => Err(NotImplemented)
    case Linear(_, _) => Ok(i)
  }
}

=== FILE: placement.dfy ===
/** Anchor-relative coordinates shared by pyoneer2 and pyoneer3
    (`graphics.py`): an `XYComplex` is a fraction of the parent's surface
    size plus a pixel offset per axis, and the absolute position of a node
    is found by walking its `parent` links up to the Scene. Surfaces are
    reduced to their width and height. */
module Placement {
  import opened Support

  datatype XYComplex = XYComplex(xScale: real, xOffset: real, yScale: real, yOffset: real)
  datatype XYSimple = XYSimple(x: real, y: real)
  datatype Size = Size(w: real, h: real)

  function Plus(a: XYSimple, b: XYSimple): XYSimple
  {
    XYSimple(a.x + b.x, a.y + b.y)
  }

  /** `convert_absolute`: the anchor resolved against a surface. */
  function ConvertAbsolute(c: XYComplex, s: Size): XYSimple
  {
    XYSimple(c.xOffset + s.w * c.xScale, c.yOffset + s.h * c.yScale)
  }

  /** `extract_offsets`: the pixel part of an anchor. */
  function ExtractOffsets(c: XYComplex): XYSimple
  {
    XYSimple(c.xOffset, c.yOffset)
  }

  /** An anchor without scale parts does not depend on the surface: it
      resolves to its offsets. */
  lemma ScalelessIsOffsets(c: XYComplex, s: Size)
    ensures c.xScale == 0.0 && c.yScale == 0.0 ==> ConvertAbsolute(c, s) == ExtractOffsets(c)
    ensures ConvertAbsolute(c, Size(0.0, 0.0)) == ExtractOffsets(c)
  {
  }

  /** `UIElement.offset`: component-wise sum of two anchors. */
  function Offset(p: XYComplex, d: XYComplex): (r: XYComplex)
    ensures ConvertAbsolute(r, Size(0.0, 0.0)) == Plus(ExtractOffsets(p), ExtractOffsets(d))
  {
    XYComplex(p.xScale + d.xScale, p.xOffset + d.xOffset, p.yScale + d.yScale, p.yOffset + d.yOffset)
  }

  /** Resolution is linear: offsetting an anchor by `d` moves its resolved
      point by `d` resolved against the same surface. */
  lemma OffsetResolvesLinearly(p: XYComplex, d: XYComplex, s: Size)
    ensures ConvertAbsolute(Offset(p, d), s) == Plus(ConvertAbsolute(p, s), ConvertAbsolute(d, s))
  {
    assert s.w * (p.xScale + d.xScale) == s.w * p.xScale + s.w * d.xScale;
    assert s.h * (p.yScale + d.yScale) == s.h * p.yScale + s.h * d.yScale;
  }

  /** `center_position`: the anchor that puts the centre of a surface of
      size `surf` on `pos`. `None` for a missing surface fails the
      assertion of the source. */
  function CenterPosition(pos: XYComplex, surf: Option<Size>): (r: Result<XYComplex>)
    ensures surf.None? <==> r.Err?
    ensures r.Err? ==> r.fault == AssertionFailed
    ensures r.Ok? ==> r.value.xScale == pos.xScale && r.value.yScale == pos.yScale
    ensures r.Ok? ==> forall parent: Size {:trigger ConvertAbsolute(pos, parent)} ::
      Plus(ConvertAbsolute(r.value, parent), XYSimple(surf.value.w / 2.0, surf.value.h / 2.0))
        == ConvertAbsolute(pos, parent)
  {
    match surf
    case None => Err(AssertionFailed)
    case Some(s) => Ok(XYComplex(pos.xScale, pos.xOffset - s.w / 2.0, pos.yScale, pos.yOffset - s.h / 2.0))
  }

  /** A node seen through its `parent` attribute: `Element` is a UIElement
      with its anchor, its surface size and its parent; `Scene` is the root
      container with the display surface; `Unset` is a `parent` of `None`. */
  datatype Chain =
    | Scene(surf: Size)
    | Element(relPos: XYComplex, surf: Size, parent: Chain)
    | Unset

  /** Every parent link up from `c` ends in a Scene. */
  ghost predicate Rooted(c: Chain)
  {
    match c
    case Scene(_) => true
    case Element(_, _, p) => Rooted(p)
    case Unset => false
  }

  /** The recursive reading of the position rule: a child of a Scene sits
      at its anchor resolved against the Scene's surface; a nested element
      sits at its parent's absolute position plus its anchor resolved
      against the parent's surface. A missing parent raises. */
  function Absolute(e: Chain): Result<XYSimple>
    requires e.Element?
  {
    match e.parent
    case Unset => Err(NoneAttribute)
    case Scene(s) => Ok(ConvertAbsolute(e.relPos, s))
    case Element(_, s, _) =>
      var up := Absolute(e.parent);
      if up.Err? then up else Ok(Plus(up.value, ConvertAbsolute(e.relPos, s)))
  }

  /** The position is defined exactly when the chain reaches a Scene. */
  lemma {:induction false} AbsoluteDefinedIffRooted(e: Chain)
    requires e.Element?
    ensures Absolute(e).Ok? <==> Rooted(e)
    ensures Absolute(e).Err? ==> Absolute(e).fault == NoneAttribute
  {
    if e.parent.Element? {
      AbsoluteDefinedIffRooted(e.parent);
    }
  }

  /** The terms the source collects in `position_chain`, nearest first. */
  function Terms(e: Chain): seq<XYSimple>
  {
    if e.Element? && !e.parent.Unset? then [ConvertAbsolute(e.relPos, e.parent.surf)] + Terms(e.parent)
    else []
  }

  function SumX(ts: seq<XYSimple>): real
  {
    if ts == [] then 0.0 else ts[0].x + SumX(ts[1..])
  }

  function SumY(ts: seq<XYSimple>): real
  {
    if ts == [] then 0.0 else ts[0].y + SumY(ts[1..])
  }

  function Sum(ts: seq<XYSimple>): XYSimple
  {
    XYSimple(SumX(ts), SumY(ts))
  }

  lemma {:induction false} SumAppend(ts: seq<XYSimple>, t: XYSimple)
    ensures Sum(ts + [t]) == Plus(Sum(ts), t)
  {
    if ts != [] {
      SumAppend(ts[1..], t);
      assert (ts + [t])[1..] == ts[1..] + [t];
    } else {
      assert ts + [t] == [t];
      assert [t][1..] == [];
    }
  }

  /** For a rooted element the position is the sum of the resolved anchors
      along the whole parent chain. */
  lemma {:induction false} AbsoluteIsSumOfChain(e: Chain)
    requires e.Element? && Rooted(e)
    ensures Absolute(e) == Ok(Sum(Terms(e)))
  {
    var head := ConvertAbsolute(e.relPos, e.parent.surf);
    assert Terms(e) == [head] + Terms(e.parent);
    assert ([head] + Terms(e.parent))[1..] == Terms(e.parent);
    assert Sum(Terms(e)) == Plus(head, Sum(Terms(e.parent)));
    if e.parent.Element? {
      AbsoluteIsSumOfChain(e.parent);
    } else {
      assert Terms(e.parent) == [];
    }
  }

  /** `calculate_absolute_position`: the source's loop, which appends one
      resolved anchor per UIElement while climbing and sums at the end. */
  method CalculateAbsolutePosition(e: Chain) returns (r: Result<XYSimple>)
    requires e.Element?
    ensures r == Absolute(e)
    ensures r.Ok? <==> Rooted(e)
  {
    AbsoluteDefinedIffRooted(e);
    var chain: seq<XYSimple> := [];
    var cur := e;
    while cur.Element?
      invariant cur.Scene? || cur.Element?
      invariant chain + Terms(cur) == Terms(e)
      invariant Rooted(cur) <==> Rooted(e)
      decreases cur
    {
      if cur.parent.Unset? {
        return Err(NoneAttribute);
      }
      var head := ConvertAbsolute(cur.relPos, cur.parent.surf);
      assert Terms(cur) == [head] + Terms(cur.parent);
      assert (chain + [head]) + Terms(cur.parent) == chain + Terms(cur);
      chain := chain + [head];
      cur := cur.parent;
    }
    assert chain == Terms(e);
    AbsoluteIsSumOfChain(e);
    r := Ok(Sum(chain));
  }
}

=== FILE: scrolling.dfy ===
/** The pyoneer3 `ScrollingFrame` (`pyoneer3/graphics.py`): a vertical
    scroller showing a window of the parent's size onto a virtual surface of
    size `scroll_limits`. The scroll offset is non-positive (negative means
    scrolled down) and the wheel buttons move it by at most `scroll_speed`
    without running past either end. */
module Scrolling {
  import opened Support
  import opened Placement
  import opened Input

  const DefaultScrollSpeed: real := 10.0
  const ScrollbarPadding: real := 4.0
  const ScrollbarWidth: real := 2.0

  /** The scrolling state of one frame. `windowSize` is the window anchor,
      resolved against the parent's surface whenever it is used. */
  datatype Frame = Frame(pos: real, speed: real, scrollable: bool, mouseOver: bool,
                         limits: Size, windowSize: XYComplex, showScrollbar: bool)

  function NewFrame(limits: Size, windowSize: XYComplex): (r: Frame)
    ensures r.pos == 0.0 && r.speed == DefaultScrollSpeed
    ensures r.scrollable && !r.mouseOver && r.showScrollbar
    ensures r.limits == limits && r.windowSize == windowSize
  {
    Frame(0.0, DefaultScrollSpeed, true, false, limits, windowSize, true)
  }

  /** `_menter` and `_mexit`, bound by the constructor: they track whether
      the mouse is over the frame. */
  function Menter(f: Frame): (r: Frame)
    ensures r.mouseOver && r.(mouseOver := f.mouseOver) == f
  {
    f.(mouseOver := true)
  }

  function Mexit(f: Frame): (r: Frame)
    ensures !r.mouseOver && r.(mouseOver := f.mouseOver) == f
  {
    f.(mouseOver := false)
  }

  /** The lowest offset: the bottom of the virtual surface at the bottom of
      the window, or 0 when the surface fits. */
  function MinPos(limitH: real, windowH: real): (r: real)
    ensures r <= 0.0
    ensures windowH < limitH ==> r == windowH - limitH
  {
    if windowH < limitH then windowH - limitH else 0.0
  }

  /** The scroll invariant for a window of height `windowH`. */
  predicate InBounds(f: Frame, windowH: real)
  {
    MinPos(f.limits.h, windowH) <= f.pos <= 0.0
  }

  function Min(a: real, b: real): real
  {
    if a <= b then a else b
  }

  /** `scroll_handler`: a wheel click over a scrollable frame moves the
      offset. Only the offset ever changes; `parentSurf` is the parent's
      surface, whose absence (a falsy `surf`) makes the handler return. */
  function ScrollHandler(f: Frame, parentSurf: Option<Size>, e: Event): (r: Frame)
    ensures r == f.(pos := r.pos)
    ensures !f.mouseOver || !f.scrollable || parentSurf.None? ==> r == f
    ensures !(e.MouseButtonDown? && (e.button == WheelUp || e.button == WheelDown)) ==> r == f
    // the offset stays within bounds for a non-negative speed
    ensures parentSurf.Some? && f.speed >= 0.0 && InBounds(f, ConvertAbsolute(f.windowSize, parentSurf.value).y)
      ==> InBounds(r, ConvertAbsolute(f.windowSize, parentSurf.value).y)
    // scrolling up never moves down and scrolling down never moves up
    ensures e.MouseButtonDown? && e.button == WheelUp && f.speed >= 0.0 && f.pos <= 0.0 ==> f.pos <= r.pos
    ensures (parentSurf.Some? && e.MouseButtonDown? && e.button == WheelDown && f.speed >= 0.0
             && InBounds(f, ConvertAbsolute(f.windowSize, parentSurf.value).y)) ==> r.pos <= f.pos
  {
    if !f.mouseOver || !f.scrollable || parentSurf.None? then f
    else if !e.MouseButtonDown? then f
    else
      var windowH := ConvertAbsolute(f.windowSize, parentSurf.value).y;
      if e.button == WheelUp then
        f.(pos := f.pos + Min(f.speed, -f.pos))
      else if e.button == WheelDown then
        if windowH < f.limits.h then
          f.(pos := f.pos - Min(f.speed, f.limits.h + f.pos - windowH))
        else f
      else f
  }

  /** The wheel moves the offset by `speed` and clamps it to its range: the
      handler's `min` arithmetic is the clamp
      `pos' = clamp(pos +/- speed, MinPos, 0)`. */
  lemma ScrollIsClamp(f: Frame, parentSurf: Size, button: int, at: XYSimple)
    requires f.mouseOver && f.scrollable && f.speed >= 0.0
    requires InBounds(f, ConvertAbsolute(f.windowSize, parentSurf).y)
    ensures var windowH := ConvertAbsolute(f.windowSize, parentSurf).y;
      var r := ScrollHandler(f, Some(parentSurf), MouseButtonDown(at, button));
      (button == WheelUp ==> r.pos == Min(0.0, f.pos + f.speed)) &&
      (button == WheelDown ==> r.pos == (if f.pos - f.speed < MinPos(f.limits.h, windowH)
                                         then MinPos(f.limits.h, windowH) else f.pos - f.speed))
  {
  }

  /** A run of events through the handler. */
  function ScrollAll(f: Frame, parentSurf: Option<Size>, es: seq<Event>): (r: Frame)
    ensures r == f.(pos := r.pos)
    decreases es
  {
    if es == [] then f else ScrollAll(ScrollHandler(f, parentSurf, es[0]), parentSurf, es[1..])
  }

  /** No sequence of events scrolls past either end. */
  lemma {:induction false} ScrollAllInBounds(f: Frame, parentSurf: Size, es: seq<Event>)
    requires f.speed >= 0.0
    requires InBounds(f, ConvertAbsolute(f.windowSize, parentSurf).y)
    ensures InBounds(ScrollAll(f, Some(parentSurf), es), ConvertAbsolute(f.windowSize, parentSurf).y)
    decreases es
  {
    if es != [] {
      ScrollAllInBounds(ScrollHandler(f, Some(parentSurf), es[0]), parentSurf, es[1..]);
    }
  }

  /** A virtual surface 200 high in a window 100 high, scrolled down at
      speed 20: four clicks reach -80, the fifth reaches the bottom at -100
      and a sixth stays there. */
  lemma ScrollDownExample(at: XYSimple)
    ensures var down := MouseButtonDown(at, WheelDown);
      var f := Frame(0.0, 20.0, true, true, Size(100.0, 200.0), XYComplex(0.0, 100.0, 0.0, 100.0), true);
      ScrollAll(f, Some(Size(800.0, 600.0)), [down, down, down]).pos == -60.0 &&
      ScrollAll(f, Some(Size(800.0, 600.0)), [down, down, down, down]).pos == -80.0 &&
      ScrollAll(f, Some(Size(800.0, 600.0)), [down, down, down, down, down]).pos == -100.0 &&
      ScrollAll(f, Some(Size(800.0, 600.0)), [down, down, down, down, down, down]).pos == -100.0
  {
    var down := MouseButtonDown(at, WheelDown);
    var f := Frame(0.0, 20.0, true, true, Size(100.0, 200.0), XYComplex(0.0, 100.0, 0.0, 100.0), true);
    var s := Some(Size(800.0, 600.0));
    var f1 := ScrollHandler(f, s, down);
    var f2 := ScrollHandler(f1, s, down);
    var f3 := ScrollHandler(f2, s, down);
    var f4 := ScrollHandler(f3, s, down);
    var f5 := ScrollHandler(f4, s, down);
    var f6 := ScrollHandler(f5, s, down);
    assert f3.pos == -60.0 && f4.pos == -80.0 && f5.pos == -100.0 && f6.pos == -100.0;
    var d1, d2, d3, d4, d5, d6 := [down], [down, down], [down, down, down], [down, down, down, down],
      [down, down, down, down, down], [down, down, down, down, down, down];
    assert d2[1..] == d1 && d3[1..] == d2 && d4[1..] == d3 && d5[1..] == d4 && d6[1..] == d5;
    assert ScrollAll(f5, s, d1) == f6;
    assert ScrollAll(f4, s, d2) == f6 && ScrollAll(f4, s, d1) == f5;
    assert ScrollAll(f3, s, d3) == f6 && ScrollAll(f3, s, d2) == f5 && ScrollAll(f3, s, d1) == f4;
    assert ScrollAll(f2, s, d4) == f6 && ScrollAll(f2, s, d3) == f5 && ScrollAll(f2, s, d2) == f4
      && ScrollAll(f2, s, d1) == f3;
    assert ScrollAll(f1, s, d5) == f6 && ScrollAll(f1, s, d4) == f5 && ScrollAll(f1, s, d3) == f4
      && ScrollAll(f1, s, d2) == f3;
    assert ScrollAll(f, s, d6) == f6 && ScrollAll(f, s, d5) == f5 && ScrollAll(f, s, d4) == f4
      && ScrollAll(f, s, d3) == f3;
  }

  // -------------------------------------------------------------- scrollbar

  /** The scrollbar thumb as blitted onto the window: its top-left corner
      and its height in whole pixels, as the surface made for it has. */
  datatype Thumb = Thumb(x: real, y: real, h: nat)

  /** The track the thumb moves in: the window height less the padding at
      each end. */
  function Freedom(windowH: real): real
  {
    windowH - ScrollbarPadding * 2.0
  }

  /** The thumb `update` sizes and `draw` places, for a window of size
      `window`. A virtual height of 0 divides by zero; otherwise the thumb's
      surface takes the height `window_percent * scrollbar_freedom`
      truncated to whole pixels, and a height that truncates below 0 is
      refused by pygame. The thumb is then not drawn when the frame is
      invisible, the scrollbar is hidden or the truncated height is not
      shorter than the track. It sits against the right edge of the window
      surface, whose width is the window's, truncated. */
  function ScrollbarThumb(f: Frame, window: Size, visible: bool): (r: Result<Option<Thumb>>)
    ensures f.limits.h == 0.0 ==> r == Err(ZeroDivision)
    ensures f.limits.h > 0.0 ==> (r.Err? <==> window.h * Freedom(window.h) <= -f.limits.h)
    ensures f.limits.h != 0.0 && r.Err? ==> r.fault == InvalidResolution
    ensures r.Ok? && r.value.Some? ==> visible && f.showScrollbar
    ensures r.Ok? && r.value.Some? ==> (r.value.value.h as real) < Freedom(window.h)
    ensures r.Ok? && r.value.Some? && f.limits.h > 0.0 ==>
      (r.value.value.h as real) * f.limits.h <= window.h * Freedom(window.h) < (r.value.value.h as real + 1.0) * f.limits.h
    ensures r.Ok? && r.value.Some? ==>
      r.value.value.x + ScrollbarWidth + ScrollbarPadding == Trunc(window.w) as real &&
      (r.value.value.y - ScrollbarPadding) * f.limits.h == -f.pos * Freedom(window.h)
  {
    if f.limits.h == 0.0 then Err(ZeroDivision)
    else
      var freedom := Freedom(window.h);
      var thumbH := ThumbHeight(window.h, f.limits.h);
      var progress := -f.pos / f.limits.h;
      ScaledTrunc(window.h, f.limits.h, thumbH);
      if thumbH < 0 then Err(InvalidResolution)
      else if !visible || !f.showScrollbar || !(thumbH as real < freedom) then Ok(None)
      else Ok(Some(Thumb(Trunc(window.w) as real - ScrollbarPadding - ScrollbarWidth,
                         ScrollbarPadding + progress * freedom, thumbH)))
  }

  /** The thumb surface's height in pixels, `window_percent *
      scrollbar_freedom` truncated. */
  function ThumbHeight(windowH: real, limitH: real): int
    requires limitH != 0.0
  {
    Trunc(windowH / limitH * Freedom(windowH))
  }

  /** The truncated thumb height for a window of height `a` against a
      positive virtual height `l`, with the products cleared of the
      division. */
  lemma ScaledTrunc(a: real, l: real, h: int)
    requires l != 0.0 && h == ThumbHeight(a, l)
    ensures l > 0.0 ==> (h < 0 <==> a * Freedom(a) <= -l)
    ensures l > 0.0 && 0.0 < Freedom(a) ==>
      0 <= h && (h as real) * l <= a * Freedom(a) < (h as real + 1.0) * l
  {
    if l > 0.0 {
      var freedom := Freedom(a);
      var q := a / l;
      QuotientTimes(a, l, freedom);
      if 0.0 < freedom {
        ScaleCompare(0.0, a, l);
        assert 0.0 <= q;
        ScaleCompare(0.0, q, freedom);
      }
      TruncScaled(q * freedom, h, l, a * freedom);
    }
  }

  /** `(p / l) * m * l == p * m`. */
  lemma QuotientTimes(p: real, l: real, m: real)
    requires l > 0.0
    ensures (p / l) * m * l == p * m
  {
    var q := p / l;
    assert q * l == p;
    assert q * m * l == q * l * m;
  }

  /** `int(p)` against a positive scale `l`, where `prod` is `p * l`. */
  lemma TruncScaled(p: real, h: int, l: real, prod: real)
    requires l > 0.0 && h == Trunc(p) && p * l == prod
    ensures h < 0 <==> prod <= -l
    ensures 0.0 <= p ==> 0 <= h && (h as real) * l <= prod < (h as real + 1.0) * l
  {
    TruncNegative(p);
    ScaleCompare(p, -1.0, l);
    if 0.0 <= p {
      var hr := h as real;
      assert hr <= p < hr + 1.0;
      ScaleCompare(hr, p, l);
      ScaleCompare(p, hr + 1.0, l);
      assert prod < (hr + 1.0) * l;
    }
  }

  /** `int(x)` is negative exactly when `x` is at most -1. */
  lemma TruncNegative(x: real)
    ensures Trunc(x) < 0 <==> x <= -1.0
  {
  }

  /** With a positive virtual height and a track of positive length, a
      visible frame whose content overflows the window shows its thumb; the
      converse holds when the track is a whole number of pixels long, since
      the thumb's height is truncated to whole pixels. */
  lemma ThumbShownIffOverflow(f: Frame, window: Size)
    requires f.limits.h > 0.0 && Freedom(window.h) > 0.0 && f.showScrollbar
    ensures ScrollbarThumb(f, window, true).Ok?
    ensures window.h < f.limits.h ==> ScrollbarThumb(f, window, true).value.Some?
    ensures Freedom(window.h) == Freedom(window.h).Floor as real ==>
      (ScrollbarThumb(f, window, true).value.Some? <==> window.h < f.limits.h)
  {
    var l, wh := f.limits.h, window.h;
    var freedom := Freedom(wh);
    var h := ThumbHeight(wh, l);
    ScaledTrunc(wh, l, h);
    OverflowFit(h as real, l, wh, freedom);
    assert ScrollbarThumb(f, window, true).Ok?;
    assert ScrollbarThumb(f, window, true).value.Some? <==> (h as real) < freedom;
    if wh >= l && freedom == freedom.Floor as real {
      assert freedom.Floor < h + 1;
    }
  }

  /** The arithmetic of `ThumbShownIffOverflow`: a height `h` with
      `h * l <= wh * F < (h + 1) * l` is under the track `F` when `wh < l`,
      and less than a pixel short of it or over otherwise. */
  lemma OverflowFit(h: real, l: real, wh: real, freedom: real)
    requires l > 0.0 && freedom > 0.0
    requires h * l <= wh * freedom < (h + 1.0) * l
    ensures wh < l ==> h < freedom
    ensures wh >= l ==> freedom < h + 1.0
  {
    var area := wh * freedom;
    if wh < l {
      ScaleCompare(wh, l, freedom);
      assert area < freedom * l;
      ScaleCompare(h, freedom, l);
    } else {
      ScaleCompare(l, wh, freedom);
      assert freedom * l <= area;
      ScaleCompare(freedom, h + 1.0, l);
    }
  }

  /** The pixel truncation lets the thumb show on content that fits: a
      window 365.5 pixels high onto content of the same height has a track
      of 357.5 pixels and a thumb of 357. */
  lemma ThumbShownWithoutOverflow(f: Frame)
    requires f.limits.h == 365.5 && f.showScrollbar
    ensures ScrollbarThumb(f, Size(100.0, 365.5), true).value.Some?
    ensures ScrollbarThumb(f, Size(100.0, 365.5), true).value.value.h == 357
  {
    assert 365.5 / 365.5 * Freedom(365.5) == 357.5;
  }

  /** Under the scroll invariant the thumb stays inside its track: it starts
      below the top padding and ends above the bottom one. */
  lemma ThumbWithinTrack(f: Frame, window: Size)
    requires f.limits.h > 0.0 && Freedom(window.h) > 0.0
    requires InBounds(f, window.h)
    requires ScrollbarThumb(f, window, true).Ok? && ScrollbarThumb(f, window, true).value.Some?
    ensures var t := ScrollbarThumb(f, window, true).value.value;
      ScrollbarPadding <= t.y && t.y + t.h as real <= ScrollbarPadding + Freedom(window.h)
  {
    var t := ScrollbarThumb(f, window, true).value.value;
    TrackFit(t.y - ScrollbarPadding, t.h as real, -f.pos, f.limits.h, window.h, Freedom(window.h));
  }

  /** The arithmetic of `ThumbWithinTrack`: with `down * l == scrolled * F`
      and `h * l <= wh * F`, the distance scrolled past and the thumb
      together fit in the track `F`. */
  lemma TrackFit(down: real, h: real, scrolled: real, l: real, wh: real, freedom: real)
    requires l > 0.0 && freedom > 0.0 && 0.0 <= scrolled && h < freedom
    requires wh < l ==> scrolled <= l - wh
    requires wh >= l ==> scrolled == 0.0
    requires down * l == scrolled * freedom && h * l <= wh * freedom
    ensures 0.0 <= down && down + h <= freedom
  {
    ScaleCompare(0.0, scrolled, freedom);
    ScaleCompare(0.0, down, l);
    if wh < l {
      // the part scrolled past and the thumb together fill at most the track
      ScaleCompare(scrolled, l - wh, freedom);
      assert (down + h) * l == down * l + h * l;
      assert (l - wh) * freedom + wh * freedom == freedom * l;
      ScaleCompare(down + h, freedom, l);
    } else {
      ScaleCompare(down, 0.0, l);
    }
  }
}

=== FILE: sorting.dfy ===
/** Python's `list.sort(key=...)` on an integer key, as the draw routines use
    it to order children by render priority. The model is a stable insertion
    sort; its contract is the one Python documents: the result is ordered by
    key, is a permutation of the input, and elements with equal keys keep
    their relative order. */
module Sorting {

  /** Ascending by key. */
  ghost predicate SortedBy<T>(s: seq<T>, key: T -> int)
  {
    forall i, j :: 0 <= i < j < |s| ==> key(s[i]) <= key(s[j])
  }

  /** The elements whose key is `k`, in their order of appearance. */
  function WithKey<T>(s: seq<T>, key: T -> int, k: int): (r: seq<T>)
    ensures |r| <= |s|
  {
    if s == [] then []
    else (if key(s[0]) == k then [s[0]] else []) + WithKey(s[1..], key, k)
  }

  /** Insert `x` after every element whose key is at most `key(x)`. */
  function Insert<T>(x: T, s: seq<T>, key: T -> int): (r: seq<T>)
  {
    if s == [] then [x]
    else if key(x) < key(s[0]) then [x] + s
    else [s[0]] + Insert(x, s[1..], key)
  }

  function SortByKey<T>(s: seq<T>, key: T -> int): (r: seq<T>)
  {
    if s == [] then [] else Insert(s[|s| - 1], SortByKey(s[..|s| - 1], key), key)
  }

  lemma {:induction false} InsertKeepsElements<T>(x: T, s: seq<T>, key: T -> int)
    ensures multiset(Insert(x, s, key)) == multiset(s) + multiset{x}
  {
    if s != [] && key(s[0]) <= key(x) {
      InsertKeepsElements(x, s[1..], key);
      assert s == [s[0]] + s[1..];
    }
  }

  lemma {:induction false} InsertKeepsOrder<T>(x: T, s: seq<T>, key: T -> int)
    requires SortedBy(s, key)
    ensures SortedBy(Insert(x, s, key), key)
  {
    if s != [] && key(s[0]) <= key(x) {
      InsertKeepsOrder(x, s[1..], key);
      InsertKeepsElements(x, s[1..], key);
      var t := Insert(x, s[1..], key);
      forall y | y in t
        ensures key(s[0]) <= key(y)
      {
        assert y in multiset(t);
      }
    }
  }

  lemma {:induction false} WithKeyAppend<T>(s: seq<T>, t: seq<T>, key: T -> int, k: int)
    ensures WithKey(s + t, key, k) == WithKey(s, key, k) + WithKey(t, key, k)
  {
    if s == [] {
      assert s + t == t;
    } else {
      var st := s + t;
      assert st[0] == s[0];
      assert st[1..] == s[1..] + t;
      WithKeyAppend(s[1..], t, key, k);
      var head, x, y := if key(s[0]) == k then [s[0]] else [], WithKey(s[1..], key, k), WithKey(t, key, k);
      assert WithKey(st, key, k) == head + (x + y);
      assert head + (x + y) == (head + x) + y;
    }
  }

  /** An insertion places `x` after every element of its own key. */
  lemma {:induction false} InsertIsStable<T>(x: T, s: seq<T>, key: T -> int, k: int)
    requires SortedBy(s, key)
    ensures WithKey(Insert(x, s, key), key, k)
         == WithKey(s, key, k) + (if key(x) == k then [x] else [])
  {
    if s == [] {
    } else if key(x) < key(s[0]) {
      if key(x) == k {
        NoneWithKey(s, key, k);
      }
    } else {
      InsertIsStable(x, s[1..], key, k);
    }
  }

  /** A sorted list whose first key exceeds `k` holds nothing of key `k`. */
  lemma {:induction false} NoneWithKey<T>(s: seq<T>, key: T -> int, k: int)
    requires SortedBy(s, key)
    requires s != [] && k < key(s[0])
    ensures WithKey(s, key, k) == []
  {
    if |s| > 1 {
      NoneWithKey(s[1..], key, k);
    }
  }

  /** The draw order contract: sorted, a permutation, and stable. */
  lemma {:induction false} SortByKeyCorrect<T>(s: seq<T>, key: T -> int)
    ensures SortedBy(SortByKey(s, key), key)
    ensures multiset(SortByKey(s, key)) == multiset(s)
    ensures forall k :: WithKey(SortByKey(s, key), key, k) == WithKey(s, key, k)
  {
    if s != [] {
      var init, last := s[..|s| - 1], s[|s| - 1];
      assert s == init + [last];
      SortByKeyCorrect(init, key);
      InsertKeepsOrder(last, SortByKey(init, key), key);
      InsertKeepsElements(last, SortByKey(init, key), key);
      forall k
        ensures WithKey(SortByKey(s, key), key, k) == WithKey(s, key, k)
      {
        InsertIsStable(last, SortByKey(init, key), key, k);
        WithKeyAppend(init, [last], key, k);
      }
    }
  }

  /** Sorting an already sorted list changes nothing, so the in-place sort
      the draw routines perform on every frame is idempotent. */
  lemma {:induction false} SortSortedIsIdentity<T>(s: seq<T>, key: T -> int)
    requires SortedBy(s, key)
    ensures SortByKey(s, key) == s
  {
    if s != [] {
      var init, last := s[..|s| - 1], s[|s| - 1];
      SortSortedIsIdentity(init, key);
      InsertLastOfSorted(last, init, key);
      assert s == init + [last];
    }
  }

  lemma {:induction false} InsertLastOfSorted<T>(x: T, s: seq<T>, key: T -> int)
    requires forall i :: 0 <= i < |s| ==> key(s[i]) <= key(x)
    ensures Insert(x, s, key) == s + [x]
  {
    if s != [] {
      InsertLastOfSorted(x, s[1..], key);
    }
  }

  /** `f` applied to every element, in order. */
  function Map<T, U>(f: T -> U, s: seq<T>): (r: seq<U>)
    ensures |r| == |s|
    ensures forall i :: 0 <= i < |s| ==> r[i] == f(s[i])
  {
    if s == [] then [] else [f(s[0])] + Map(f, s[1..])
  }

  /** The elements satisfying `p`, in order: a list comprehension with an
      `if`. */
  function Filter<T>(p: T -> bool, s: seq<T>): (r: seq<T>)
    ensures |r| <= |s|
    ensures forall x :: x in r ==> x in s && p(x)
    ensures forall i :: 0 <= i < |s| && p(s[i]) ==> s[i] in r
  {
    if s == [] then [] else (if p(s[0]) then [s[0]] else []) + Filter(p, s[1..])
  }

  /** The images of the kept elements are exactly the images of the
      elements that pass the test. */
  lemma MapFilterMembers<T, U>(f: T -> U, p: T -> bool, s: seq<T>)
    ensures forall i :: 0 <= i < |s| && p(s[i]) ==> f(s[i]) in Map(f, Filter(p, s))
    ensures forall y :: y in Map(f, Filter(p, s)) ==> exists i :: 0 <= i < |s| && p(s[i]) && f(s[i]) == y
  {
    var k := Filter(p, s);
    var r := Map(f, k);
    forall i | 0 <= i < |s| && p(s[i])
      ensures f(s[i]) in r
    {
      assert s[i] in k;
      var j :| 0 <= j < |k| && k[j] == s[i];
      assert r[j] == f(k[j]);
    }
    forall y | y in r
      ensures exists i :: 0 <= i < |s| && p(s[i]) && f(s[i]) == y
    {
      var j :| 0 <= j < |r| && r[j] == y;
      assert k[j] in k;
      var i :| 0 <= i < |s| && s[i] == k[j];
      assert p(s[i]) && f(s[i]) == y;
    }
  }

  /** Filtering distributes over concatenation, so the kept elements keep
      their relative order. */
  lemma {:induction false} FilterAppend<T>(p: T -> bool, a: seq<T>, b: seq<T>)
    ensures Filter(p, a + b) == Filter(p, a) + Filter(p, b)
  {
    if a == [] {
      assert a + b == b;
    } else {
      var ab := a + b;
      assert ab[0] == a[0];
      assert ab[1..] == a[1..] + b;
      FilterAppend(p, a[1..], b);
      var head, x, y := if p(a[0]) then [a[0]] else [], Filter(p, a[1..]), Filter(p, b);
      assert Filter(p, ab) == head + (x + y);
      assert head + (x + y) == (head + x) + y;
    }
  }

  /** Filtering twice by the same test is filtering once. */
  lemma {:induction false} FilterIdempotent<T>(p: T -> bool, s: seq<T>)
    ensures Filter(p, Filter(p, s)) == Filter(p, s)
  {
    if s != [] {
      FilterIdempotent(p, s[1..]);
      FilterAppend(p, if p(s[0]) then [s[0]] else [], Filter(p, s[1..]));
    }
  }

  lemma {:induction false} InsertCommutesWithMap<T, U>(x: T, s: seq<T>, f: T -> U, k1: T -> int, k2: U -> int)
    requires forall y :: k2(f(y)) == k1(y)
    ensures Insert(f(x), Map(f, s), k2) == Map(f, Insert(x, s, k1))
  {
    if s != [] {
      InsertCommutesWithMap(x, s[1..], f, k1, k2);
      assert Map(f, s)[1..] == Map(f, s[1..]);
    }
  }

  /** Sorting commutes with a map that keeps the key: relabelling the
      elements before or after the sort gives the same list. */
  lemma {:induction false} SortCommutesWithMap<T, U>(s: seq<T>, f: T -> U, k1: T -> int, k2: U -> int)
    requires forall y :: k2(f(y)) == k1(y)
    ensures SortByKey(Map(f, s), k2) == Map(f, SortByKey(s, k1))
  {
    if s != [] {
      var init := s[..|s| - 1];
      SortCommutesWithMap(init, f, k1, k2);
      assert Map(f, s)[..|s| - 1] == Map(f, init);
      InsertCommutesWithMap(s[|s| - 1], SortByKey(init, k1), f, k1, k2);
    }
  }

  /** The concatenation of `f` of every element, in order. */
  function ConcatMap<T, U>(f: T -> seq<U>, s: seq<T>): seq<U>
  {
    if s == [] then [] else f(s[0]) + ConcatMap(f, s[1..])
  }

  lemma {:induction false} ConcatMapAppend<T, U>(f: T -> seq<U>, a: seq<T>, b: seq<T>)
    ensures ConcatMap(f, a + b) == ConcatMap(f, a) + ConcatMap(f, b)
  {
    if a == [] {
      assert a + b == b;
    } else {
      var ab := a + b;
      assert ab[0] == a[0];
      assert ab[1..] == a[1..] + b;
      ConcatMapAppend(f, a[1..], b);
      var head, x, y := f(a[0]), ConcatMap(f, a[1..]), ConcatMap(f, b);
      assert ConcatMap(f, ab) == head + (x + y);
      assert head + (x + y) == (head + x) + y;
    }
  }
}

=== FILE: support.dfy ===
/** Shared vocabulary for the model: optional values, results carrying the
    Python exception the source would raise, laws for the floating-point
    numerics the source delegates to `math`, and Python's `int()` on reals. */
module Support {

  datatype Option<T> = None | Some(value: T)

  /** The exception a Python operation raises instead of returning. */
  datatype Fault =
    | ZeroDivision        // `x / 0`
    | NoneAttribute       // attribute lookup on `None`
    | IndexOutOfRange     // `list.pop(i)` or `list[i]` outside the list
    | KeyMissing          // a dictionary lookup of an absent key
    | NotImplemented      // an abstract base method
    | UnsetAttribute      // a function attribute read before it was written
    | InvalidResolution   // `pygame.Surface` of a negative size
    | AssertionFailed     // a failing `assert` statement

  datatype Result<T> = Ok(value: T) | Err(fault: Fault)

  /** `sqrt` behaves as `math.sqrt` on the non-negative reals. */
  ghost predicate SqrtLaw(sqrt: real -> real)
  {
    forall x: real {:trigger sqrt(x)} :: 0.0 <= x ==> 0.0 <= sqrt(x) && sqrt(x) * sqrt(x) == x
  }

  /** `acosDeg` behaves as `math.degrees(math.acos(x))` on [-1, 1]: its
      value is an angle in [0, 180]. */
  ghost predicate AcosLaw(acosDeg: real -> real)
  {
    forall x: real {:trigger acosDeg(x)} :: -1.0 <= x <= 1.0 ==> 0.0 <= acosDeg(x) <= 180.0
  }

  /** Python's `int(x)` on a float: truncation toward zero. */
  function Trunc(x: real): (r: int)
    ensures 0.0 <= x ==> r as real <= x < r as real + 1.0
    ensures x < 0.0 ==> r as real - 1.0 < x <= r as real
  {
    if x >= 0.0 then x.Floor else -((-x).Floor)
  }

  /** Truncation moves a number by less than one. */
  lemma TruncNear(x: real)
    ensures -1.0 < Trunc(x) as real - x < 1.0
  {
  }

  /** A square root that is exact whenever the argument is a perfect
      square of a non-negative real. */
  lemma SqrtOfSquare(sqrt: real -> real, x: real)
    requires SqrtLaw(sqrt)
    requires 0.0 <= x
    ensures sqrt(x * x) == x
  {
    SquareNonNegative(x);
    var s := sqrt(x * x);
    assert 0.0 <= s && s * s == x * x;
    if s < x {
      ProductMonotone(s, x);
    } else if x < s {
      ProductMonotone(x, s);
    }
  }

  /** A square of a non-negative real is non-negative. */
  lemma SquareNonNegative(x: real)
    requires 0.0 <= x
    ensures 0.0 <= x * x
  {
    if x > 0.0 {
      ScaleCompare(0.0, x, x);
    }
  }

  lemma ProductMonotone(a: real, b: real)
    requires 0.0 <= a < b
    ensures a * a < b * b
  {
    assert a * (b - a) >= 0.0;
    assert b * (b - a) > 0.0;
  }

  /** `math.sqrt` is strictly monotone on the non-negative reals. */
  lemma SqrtMonotone(sqrt: real -> real, x: real, y: real)
    requires SqrtLaw(sqrt)
    requires 0.0 <= x < y
    ensures sqrt(x) < sqrt(y)
  {
    var a, b := sqrt(x), sqrt(y);
    assert a * a == x && b * b == y;
    if b <= a {
      if b < a {
        ProductMonotone(b, a);
      }
    }
  }

  /** `math.sqrt` is zero exactly at zero. */
  lemma SqrtZero(sqrt: real -> real, x: real)
    requires SqrtLaw(sqrt)
    requires 0.0 <= x
    ensures sqrt(x) == 0.0 <==> x == 0.0
  {
    var s := sqrt(x);
    assert 0.0 <= s && s * s == x;
    if s != 0.0 {
      ProductMonotone(0.0, s);
    } else {
      assert x == 0.0 * 0.0;
    }
  }

  /** Against a positive denominator, comparing a ratio with 1, -1 and 0 is
      comparing the numerator with the denominator, its negation and 0. */
  lemma Ratio(p: real, d: real)
    requires 0.0 < d
    ensures p / d < 1.0 <==> p < d
    ensures p / d <= 1.0 <==> p <= d
    ensures -1.0 <= p / d <==> -d <= p
    ensures 0.0 <= p / d <==> 0.0 <= p
  {
    var q := p / d;
    assert q * d == p;
    if q < 1.0 { assert q * d < 1.0 * d; } else { assert q * d >= 1.0 * d; }
    if q <= 1.0 { assert q * d <= 1.0 * d; } else { assert q * d > 1.0 * d; }
    if -1.0 <= q { assert -1.0 * d <= q * d; } else { assert q * d < -1.0 * d; }
    if 0.0 <= q { assert 0.0 <= q * d; } else { assert q * d < 0.0; }
  }

  /** Multiplying both sides by a positive factor keeps an inequality. */
  lemma ScaleCompare(x: real, y: real, l: real)
    requires 0.0 < l
    ensures x <= y <==> x * l <= y * l
    ensures x < y <==> x * l < y * l
  {
    var d := y - x;
    assert y * l - x * l == d * l;
    if 0.0 < d {
      assert 0.0 < d * l;
    } else if d < 0.0 {
      assert d * l < 0.0;
    } else {
      assert d * l == 0.0;
    }
  }
}

=== FILE: vmath.dfy ===
/** The vector helpers of pyoneer3 (`vmath.py`): Python lists of floats
    combined element-wise. The length assertions of the source are the
    preconditions here; `math.sqrt` and `math.acos` are parameters obeying
    `Support.SqrtLaw` and `Support.AcosLaw`. */
module VMath {
  import opened Support

  type Vec = seq<real>

  function Add(a: Vec, b: Vec): (r: Vec)
    requires |a| == |b|
    ensures |r| == |a|
    ensures forall i :: 0 <= i < |r| ==> r[i] == a[i] + b[i]
  {
    if a == [] then [] else [a[0] + b[0]] + Add(a[1..], b[1..])
  }

  function Sub(a: Vec, b: Vec): (r: Vec)
    requires |a| == |b|
    ensures |r| == |a|
    ensures forall i :: 0 <= i < |r| ==> r[i] == a[i] - b[i]
  {
    if a == [] then [] else [a[0] - b[0]] + Sub(a[1..], b[1..])
  }

  function Mult(a: Vec, b: Vec): (r: Vec)
    requires |a| == |b|
    ensures |r| == |a|
    ensures forall i :: 0 <= i < |r| ==> r[i] == a[i] * b[i]
  {
    if a == [] then [] else [a[0] * b[0]] + Mult(a[1..], b[1..])
  }

  /** `c * v` component-wise: the scaling the thrust integration intends. */
  function Scale(c: real, v: Vec): (r: Vec)
    ensures |r| == |v|
    ensures forall i :: 0 <= i < |r| ==> r[i] == c * v[i]
  {
    if v == [] then [] else [c * v[0]] + Scale(c, v[1..])
  }

  /** The sum of the element-wise products, `sum(a[i] * b[i])`. */
  function Dot(a: Vec, b: Vec): real
    requires |a| == |b|
  {
    if a == [] then 0.0 else a[0] * b[0] + Dot(a[1..], b[1..])
  }

  /** `sum(x ** 2 for x in v)`, the radicand of `magnitude`. */
  function SumSquares(v: Vec): real
  {
    if v == [] then 0.0 else v[0] * v[0] + SumSquares(v[1..])
  }

  function Magnitude(v: Vec, sqrt: real -> real): real
  {
    sqrt(SumSquares(v))
  }

  /** `normalize` divides every component by the magnitude: a non-empty
      zero vector raises ZeroDivisionError, and the empty vector has no
      component to divide, so it comes back empty. */
  function Normalize(v: Vec, sqrt: real -> real): (r: Result<Vec>)
    requires SqrtLaw(sqrt)
    ensures r.Err? <==> |v| > 0 && SumSquares(v) == 0.0
    ensures r.Err? ==> r.fault == ZeroDivision
    ensures r.Ok? ==> |r.value| == |v|
    ensures r.Ok? && v != [] ==> Magnitude(v, sqrt) > 0.0
    ensures r.Ok? ==> forall i :: 0 <= i < |v| ==> r.value[i] * Magnitude(v, sqrt) == v[i]
  {
    SumSquaresNonNegative(v);
    var m := Magnitude(v, sqrt);
    SqrtZero(sqrt, SumSquares(v));
    if v == [] then Ok([])
    else if m == 0.0 then Err(ZeroDivision)
    else Ok(Scale(1.0 / m, v))
  }

  lemma {:induction false} SumSquaresNonNegative(v: Vec)
    ensures SumSquares(v) >= 0.0
  {
    if v != [] {
      SumSquaresNonNegative(v[1..]);
      assert v[0] * v[0] >= 0.0;
    }
  }

  /** `sub(add(a, b), b)` gives back `a`. */
  lemma SubUndoesAdd(a: Vec, b: Vec)
    requires |a| == |b|
    ensures Sub(Add(a, b), b) == a
  {
    var s := Sub(Add(a, b), b);
    assert forall i :: 0 <= i < |a| ==> s[i] == a[i];
  }

  lemma AddCommutes(a: Vec, b: Vec)
    requires |a| == |b|
    ensures Add(a, b) == Add(b, a)
  {
    assert forall i :: 0 <= i < |a| ==> Add(a, b)[i] == Add(b, a)[i];
  }

  lemma {:induction false} DotSymmetric(a: Vec, b: Vec)
    requires |a| == |b|
    ensures Dot(a, b) == Dot(b, a)
  {
    if a != [] {
      DotSymmetric(a[1..], b[1..]);
    }
  }

  /** `magnitude(v) ** 2 == dot(v, v)`. */
  lemma {:induction false} MagnitudeSquared(v: Vec, sqrt: real -> real)
    requires SqrtLaw(sqrt)
    ensures Magnitude(v, sqrt) * Magnitude(v, sqrt) == Dot(v, v)
    ensures Magnitude(v, sqrt) >= 0.0
  {
    SumSquaresIsSelfDot(v);
    SumSquaresNonNegative(v);
  }

  lemma {:induction false} SumSquaresIsSelfDot(v: Vec)
    ensures SumSquares(v) == Dot(v, v)
  {
    if v != [] {
      SumSquaresIsSelfDot(v[1..]);
    }
  }

  lemma {:induction false} SumSquaresScale(c: real, v: Vec)
    ensures SumSquares(Scale(c, v)) == c * c * SumSquares(v)
  {
    if v != [] {
      SumSquaresScale(c, v[1..]);
      assert Scale(c, v)[1..] == Scale(c, v[1..]);
      assert (c * v[0]) * (c * v[0]) == c * c * (v[0] * v[0]);
    }
  }

  /** A successful `normalize` of a non-empty vector yields a unit vector. */
  lemma NormalizeIsUnit(v: Vec, sqrt: real -> real)
    requires SqrtLaw(sqrt)
    requires Normalize(v, sqrt).Ok?
    ensures SumSquares(Normalize(v, sqrt).value) == if v == [] then 0.0 else 1.0
  {
    if v == [] {
      return;
    }
    var m := Magnitude(v, sqrt);
    SumSquaresNonNegative(v);
    assert m * m == SumSquares(v);
    SumSquaresScale(1.0 / m, v);
    assert (1.0 / m) * (1.0 / m) * (m * m) == 1.0;
  }

  /** The acos argument clamp `max(-1, min(1, x))`. */
  function ClampUnit(x: real): (r: real)
    ensures -1.0 <= r <= 1.0
    ensures -1.0 <= x <= 1.0 ==> r == x
    ensures x > 1.0 ==> r == 1.0
    ensures x < -1.0 ==> r == -1.0
  {
    if 1.0 < x then 1.0 else if x < -1.0 then -1.0 else x
  }

  /** The triple `(dist, projection, angle)` returned by `angle_between`. */
  datatype Angle = Angle(dist: real, projection: real, degrees: real)

  /** Python truthiness of the optional `precomp_dist`: `None` and `0` are falsy. */
  predicate Truthy(d: Option<real>)
  {
    d.Some? && d.value != 0.0
  }

  /** `angle_between`: the distance (the precomputed one when truthy), the
      projection of the point on the heading, and the angle whose cosine
      is their ratio clamped into [-1, 1]; zero when the distance is not
      positive. */
  function AngleBetween(heading: Vec, point: Vec, precompDist: Option<real>,
                        sqrt: real -> real, acosDeg: real -> real): (r: Angle)
    requires |heading| == |point|
    requires Truthy(precompDist) || |point| >= 2
    ensures Truthy(precompDist) ==> r.dist == precompDist.value
    ensures !Truthy(precompDist) ==> r.dist == sqrt(point[0] * point[0] + point[1] * point[1])
    ensures SqrtLaw(sqrt) && !Truthy(precompDist) ==> r.dist >= 0.0
    ensures r.projection == Dot(point, heading)
    ensures r.dist <= 0.0 ==> r.degrees == 0.0
    ensures AcosLaw(acosDeg) ==> 0.0 <= r.degrees <= 180.0
    ensures r.dist > 0.0 ==> r.degrees == acosDeg(ClampUnit(r.projection / r.dist))
    ensures r.dist > 0.0 && -r.dist <= r.projection <= r.dist ==> r.degrees == acosDeg(r.projection / r.dist)
    ensures r.dist > 0.0 && r.projection > r.dist ==> r.degrees == acosDeg(1.0)
    ensures r.dist > 0.0 && r.projection < -r.dist ==> r.degrees == acosDeg(-1.0)
  {
    var dist := if Truthy(precompDist) then precompDist.value
                else sqrt(point[0] * point[0] + point[1] * point[1]);
    var projection := Dot(point, heading);
    if dist > 0.0 then
      Ratio(projection, dist);
      Angle(dist, projection, acosDeg(ClampUnit(projection / dist)))
    else
      Angle(dist, projection, 0.0)
  }
}
